=== FILE: README.md ===
# CiteMin, modelled in Dafny

CiteMin is a small web application with two halves.

- **Backend (Django REST).** It registers and signs in users, with a server-side password-strength rule. It accepts encrypted file uploads and lists and serves each user's files. It serves scraped weather readings. It logs every request and response through a middleware that masks secrets, and it has a scraper that turns a weather page into a reading.
- **Frontend (React).** It has an HTTP client that attaches the bearer token and refreshes it once on a 401. It also has a session context (`user`, `token`, `loading`, `registrationSuccess`), a route table with `ProtectedRoute`/`PublicRoute` guards, and the pages that drive them: sign-in, registration, upload, file list with preview, and the weather dashboard. It mirrors the server's password rules with its own validator and strength meter.

This project models the behaviour of that core as pure Dafny functions over immutable datatypes. It proves what the code promises, and where the two halves disagree it proves that too.

- **Fixed values.** The rules, messages, constants, status codes and response shapes are those of the source.
- **Parameters.** The server, the browser's storage and location, the user database, token issuing, password hashing, the file store and the clock are parameters: a function argument or an explicit reply value.
- **JavaScript vs Python.** Truthiness, `typeof null === 'object'`, UTF-16 `length`, Python's Unicode `\d` and `str.strip` are each modelled explicitly. They are where the two halves differ.

Layout, one module per file:

| file | module | models |
|---|---|---|
| base.dfy | Base | `Option`, map lookup, bytes |
| json.dfy | Json | JSON values, JS and Python truthiness, field access, `Array.join` |
| text.dfy | Text | substrings, split/join, UTF-16 length, lower-casing, JS `trim` and Python `strip`, decimal rendering |
| password_rules.dfy | PasswordRules | character classes, special characters, both deny-lists |
| password_validator.dfy | PasswordValidator | frontend/src/utils/passwordValidator.js |
| strength_validator.dfy | StrengthValidator | backend/users/validators.py and the expectations of backend/users/tests.py |
| password_agreement.dfy | PasswordAgreement | where the two password checks agree and where they do not |
| serializers.dfy | Serializers | backend/users/serializers.py |
| views.dfy | Views | backend/users/views.py |
| http.dfy | Http | the request as the logging code sees it; `get_client_ip` |
| logger.dfy | Logger | backend/users/utils/logger.py |
| middleware.dfy | Middleware | backend/users/middleware.py |
| scraper.dfy | Scraper | temperature and description normalisation in backend/users/utils/scraper.py |
| auth_service.dfy | AuthService | frontend/src/services/authService.js |
| auth_context.dfy | AuthContext | frontend/src/context/AuthContext.js |
| routes.dfy | Routes | frontend/src/App.js |
| login_page.dfy, register_page.dfy, user_files_page.dfy, file_upload_page.dfy, weather_dashboard.dfy | LoginPage, RegisterPage, UserFilesPage, FileUploadPage, WeatherDashboard | the pages of the same names |

Three behaviours of the code shape the model:

- **Refresh failure.** When a refresh fails, the interceptor rejects with the original 401 error, not the refresh error (frontend/src/services/authService.js:51-59).
- **No origin on redirects.** `ProtectedRoute` redirects to `/login` without any origin state (frontend/src/App.js:17). So the sign-in page always returns the user to `/`.
- **One refresh per request.** Each failing request starts its own refresh (frontend/src/services/authService.js:36-56). The model follows one request's lifecycle.

## Model

| member | source | states |
|---|---|---|
| PasswordRules.AsciiDigitIsPyDecimal | backend/users/validators.py:39 | every ASCII digit also matches Python's Unicode `\d` |
| PasswordRules.BackendListIsPrefix | backend/users/validators.py:17-21 | the server's deny-list is exactly the first eleven of the browser's fifteen entries |
| PasswordRules.FrontendListCoversBackend | frontend/src/utils/passwordValidator.js:19-24 | a password containing a server deny-list entry contains a browser one |
| PasswordValidator.ValidatePassword | frontend/src/utils/passwordValidator.js:26-95 | each check is exactly its rule (UTF-16 length at least 8, the class patterns, ASCII digit, special set, no deny-list entry in the lower-cased text); `isValid` iff all six pass; `errors` are the failed rules' messages in rule order; `warnings` empty; strength is the bucket of the score |
| PasswordValidator.PushedErrorsInRuleOrder | frontend/src/utils/passwordValidator.js:38-83 | the sequence of pushes appends exactly the messages of the failed rules, in rule order |
| PasswordValidator.PushedNoneIffAllPassed | frontend/src/utils/passwordValidator.js:38-89 | no message is pushed iff every check passed, so `isValid` and an empty `errors` coincide |
| PasswordValidator.SequenceRuleLast | frontend/src/utils/passwordValidator.js:74-83 | the deny-list message, when present, is the last error |
| PasswordValidator.PassedPlusFailed | frontend/src/utils/passwordValidator.js:38-89 | passed checks plus error messages always make six |
| PasswordValidator.ScoreSum | frontend/src/utils/passwordValidator.js:97-111 | the score is the passed checks plus one for length at least 12 and one for at least 16 |
| PasswordValidator.CalculateStrength | frontend/src/utils/passwordValidator.js:97-122 | the threshold comparisons on `min(score/6, 1)` pick the same level as the integer buckets at most 1 / 2 / 3-4 / 5 / at least 6 |
| PasswordValidator.BucketMonotone | frontend/src/utils/passwordValidator.js:113-121 | a higher score never gives a lower level |
| PasswordValidator.StrengthMonotoneInChecks | frontend/src/utils/passwordValidator.js:97-122 | turning any check from failed to passed never lowers the strength |
| PasswordValidator.StrengthMonotoneInLength | frontend/src/utils/passwordValidator.js:108-111 | with the same checks, a longer password never has lower strength |
| PasswordValidator.ShortIsInvalid | frontend/src/utils/passwordValidator.js:39-43 | fewer than 8 UTF-16 units fails the length check and makes the password invalid |
| PasswordValidator.ValidIsVeryStrong | frontend/src/utils/passwordValidator.js:88-121 | every valid password is rated very strong |
| PasswordValidator.StrengthText | frontend/src/utils/passwordValidator.js:124-133 | each of the five levels has its own text and colour; inherited object keys give an entry without them; anything else gives the "Неизвестно" fallback |
| PasswordValidator.EveryLevelHasText | frontend/src/utils/passwordValidator.js:117-133 | every level the meter can produce has a known, non-fallback text |
| PasswordValidator.PasswordOneExample | frontend/src/utils/passwordValidator.js:19-121 | "Password1!" passes all checks but the deny-list, is invalid, and is rated strong |
| StrengthValidator.FirstListed | backend/users/validators.py:47-52 | the entry reported is the first in list order that occurs in the lower-cased password; none iff no entry occurs |
| StrengthValidator.Validate | backend/users/validators.py:23-55 | raises iff some rule fails; the errors are the failed rules' messages in the order length, upper, lower, digit, special, sequence; the sequence message names the first listed entry |
| StrengthValidator.ShortGetsLengthError | backend/users/validators.py:27-28 | a password shorter than 8 code points always gets the length message first |
| StrengthValidator.FixedMessage | backend/users/validators.py:26-45 | each rule other than the deny-list reports one of the five fixed messages |
| StrengthValidator.FixedBeforeLast | backend/users/validators.py:26-52 | every error but the last is a fixed message |
| StrengthValidator.SequenceMessageIsLast | backend/users/validators.py:46-52 | the deny-list contributes at most one message, and only last |
| StrengthValidator.StrongPassAccepted | backend/users/tests.py:10-16 | "StrongPass123!" is accepted |
| StrengthValidator.ShortOneRejected | backend/users/tests.py:18-21 | "Short1!" is rejected with the length message |
| StrengthValidator.NoPasswordRejected | backend/users/tests.py:23-26 | "nopassword123!" is rejected (uppercase missing, "password" listed) |
| StrengthValidator.QwertyRejected | backend/users/tests.py:28-31 | "qwerty123!" is rejected naming "qwerty" |
| PasswordAgreement.FrontendOnlyEntries | frontend/src/utils/passwordValidator.js:23 | the four browser-only entries are exactly those the server list lacks |
| PasswordAgreement.ValidityAgreement | frontend/src/utils/passwordValidator.js:26-95 | for passwords without astral characters: valid in the browser iff accepted by the server, holding an ASCII digit, and free of the browser-only entries |
| PasswordAgreement.FrontendValidImpliesBackendAccepted | backend/users/validators.py:23-55 | every password the browser calls valid is accepted by the server when it has no astral characters |
| PasswordAgreement.AstralDisagreement | frontend/src/utils/passwordValidator.js:39 | "Aa2!😀😀" is valid in the browser (8 UTF-16 units) but refused by the server (6 code points) |
| PasswordAgreement.DenyListDisagreement | frontend/src/utils/passwordValidator.js:19-24 | "Abcdefgh1!" is accepted by the server but invalid in the browser |
| PasswordAgreement.DigitDisagreement | backend/users/validators.py:39 | "Aa!٣bcdefg" (Arabic-Indic three) is accepted by the server but lacks a digit for the browser |
| PasswordAgreement.KelvinSignDenied | frontend/src/utils/passwordValidator.js:74-83 | "Aa1!asdfghj" + U+212A + "l" contains "asdfghjkl" once lower-cased, for the browser and the server alike |
| Serializers.CharField | backend/users/serializers.py:8-9 | a missing value is refused as required, `null` as not nullable, and a boolean, array or object as not a valid string; an integer passes as its decimal text; a string that is blank once stripped is refused as blank, one holding a NUL with the null-character message, and otherwise passes stripped |
| Serializers.NullCharacterRefused | backend/users/serializers.py:8-24 | any value holding a NUL gets the null-character message, and a password holding one gets that message alone, without the strength validator's |
| Serializers.PasswordFieldErrors | backend/users/serializers.py:20-24 | the password field's errors are the field error, or the strength validator's messages |
| Serializers.RegistrationFieldErrors | backend/users/serializers.py:7-24 | `password` holds the password field's messages iff it has any; `password2` holds its field message iff that field fails; the model-level errors of every other field are kept as they are; no other key appears |
| Serializers.ValidateRegistration | backend/users/serializers.py:7-29 | valid iff no field fails and the two cleaned passwords are equal; then the password is one the strength validator accepts, username and e-mail are passed on stripped, and first and last name stripped when present, blank allowed |
| Serializers.WeakPasswordFailsRegistration | backend/users/serializers.py:20-24 | any password the strength validator refuses fails registration on `password`, with the validator's messages, or the null-character message alone when it holds a NUL |
| Serializers.MismatchIsTheOnlyError | backend/users/serializers.py:26-29 | with all fields valid, differing passwords give exactly one error, under `password` |
| Serializers.Create | backend/users/serializers.py:31-39 | defined iff both password keys are present (`pop` raises otherwise); the user gets exactly the other fields and the hash of the password |
| Serializers.CreateKeepsNoPlainPassword | backend/users/serializers.py:31-37 | the created user stores the hash, never the plain password |
| Serializers.ValidateLoginAttrs | backend/users/serializers.py:45-51 | attrs are returned unchanged iff both username and password are non-empty |
| Serializers.ValidateLogin | backend/users/serializers.py:41-51 | a `null` body gets `non_field_errors` "No data provided", any other non-object body `non_field_errors` naming its Python type; an object body is valid iff both fields pass, with the stripped values, and otherwise `username` and `password` carry their field message exactly when that field fails, with no `non_field_errors` |
| Serializers.LoginValidateNeverRefusesAfterFields | backend/users/serializers.py:45-51 | once both fields pass, `validate` never refuses |
| Serializers.NumberUsernameAccepted | backend/users/serializers.py:42-43 | a number sent as the username is accepted as its decimal text |
| Serializers.NullAndNonTextRefused | backend/users/serializers.py:42-43 | `null` and a boolean, array or object are refused on their own fields, with their own messages |
| Serializers.ListBodyRefused | backend/users/serializers.py:41-43 | an array body is refused as a whole: "Invalid data. Expected a dictionary, but got list." |
| Serializers.ValidateFile | backend/users/serializers.py:65-77 | accepted iff the type is one of the five listed and the size is at most 10 MiB; the type check comes first |
| Serializers.SizeBoundary | backend/users/serializers.py:73-75 | exactly 10485760 bytes passes; one more is refused |
| Serializers.OtherTypesRefused | backend/users/serializers.py:67-70 | an unlisted type gets the type message whatever the size |
| Serializers.ValidateDescription | backend/users/serializers.py:63 | absent or sent as the empty string counts as absent; whitespace only is refused as blank; otherwise it passes iff, once stripped, it has at most 255 characters and no NUL, each failing check adding its message, length first; the stripped text is kept |
| Serializers.FileFieldErrors | backend/users/serializers.py:62-77 | a missing file gets the required message, an empty one the empty-file message, any other the `validate_file` message if it fails; no message iff the file is non-empty and passes `validate_file` |
| Serializers.ValidateUpload | backend/users/serializers.py:61-77 | valid iff a non-empty file passes `validate_file` and the description passes; `file` and `description` hold exactly their field's messages, and no other key appears |
| Serializers.EmptyFileRefused | backend/users/serializers.py:62 | an empty file of an allowed type is refused with the empty-file message alone |
| Serializers.EmptyDescriptionIsAbsent | backend/users/serializers.py:63 | a description sent as "" validates exactly as no description |
| Views.ErrorsRoundTrip | backend/users/views.py:61 | the error map sent as JSON decodes back to itself |
| Views.RegisteredBody | backend/users/views.py:47-58 | the 201 body holds exactly `user{id,username,email}` and `tokens{refresh,access}` |
| Views.RegisterView | backend/users/views.py:28-61 | 201 with the body above, holding the stripped username and e-mail, iff registration validates; else 400 with the serializer errors |
| Views.LoginView | backend/users/views.py:66-99 | 400 with the serializer errors on invalid input, including a body that is not an object; 401 with `error` when authentication fails; 200 with user and tokens otherwise |
| Views.UploadView | backend/users/views.py:112-158 | 401 with the authentication's body iff no user is signed in; 400 with the serializer errors iff the input is invalid; 500 when saving fails; 201 echoing name, size, type and description |
| Views.AbsentDescriptionIsEmpty | backend/users/views.py:122 | an absent description is saved as the empty string |
| Views.OwnedBy | backend/users/views.py:167 | exactly the requester's files, each file of the list counted |
| Views.OwnedBySingle | backend/users/views.py:167 | a one-file list keeps its file iff the requester owns it |
| Views.OwnedByAppend | backend/users/views.py:167 | filtering distributes over concatenation, so the requester's files come in the query's order |
| Views.FilesView | backend/users/views.py:161-178 | 401 without a signed-in user; else 200 with one entry per owned file, each with the six listed fields |
| Views.FindOwned | backend/users/views.py:189 | found iff a file with that id belongs to the requester |
| Views.InlineDisposition | backend/users/views.py:200 | the header is `inline; filename="…"` around the original name |
| Views.DownloadView | backend/users/views.py:181-206 | 401 without a signed-in user; 404 with a `detail` body iff the requester owns no file with that id; a served file is that file's decrypted content with its stored type and inline disposition; 500 iff decryption fails |
| Views.OthersFilesNotServed | backend/users/views.py:188-189 | a file owned by someone else is never served: the requester gets the 404 body |
| Views.Reverse | backend/users/views.py:221 | same length, elements mirrored |
| Views.SentRows | backend/users/views.py:215 | at most 20 rows, and all of them when fewer |
| Views.WeatherView | backend/users/views.py:209-222 | 401 without a signed-in user; else 200, `history` is the first 20 rows reversed and `current` the first row or null |
| Views.CurrentIsLastOfHistory | backend/users/views.py:217-221 | with rows present, `current` is the last entry of `history` |
| Http.UserName | backend/users/middleware.py:59 | the user's name when signed in, else "Anonymous" |
| Http.ClientIp | backend/users/middleware.py:36-45 | with a non-empty `X-Forwarded-For`, the untrimmed text before its first comma, followed in the header by that comma or the header's end; else `REMOTE_ADDR` |
| Http.ClientIpCopiesAgree | backend/users/utils/logger.py:60-69 | the split-based copies of the rule agree with it on every input |
| Http.ClientIpUntrimmed | backend/users/middleware.py:42 | spaces around the first address are kept |
| Http.ClientIpLeadingComma | backend/users/middleware.py:41-42 | a header starting with a comma gives the empty address, not `REMOTE_ADDR` |
| Http.ClientIpEmptyHeader | backend/users/middleware.py:40-44 | an empty header falls back to `REMOTE_ADDR`, and nothing gives none |
| Logger.UserAction | backend/users/utils/logger.py:7-20 | exactly `action`, `user`/`user_id` ("Anonymous"/null without a user) and `details` iff truthy, each with its value |
| Logger.ApiCallBase | backend/users/utils/logger.py:28-34 | exactly view, method, path, user and user_id: the view name, the request's method and path, and the user's name and id, or "Anonymous" and null |
| Logger.ApiCall | backend/users/utils/logger.py:23-39 | every extra key is present with its extra value; other keys keep the base values |
| Logger.ExtraInfoOverrides | backend/users/utils/logger.py:36-37 | an extra `view` replaces the base one |
| Logger.SecurityEvent | backend/users/utils/logger.py:42-57 | exactly the event type, the request's method and path, `client_ip` and the user's name or "Anonymous", plus `details` iff truthy |
| Logger.EmptyDetailsOmitted | backend/users/utils/logger.py:17-18 | an empty details dict is left out of both records |
| Middleware.MaskWith | backend/users/middleware.py:105-108 | same keys; listed keys hidden; others unchanged |
| Middleware.MaskForm | backend/users/middleware.py:102-108 | each of the five sensitive form fields present becomes `["***HIDDEN***"]`; no key added |
| Middleware.MaskIdempotent | backend/users/middleware.py:105-108 | masking twice equals masking once |
| Middleware.MaskFormIdempotent | backend/users/middleware.py:105-108 | the same, for the form body |
| Middleware.MaskJson | backend/users/middleware.py:113-118 | a JSON object is masked at the top level; null, a boolean or a number makes the masking throw, and so does an array holding a sensitive name or a string containing one; any other array or string passes unchanged |
| Middleware.SafeRequestBody | backend/users/middleware.py:96-126 | the masked JSON value for a non-empty JSON request that parses; the masked form as text when its JSON has a syntax error; the masked form for any other request; `None` exactly when reading the form raises, decoding fails otherwise, or the masking throws |
| Middleware.NoPasswordInFormLog | backend/users/middleware.py:104-108 | a logged form body never shows a sensitive field's value |
| Middleware.LogRequest | backend/users/middleware.py:47-71 | the record has the body iff the method is POST, PUT or PATCH and the safe body is truthy, plus client address, agent and user |
| Middleware.SafeResponseBody | backend/users/middleware.py:128-138 | a DRF response's data; otherwise a prefix of the content of at most 1000 bytes |
| Middleware.LogResponse | backend/users/middleware.py:73-94 | as written: the body is in the record iff status at least 400; a plain error response makes the record fail |
| Middleware.PlainErrorResponsesUnlogged | backend/users/middleware.py:88-94 | every plain response with status at least 400 leaves no RESPONSE record |
| Middleware.LogResponseAsText | backend/users/middleware.py:73-94 | corrected: always recorded, body iff status at least 400, and always serializable |
| Middleware.AsTextAgreesWhenLogged | backend/users/middleware.py:73-94 | the correction changes nothing where the original already logged |
| Scraper.Temperature | backend/users/utils/scraper.py:29-49 | stripped text verbatim; else `+v°C` or `v°C` by the sign rule; else "Н/Д"; never empty |
| Scraper.AttributeRoundTrip | backend/users/utils/scraper.py:38-46 | for every element whose text strips to nothing, the attribute value is recovered from the temperature built from it, which starts with "+" iff the sign rule added one or the value had it |
| Scraper.SignExamples | backend/users/utils/scraper.py:41-46 | "14" gives "+14°C", "-3" gives "-3°C", "0" gives "0°C" |
| Scraper.Description | backend/users/utils/scraper.py:52-56 | "Нет данных" without the element; otherwise a contiguous part of the text with only Python whitespace removed around it, and no whitespace left at either end |
| AuthService.Bearer | frontend/src/services/authService.js:18 | the header is "Bearer " followed by the token |
| AuthService.BearerRoundTrip | frontend/src/services/authService.js:18 | the token is recovered from its header |
| AuthService.WithAuth | frontend/src/services/authService.js:14-25 | `Authorization` is set to the stored access token iff that token is non-empty; nothing else changes |
| AuthService.Call | frontend/src/services/authService.js:28-61 | at most one refresh and one replay, only on a 401 with a stored refresh token; success stores the new access token and replays with it; failure removes both tokens, goes to /login and rejects the original error; any other error is rejected unchanged |
| AuthService.NoSecondRefreshAfterLogout | frontend/src/services/authService.js:51-56 | after a failed refresh, the next 401 makes no refresh call |
| AuthService.ReplayUsesStoredToken | frontend/src/services/authService.js:44-49 | the replay carries "Bearer " and the new access token; the stored refresh token and every other key are left as they were |
| AuthService.UploadFormData | frontend/src/services/authService.js:87-92 | the file part first; a description part iff the description is non-empty |
| AuthService.LastText | backend/users/views.py:114-116 | a text part of that name iff one was sent, and it is the last one sent |
| AuthService.LastFile | backend/users/views.py:114-116 | a file part of that name iff one was sent, and it is the last one sent |
| AuthService.ReceivedUpload | backend/users/views.py:114-116 | the serializer sees the last `file` part and the last `description` part of the multipart body, each absent iff none was sent |
| AuthService.SecondFileWins | backend/users/views.py:114-116 | of two files sent under `file`, the second is validated |
| AuthService.UploadAgreement | frontend/src/services/authService.js:87-100 | the server validates the chosen file and description: valid iff the file is non-empty and passes `validate_file` and the description is empty or strips to 1-255 characters without a NUL; a whitespace-only description is refused |
| AuthService.RequestOf | frontend/src/services/authService.js:63-115 | each operation's verb and path; POST bodies only; multipart exactly for register and upload, with the form as given and the upload parts; login sends JSON with exactly its username and password |
| AuthService.LoginRequestAgreement | frontend/src/services/authService.js:73-76 | the server's login serializer accepts the client's login body iff both strings strip to something non-empty without a NUL, and passes the stripped pair on |
| AuthService.RoutesDistinct | frontend/src/services/authService.js:63-115 | different operations use different paths |
| AuthContext.Init | frontend/src/context/AuthContext.js:15-18 | no user, loading, no registration success, and the token iff one is stored |
| AuthContext.Logout | frontend/src/context/AuthContext.js:83-89 | signed out, no token, both stored keys removed, every other key kept |
| AuthContext.LogoutIdempotent | frontend/src/context/AuthContext.js:83-89 | logging out twice equals logging out once |
| AuthContext.LogoutDropsAuthorization | frontend/src/context/AuthContext.js:83-89 | after logout no request carries a bearer token |
| AuthContext.CheckAuth | frontend/src/context/AuthContext.js:21-36 | loading ends false; without a token nothing else changes; with one, the profile on success, a logout on failure |
| AuthContext.FailedCheckSignsOut | frontend/src/context/AuthContext.js:21-36 | a failed profile check leaves the session signed out, token and storage in step, and the next request without a token |
| AuthContext.CheckAnsweredKeepsTokenInStep | frontend/src/context/AuthContext.js:21-36 | a profile check answered at once keeps token and storage in step, and signs in iff the profile is truthy |
| AuthContext.Accept | frontend/src/context/AuthContext.js:41-48 | with a non-null `tokens` in an object reply: user and token set, both tokens stored as strings; otherwise it throws |
| AuthContext.Login | frontend/src/context/AuthContext.js:38-57 | success as above; a rejected request leaves the context as it was and gives the server's truthy `error` or "Ошибка авторизации"; a reply without usable `tokens` gives "Ошибка авторизации" after the reply's user has been set |
| AuthContext.UserSetBeforeThrow | frontend/src/context/AuthContext.js:41-44 | a reply with a user and no tokens fails, yet that user is set; storage and token are untouched |
| AuthContext.Register | frontend/src/context/AuthContext.js:59-81 | `registrationSuccess` holds iff registration succeeded; on failure the whole server data or "Ошибка регистрации" |
| AuthContext.LoginAuthorizesNextRequest | frontend/src/context/AuthContext.js:38-50 | after a 200 from the server's login view, the next request carries the issued access token |
| AuthContext.BadCredentialsDropStoredSession | frontend/src/services/authService.js:36-56 | a wrong password while a refresh token is stored triggers a refresh; when that fails, the stored session is erased |
| AuthContext.TokenInStepPreserved | frontend/src/context/AuthContext.js:15-89 | initialisation, logout and a successful sign-in keep the context token equal to the stored one |
| AuthContext.RefreshDesynchronises | frontend/src/services/authService.js:44-47 | a refresh changes the stored token but not the context's |
| Routes.ProtectedRoute | frontend/src/App.js:10-18 | loading text while loading; the child when signed in; else a redirect to /login with no state |
| Routes.PublicRoute | frontend/src/App.js:21-29 | loading text while loading; the child when signed out; else a redirect to / |
| Routes.GuardsComplementary | frontend/src/App.js:10-29 | once loaded, exactly one of the two guards renders its child |
| Routes.Resolve | frontend/src/App.js:36-72 | / renders home unguarded; /login and /register behind `PublicRoute`; every other path redirects to / |
| Routes.RoutesDisjoint | frontend/src/App.js:37-53 | no path matches two routes |
| Routes.LoginPathVariants | frontend/src/App.js:38-45 | "/Login/" and "/login" both reach the sign-in page |
| Routes.RedirectsSettle | frontend/src/App.js:10-71 | every redirect carries no state and lands on a page that does not redirect again |
| LoginPage.From | frontend/src/pages/LoginPage.js:24 | `from.pathname` when present, else "/"; never falsy |
| LoginPage.FromIsAlwaysHome | frontend/src/pages/LoginPage.js:24 | no redirect of the application carries a state, so `from` is always "/" |
| LoginPage.RedirectWhenSignedIn | frontend/src/pages/LoginPage.js:27-31 | a signed-in visitor is sent to `from`, and only then |
| LoginPage.SignedInVisitorGoesHome | frontend/src/pages/LoginPage.js:24-31 | a signed-in visitor redirected to the page is sent home |
| LoginPage.ValidateForm | frontend/src/pages/LoginPage.js:54-66 | the username message iff the trimmed username is empty; the password message iff the password is empty; in that order |
| LoginPage.EnabledIffValid | frontend/src/pages/LoginPage.js:128 | the button is enabled iff the page is idle and the form check passes |
| LoginPage.BlankUsernameUnmarked | frontend/src/pages/LoginPage.js:124-126 | a username of spaces is refused yet its field is not marked |
| LoginPage.HandleBlur | frontend/src/pages/LoginPage.js:46-52 | the field becomes touched; nothing else changes |
| LoginPage.BlurMarksEmptyField | frontend/src/pages/LoginPage.js:46-52 | leaving a field marks it iff it is empty; typing clears the mark |
| LoginPage.HandleChange | frontend/src/pages/LoginPage.js:33-44 | the field is set and any error cleared |
| LoginPage.HandleLoginError | frontend/src/pages/LoginPage.js:101-118 | a string verbatim; an object by `username`, `password`, `non_field_errors` priority with arrays joined; a generic message otherwise; "Неизвестная ошибка" for other types; `null` throws |
| LoginPage.HandleSubmit | frontend/src/pages/LoginPage.js:68-99 | a failed form check shows the joined messages and does not call `login`; otherwise success navigates to `from` and failure shows the error |
| LoginPage.EmptyFormMessage | frontend/src/pages/LoginPage.js:79-85 | an empty form shows both messages joined with ", " |
| LoginPage.ServerErrorsShown | frontend/src/pages/LoginPage.js:101-118 | a 401 shows the server's message; a 400 shows the context fallback, never a field message |
| LoginPage.RejectedLoginShown | frontend/src/context/AuthContext.js:51-56 | a 400 or 401 with no refresh token stored reaches the page as the reply's `error`, or the context's fallback |
| LoginPage.BadRequestHasNoError | backend/users/views.py:99 | the login view's 400 body has no `error` member |
| RegisterPage.HandleChange | frontend/src/pages/RegisterPage.js:21-33 | the field is set; its truthy error becomes empty; the others are kept |
| RegisterPage.GetFieldError | frontend/src/pages/RegisterPage.js:55-62 | none unless truthy; arrays joined with ", "; other values verbatim |
| RegisterPage.EditClearsOnlyThatField | frontend/src/pages/RegisterPage.js:21-62 | after an edit that field shows nothing and every other field shows what it did |
| RegisterPage.HandleSubmit | frontend/src/pages/RegisterPage.js:35-53 | success navigates to /; an object error is kept as the map; anything else goes under `general` |
| RegisterPage.ServerErrorsShownPerField | frontend/src/pages/RegisterPage.js:45-62 | a server refusal shows each named field's messages joined with ", ", and nothing on other fields |
| UserFilesPage.LabelOf | frontend/src/pages/UserFilesPage.js:141-142 | image for `image/`, audio for `audio/`, a generic label otherwise |
| UserFilesPage.AcceptedTypesLabelled | frontend/src/pages/UserFilesPage.js:141-142 | every type the server accepts gets an image or audio label |
| UserFilesPage.LoadFiles | frontend/src/pages/UserFilesPage.js:70-79 | the data on success, the message on failure; loading ends false |
| UserFilesPage.View | frontend/src/pages/UserFilesPage.js:119-125 | loading, then error, then the empty note, then the table |
| UserFilesPage.FailedLoadShowsError | frontend/src/pages/UserFilesPage.js:70-79 | a failed load always shows its message |
| UserFilesPage.StartPreview | frontend/src/pages/UserFilesPage.js:81-84 | the file is shown as opening at once |
| UserFilesPage.FinishPreview | frontend/src/pages/UserFilesPage.js:85-99 | the URL on success, the preview closed on failure; loading ends false |
| UserFilesPage.HandlePreview | frontend/src/pages/UserFilesPage.js:81-100 | corrected: a successful fetch opens the file with its URL; a failure closes the preview |
| UserFilesPage.HandlePreviewAsWritten | frontend/src/pages/UserFilesPage.js:81-100 | as written: the preview always closes |
| UserFilesPage.ClosePreview | frontend/src/pages/UserFilesPage.js:102-109 | file and URL cleared; the URL revoked iff one was set |
| UserFilesPage.ModalOf | frontend/src/pages/UserFilesPage.js:171-196 | no modal without a file; a spinner until the URL; image for `image/`, audio for any other type |
| UserFilesPage.OnlyOpeningRowDisabled | frontend/src/pages/UserFilesPage.js:151 | only the row being opened is disabled |
| UserFilesPage.PreviewThenClose | frontend/src/pages/UserFilesPage.js:81-109 | opening shows the file; closing revokes its URL and hides the modal |
| UserFilesPage.PreviewNeverOpens | frontend/src/pages/UserFilesPage.js:87 | as written, no preview is ever shown |
| FileUploadPage.HandleFileChange | frontend/src/pages/FileUploadPage.js:14-17 | the first chosen file, or none; the error cleared |
| FileUploadPage.HandleSubmit | frontend/src/pages/FileUploadPage.js:19-43 | no file: only the error; else the upload request is sent; success clears the form and schedules /files; failure keeps it |
| FileUploadPage.NoDoubleUpload | frontend/src/pages/FileUploadPage.js:30-36 | after success, a second submit sends nothing |
| FileUploadPage.RetryResendsSameRequest | frontend/src/pages/FileUploadPage.js:37-39 | after a failure, a retry sends the same request |
| FileUploadPage.FilesPathLandsHome | frontend/src/pages/FileUploadPage.js:36 | /files has no route, so the navigation ends at / |
| WeatherDashboard.LoadWeather | frontend/src/pages/WeatherDashboard.js:20-32 | success sets `current` from the data and keeps the error; failure or a null body sets the error; loading ends false |
| WeatherDashboard.LoadAll | frontend/src/pages/WeatherDashboard.js:34-37 | loads applied in order; loading ends false after any |
| WeatherDashboard.Render | frontend/src/pages/WeatherDashboard.js:42-53 | loading, then error, then "no data", then the reading |
| WeatherDashboard.ErrorPersists | frontend/src/pages/WeatherDashboard.js:20-32 | once set, the error is never cleared |
| WeatherDashboard.OneFailureHidesLaterReadings | frontend/src/pages/WeatherDashboard.js:20-37 | after one failed load the page shows the error for good |
| WeatherDashboard.ServerReadingShown | frontend/src/pages/WeatherDashboard.js:20-53 | a first load from the weather view shows its first row, or "no data" when there are none |

## Left out

- **Not part of this model.** The `WeatherData` and `UserFile` models and `WeatherSerializer`, which backend/users/views.py imports, are not part of this model. The views therefore take the rows and the stored files as parameters.
- **Missing test import.** backend/users/tests.py imports a `PasswordValidator` that backend/users/validators.py does not define. The StrengthValidator lemmas state what the tests expect of `PasswordStrengthValidator`.
- **Other backend files.** These are configuration, or code the modelled code only calls:
  - backend/users/models.py, admin.py, apps.py and urls.py;
  - the encryption helpers in utils/encryption.py. Encrypting and decrypting are parameters: the save outcome and the download content.
  - utils/scheduler.py.
- **`user_profile_view`** (backend/users/views.py:104-109) returns the profile serializer's data. It has no logic beyond the serializer's field list.
- **`ErrorLoggingMiddleware.process_exception`** writes one formatted text line. Only its client-address rule is modelled, in Http.ClientIpCopiesAgree.
- **Timing and log output.**
  - The middleware's `__call__` timing (`duration_seconds`) is left out because it is clock and float arithmetic.
  - The logger levels and `json.dumps` formatting of log lines are left out. Serializability is modelled only where it decides the outcome.
- **The rest of `parse_gismeteo`.** Fetching the page, HTML parsing and the selectors, the stored row, and the logging are left out. Only the temperature and description normalisation is modelled.
- **`getPasswordRequirementsText`** and the `help_text` strings are constant text. So are PasswordStrengthIndicator, HomePage and ForgotPasswordPage.
- **`useAuth`** throwing outside its provider is React wiring.
- **`fetchWeather`** in the context passes the service's reply through. Its replies are the parameter of WeatherDashboard.LoadWeather.
- **Timers.** The five-minute polling interval and its clearing are modelled as a sequence of loads. The upload page's 1.5 s delay is modelled as the navigation it schedules.
- **`formatTime`** (frontend/src/pages/WeatherDashboard.js:6-11) uses locale date formatting.
- **Rendering.** Markup, CSS, the password visibility toggle and `alert` calls are left out. Object URLs are opaque strings; the blob behind them is not modelled.
- **Authentication.** The JWT authentication in front of the `IsAuthenticated` views is a parameter: the signed-in user's id, or the 401 body it answers with. Its settings and the exact texts of that body are not part of this model.
- **Concurrency.** The model follows one request at a time, so concurrent 401s and the refreshes they would each start are not modelled.
- Routes.Resolve: matches ASCII case-insensitively and ignores trailing slashes. It does not model the router's percent-decoding or its collapsing of repeated slashes.
- PasswordValidator.CalculateStrength: compares exact rationals instead of IEEE doubles. For the nine reachable scores the two give the same comparisons.
- PasswordRules.IsPyDecimal: covers the decimal-digit blocks of the Basic Multilingual Plane. Supplementary-plane digits, which Python's `\d` also matches, are not included.
- Text.Lower: lower-cases ASCII, the Kelvin sign U+212A and basic Cyrillic; other characters stay as they are. Besides the Kelvin sign, the only character whose lower-case form holds an ASCII letter is U+0130, which becomes "i" and U+0307. No deny-list entry ends in "i", so the deny-list verdicts of PasswordValidator.ValidatePassword, StrengthValidator.FirstListed and StrengthValidator.Validate come out the same.
- Serializers.ValidateRegistration: takes the model-level field checks as a parameter of errors, because they live in the model and in Django itself. For the username these are presence, blankness, a NUL character, uniqueness, length and `UnicodeUsernameValidator`, the character rule of the user model that allows only letters, digits and `@ . + - _`. For the e-mail they are presence, a NUL character, the format and length; a blank e-mail is accepted, since the model field allows blanks.
- Serializers.CharField: leaves out the framework's refusal of surrogate code points. A Dafny `char` is a Unicode scalar value, so such input cannot be written in the model.
- Serializers.CharField: JSON numbers are integers in this model, so a float value, which the framework accepts as `str(value)`, is not modelled.
- Serializers.ValidateRegistration: takes the body already split into fields. A registration body that is not a JSON object, refused under `non_field_errors` as for login, is not modelled, and the optional names are taken as strings.
- Serializers.FileFieldErrors: leaves out the framework's refusal of a file without a name. The multipart parser drops such a part before the serializer sees it.
- Views.DownloadView: the 404 `detail` text is the one recent framework versions give for `get_object_or_404`. Older versions send "Not found." instead, and the framework version is not part of this model.
- Views.LoginView: takes authentication and token issuing as functions, because they are Django's and the JWT library's.

## Findings

| source | as written | input that shows it | evidently intended | confidence | as-written member | corrected member |
|---|---|---|---|---|---|---|
| backend/users/middleware.py:88-94 | for a status of 400 or more the raw `content` bytes of a non-DRF response go into `json.dumps`, which raises `TypeError`; the handler logs only the error, so no RESPONSE record is written | a plain `HttpResponseNotFound(b"Not Found")`, status 404, such as Django returns for an unknown URL | the error response is logged with its body as text | high (not executed) | Middleware.LogResponse, Middleware.PlainErrorResponsesUnlogged | Middleware.LogResponseAsText, Middleware.AsTextAgreesWhenLogged |
| frontend/src/pages/UserFilesPage.js:87 | `handlePreview` calls `authService.getFileContent`, which frontend/src/services/authService.js does not define, so the call throws and the catch closes the preview | clicking preview on any listed file | the content is fetched and the file shown in the modal | high (not executed) | UserFilesPage.HandlePreviewAsWritten, UserFilesPage.PreviewNeverOpens | UserFilesPage.HandlePreview, UserFilesPage.PreviewThenClose |

=== FILE: auth_context.dfy ===
/**
 * The browser's session state (frontend/src/context/AuthContext.js): the
 * context fields, the start-up check and the login, register and logout
 * actions. Each action runs its request through `AuthService.Call`, so the
 * interceptors' effects on storage are part of the result; the server's
 * replies are parameters.
 */
module AuthContext {
  import opened Base
  import opened Json
  import AS = AuthService
  import V = Views
  import S = Serializers

  /** The state the provider keeps. `None` stands for both `null` and `undefined`. */
  datatype Context = Context(user: Option<Json>, token: Option<Json>, loading: bool, registrationSuccess: bool)

  /** The context together with the browser state (storage and navigation). */
  datatype Env = Env(ctx: Context, browser: AS.Browser)

  /** How `login` or `register` resolves: `{success: true, user}` or `{success: false, error}`. */
  datatype AuthResult = Success(user: Option<Json>) | Failure(error: Json)

  /** One action: the state after it and what it resolved to. */
  datatype Step = Step(env: Env, result: AuthResult)

  const LoginFailedMessage: string := "Ошибка авторизации"
  const RegisterFailedMessage: string := "Ошибка регистрации"

  /** The client's default headers. */
  const ApiHeaders: map<string, string> := map["Content-Type" := AS.JsonType]

  predicate Truthy(v: Option<Json>) {
    v.Some? && JsTruthy(v.value)
  }

  /** `isAuthenticated: !!user`. */
  predicate IsAuthenticated(c: Context) {
    Truthy(c.user)
  }

  /** `String(v)`, which `localStorage.setItem` stores. */
  function StorageString(v: Option<Json>): string {
    match v
    case None => "undefined"
    case Some(Null) => "null"
    case Some(j) => JsString(j)
  }

  /** The context on first render: no user, loading, the stored access token. */
  function Init(storage: AS.Storage): (e: Env)
    ensures e.ctx.loading && e.ctx.user.None? && !e.ctx.registrationSuccess
    ensures Truthy(e.ctx.token) <==> AS.Stored(storage, AS.AccessKey)
    ensures e.browser.storage == storage
  {
    var token := if AS.AccessKey in storage then Some(Str(storage[AS.AccessKey])) else None;
    Env(Context(None, token, true, false), AS.Browser(storage, None))
  }

  /** `logout()`: the user, token and registration flag cleared, both tokens removed. */
  function Logout(e: Env): (r: Env)
    ensures !IsAuthenticated(r.ctx) && r.ctx.token.None? && !r.ctx.registrationSuccess
    ensures r.ctx.loading == e.ctx.loading && r.browser.location == e.browser.location
    ensures AS.AccessKey !in r.browser.storage && AS.RefreshKey !in r.browser.storage
    ensures forall k :: k in e.browser.storage && k != AS.AccessKey && k != AS.RefreshKey ==>
      k in r.browser.storage && r.browser.storage[k] == e.browser.storage[k]
    ensures r.browser.storage.Keys <= e.browser.storage.Keys
  {
    Env(Context(None, None, e.ctx.loading, false),
        e.browser.(storage := e.browser.storage - {AS.AccessKey, AS.RefreshKey}))
  }

  /** Logging out twice is logging out once. */
  lemma LogoutIdempotent(e: Env)
    ensures Logout(Logout(e)) == Logout(e)
  {
  }

  /** After logout the client sends requests without a token. */
  lemma LogoutDropsAuthorization(e: Env, headers: map<string, string>)
    ensures AS.WithAuth(headers, Logout(e).browser.storage) == headers
  {
  }

  /**
   * The start-up check: with a truthy token, the profile is fetched; the
   * user is set on success, the session is logged out on failure. Loading
   * ends false either way.
   */
  function CheckAuth(e: Env, first: AS.Reply, refresh: AS.RefreshReply, replay: AS.Reply): (r: Env)
    ensures !r.ctx.loading
    ensures !Truthy(e.ctx.token) ==> r == Env(e.ctx.(loading := false), e.browser)
    ensures Truthy(e.ctx.token) ==>
      var t := AS.Call(e.browser, ApiHeaders, first, refresh, replay);
      (t.outcome.Resolved? ==> r.ctx.user == Some(t.outcome.data) && r.ctx.token == e.ctx.token
                               && r.browser == t.after)
      && (t.outcome.Rejected? ==> r == Logout(Env(e.ctx.(loading := false), t.after)))
  {
    if !Truthy(e.ctx.token) then Env(e.ctx.(loading := false), e.browser)
    else
      var t := AS.Call(e.browser, ApiHeaders, first, refresh, replay);
      match t.outcome
      case Resolved(data) => Env(e.ctx.(user := Some(data), loading := false), t.after)
      case Rejected(_) => Logout(Env(e.ctx.(loading := false), t.after))
  }

  /**
   * A failed profile check signs the session out: the context token and
   * storage are in step again, and the next request carries no token.
   */
  lemma {:induction false} FailedCheckSignsOut(
    e: Env, first: AS.Reply, refresh: AS.RefreshReply, replay: AS.Reply, headers: map<string, string>)
    requires Truthy(e.ctx.token)
    requires AS.Call(e.browser, ApiHeaders, first, refresh, replay).outcome.Rejected?
    ensures var r := CheckAuth(e, first, refresh, replay);
      !IsAuthenticated(r.ctx) && TokenInStep(r) && AS.WithAuth(headers, r.browser.storage) == headers
  {
    var t := AS.Call(e.browser, ApiHeaders, first, refresh, replay);
    LogoutDropsAuthorization(Env(e.ctx.(loading := false), t.after), headers);
  }

  /**
   * A profile check answered at once keeps the context token and storage in
   * step, and signs in exactly when the profile is truthy.
   */
  lemma CheckAnsweredKeepsTokenInStep(e: Env, data: Json, refresh: AS.RefreshReply, replay: AS.Reply)
    requires TokenInStep(e)
    ensures var r := CheckAuth(e, AS.Ok(data), refresh, replay);
      TokenInStep(r) && (Truthy(e.ctx.token) ==> (IsAuthenticated(r.ctx) <==> JsTruthy(data)))
  {
  }

  /** `error.response?.data`. */
  function ErrorData(error: AS.Reply): (d: Option<Json>)
    ensures d.Some? <==> error.HttpError?
  {
    match error
    case HttpError(_, data) => Some(data)
    case _ => None
  }

  /**
   * The success path shared by `login` and `register`: destructure `user`
   * and `tokens`, set the user, then read `tokens.access` and
   * `tokens.refresh` into the context and storage. A `null` body throws
   * before anything is set; missing `tokens` throws after the user is set.
   * `None` stands for either throw.
   */
  function Accept(ctx: Context, browser: AS.Browser, data: Json): (r: Option<Env>)
    ensures r.Some? <==> data.Obj? && "tokens" in data.fields && !data.fields["tokens"].Null?
    ensures r.Some? ==>
      var tokens := data.fields["tokens"];
      r.value.ctx.user == Field(data, "user") && r.value.ctx.token == Field(tokens, "access")
      && r.value.browser.location == browser.location
      && r.value.browser.storage.Keys == browser.storage.Keys + {AS.AccessKey, AS.RefreshKey}
      && r.value.browser.storage[AS.AccessKey] == StorageString(Field(tokens, "access"))
      && r.value.browser.storage[AS.RefreshKey] == StorageString(Field(tokens, "refresh"))
  {
    match Field(data, "tokens")
    case None => None
    case Some(tokens) =>
      if tokens.Null? then None
      else
        var storage := browser.storage[AS.AccessKey := StorageString(Field(tokens, "access"))]
                                      [AS.RefreshKey := StorageString(Field(tokens, "refresh"))];
        Some(Env(ctx.(user := Field(data, "user"), token := Field(tokens, "access")), browser.(storage := storage)))
  }

  /** The user set before a throw from a missing `tokens`: the destructured `user`, unless the body is `null`. */
  function UserBeforeThrow(ctx: Context, data: Json): Context {
    if data.Null? then ctx else ctx.(user := Field(data, "user"))
  }

  /**
   * `login(username, password)`: on success the session and tokens are set;
   * on a rejected request the error is the reply's `error` field if truthy,
   * else "Ошибка авторизации".
   */
  function Login(e: Env, first: AS.Reply, refresh: AS.RefreshReply, replay: AS.Reply): (r: Step)
    ensures var t := AS.Call(e.browser, ApiHeaders, first, refresh, replay);
      (r.result.Success? <==> t.outcome.Resolved? && Accept(e.ctx, t.after, t.outcome.data).Some?)
      && (r.result.Success? ==> r.env == Accept(e.ctx, t.after, t.outcome.data).value
                                && r.result.user == r.env.ctx.user)
      && (t.outcome.Rejected? ==>
            r.env == Env(e.ctx, t.after)
            && r.result == Failure(FieldOr(ErrorData(t.outcome.error), "error", Str(LoginFailedMessage))))
      && (r.result.Failure? && t.outcome.Resolved? ==> r.result.error == Str(LoginFailedMessage))
      && (r.result.Failure? && t.outcome.Resolved? ==>
            r.env == Env(UserBeforeThrow(e.ctx, t.outcome.data), t.after))
    ensures r.env.ctx.registrationSuccess == e.ctx.registrationSuccess && r.env.ctx.loading == e.ctx.loading
  {
    var t := AS.Call(e.browser, ApiHeaders, first, refresh, replay);
    match t.outcome
    case Rejected(error) =>
      Step(Env(e.ctx, t.after), Failure(FieldOr(ErrorData(error), "error", Str(LoginFailedMessage))))
    case Resolved(data) =>
      match Accept(e.ctx, t.after, data)
      case Some(env) => Step(env, Success(env.ctx.user))
      case None => Step(Env(UserBeforeThrow(e.ctx, data), t.after), Failure(Str(LoginFailedMessage)))
  }

  /**
   * A login reply without `tokens` fails, yet the user it carries is
   * already set: `setUser` runs before `tokens.access` throws.
   */
  lemma UserSetBeforeThrow(e: Env, u: Json, refresh: AS.RefreshReply, replay: AS.Reply)
    ensures var r := Login(e, AS.Ok(Obj(map["user" := u])), refresh, replay);
      r.result == Failure(Str(LoginFailedMessage)) && r.env.ctx.user == Some(u)
      && r.env.browser == e.browser && r.env.ctx.token == e.ctx.token
  {
    assert Field(Obj(map["user" := u]), "user") == Some(u);
  }

  /**
   * `register(form)`: the flag is cleared first and set only on success; a
   * rejected request's error is the whole reply body if truthy, else
   * "Ошибка регистрации".
   */
  function Register(e: Env, first: AS.Reply, refresh: AS.RefreshReply, replay: AS.Reply): (r: Step)
    ensures r.env.ctx.registrationSuccess <==> r.result.Success?
    ensures var t := AS.Call(e.browser, ApiHeaders, first, refresh, replay);
      (r.result.Success? <==> t.outcome.Resolved? && Accept(e.ctx, t.after, t.outcome.data).Some?)
      && (r.result.Success? ==> r.env.ctx.user == Field(t.outcome.data, "user")
                                && r.env.browser == Accept(e.ctx, t.after, t.outcome.data).value.browser)
      && (t.outcome.Rejected? ==>
            r.env == Env(e.ctx.(registrationSuccess := false), t.after)
            && r.result == Failure(
                 var d := ErrorData(t.outcome.error);
                 if d.Some? && JsTruthy(d.value) then d.value else Str(RegisterFailedMessage)))
  {
    var ctx := e.ctx.(registrationSuccess := false);
    var t := AS.Call(e.browser, ApiHeaders, first, refresh, replay);
    match t.outcome
    case Rejected(error) =>
      var d := ErrorData(error);
      Step(Env(ctx, t.after), Failure(if d.Some? && JsTruthy(d.value) then d.value else Str(RegisterFailedMessage)))
    case Resolved(data) =>
      match Accept(ctx, t.after, data)
      case Some(env) => Step(env.(ctx := env.ctx.(registrationSuccess := true)), Success(env.ctx.user))
      case None => Step(Env(UserBeforeThrow(ctx, data), t.after), Failure(Str(RegisterFailedMessage)))
  }

  /**
   * How a server response reaches the client: 2xx resolves, anything else is
   * an error. Replies carry JSON only, so a file response resolves with no
   * data; the browser would see its bytes as text, which no modelled caller reads.
   */
  function AsReply(r: V.Response): (reply: AS.Reply)
    ensures reply.Ok? <==> 200 <= r.Status() < 300
    ensures reply.HttpError? ==> reply.status == r.Status()
    ensures r.JsonResponse? ==> (reply.Ok? && reply.data == r.body) || (reply.HttpError? && reply.data == r.body)
  {
    match r
    case JsonResponse(status, body) => if 200 <= status < 300 then AS.Ok(body) else AS.HttpError(status, body)
    case FileResponse(_, _, _) => AS.Ok(Null)
  }

  /**
   * End to end: when the server accepts the credentials, the user is signed
   * in and the next request carries the issued access token.
   */
  lemma {:induction false} LoginAuthorizesNextRequest(
    e: Env, body: Json, authenticate: S.Credentials -> Option<V.User>, issue: V.User -> V.Tokens,
    refresh: AS.RefreshReply, replay: AS.Reply, headers: map<string, string>)
    requires V.LoginView(body, authenticate, issue).Status() == V.Ok200
    requires issue(authenticate(S.ValidateLogin(body).data).value).access != ""
    ensures var r := Login(e, AsReply(V.LoginView(body, authenticate, issue)), refresh, replay);
      var u := authenticate(S.ValidateLogin(body).data).value;
      r.result == Success(Some(V.UserJson(u))) && IsAuthenticated(r.env.ctx)
      && AS.WithAuth(headers, r.env.browser.storage)["Authorization"] == AS.Bearer(issue(u).access)
  {
    var resp := V.LoginView(body, authenticate, issue);
    var u := authenticate(S.ValidateLogin(body).data).value;
    var tokens := V.TokensJson(issue(u));
    assert Field(resp.body, "tokens") == Some(tokens);
    assert Field(tokens, "access") == Some(Str(issue(u).access));
    var r := Login(e, AsReply(resp), refresh, replay);
    assert r.env.browser.storage[AS.AccessKey] == issue(u).access;
    AS.BearerRoundTrip(issue(u).access);
  }

  /**
   * A wrong password while a refresh token is stored goes through the
   * refresh path; if the refresh fails the stored session is dropped and the
   * browser sent to /login, yet the page is told only "wrong credentials".
   */
  lemma {:induction false} BadCredentialsDropStoredSession(
    e: Env, body: Json, authenticate: S.Credentials -> Option<V.User>, issue: V.User -> V.Tokens, replay: AS.Reply)
    requires V.LoginView(body, authenticate, issue).Status() == V.Unauthorized401
    requires AS.Stored(e.browser.storage, AS.RefreshKey)
    ensures var r := Login(e, AsReply(V.LoginView(body, authenticate, issue)), AS.RefreshFailed, replay);
      r.result == Failure(Str(V.InvalidCredentialsMessage))
      && AS.AccessKey !in r.env.browser.storage && AS.RefreshKey !in r.env.browser.storage
      && r.env.browser.location == Some(AS.LoginPath)
  {
    var resp := V.LoginView(body, authenticate, issue);
    assert resp == V.JsonResponse(V.Unauthorized401, Obj(map["error" := Str(V.InvalidCredentialsMessage)]));
    assert AsReply(resp) == AS.HttpError(V.Unauthorized401, resp.body);
    assert Field(resp.body, "error") == Some(Str(V.InvalidCredentialsMessage));
  }

  /** Which context operations keep the context token and the stored one in step. */
  predicate TokenInStep(e: Env) {
    (Truthy(e.ctx.token) <==> AS.Stored(e.browser.storage, AS.AccessKey))
    && (Truthy(e.ctx.token) ==> e.ctx.token.value == Str(e.browser.storage[AS.AccessKey]))
  }

  /**
   * Start-up, logout, and a login whose reply carries a string access token
   * keep the context token and storage in step. The interceptor's refresh
   * does not: it rewrites the stored token behind the context's back.
   */
  lemma TokenInStepPreserved(storage: AS.Storage, e: Env, data: Json)
    requires TokenInStep(e)
    requires data.Obj? && "tokens" in data.fields && Field(data.fields["tokens"], "access").Some?
    requires Field(data.fields["tokens"], "access").value.Str?
    ensures TokenInStep(Init(storage))
    ensures TokenInStep(Logout(e))
    ensures TokenInStep(Accept(e.ctx, e.browser, data).value)
  {
  }

  /** A refresh answered with a new token leaves the context holding the old one. */
  lemma RefreshDesynchronises()
    ensures var e := Init(map[AS.AccessKey := "old", AS.RefreshKey := "r"]);
      var t := AS.Call(e.browser, ApiHeaders, AS.HttpError(401, Null), AS.Refreshed(Some("new")), AS.Ok(Null));
      TokenInStep(e) && !TokenInStep(Env(e.ctx, t.after))
  {
    var e := Init(map[AS.AccessKey := "old", AS.RefreshKey := "r"]);
    var t := AS.Call(e.browser, ApiHeaders, AS.HttpError(401, Null), AS.Refreshed(Some("new")), AS.Ok(Null));
    assert t.after.storage[AS.AccessKey] == "new";
    assert Str("old") != Str("new") by { assert "old"[0] != "new"[0]; }
  }
}

=== FILE: auth_service.dfy ===
/**
 * The browser's API client (frontend/src/services/authService.js): the
 * request interceptor that attaches the stored access token, the response
 * interceptor that refreshes it once on a 401, and the requests the service
 * methods build. The server's replies are parameters of the model.
 */
module AuthService {
  import opened Base
  import opened Json
  import opened Text
  import S = Serializers

  /** `localStorage`. */
  type Storage = map<string, string>

  const AccessKey: string := "access_token"
  const RefreshKey: string := "refresh_token"
  const LoginPath: string := "/login"

  /** `localStorage.getItem(key)` is truthy: present and not the empty string. */
  predicate Stored(storage: Storage, key: string) {
    key in storage && storage[key] != ""
  }

  /** The `Authorization` value a request carries. */
  function Bearer(token: string): (h: string)
    ensures |h| == |token| + 7 && h[..7] == "Bearer " && h[7..] == token
  {
    "Bearer " + token
  }

  /** The token a bearer header carries, if it is one. */
  function BearerToken(h: string): (t: Option<string>)
    ensures t.Some? ==> Bearer(t.value) == h
  {
    if |h| >= 7 && h[..7] == "Bearer " then Some(h[7..]) else None
  }

  /** Reading the header back gives the token. */
  lemma BearerRoundTrip(token: string)
    ensures BearerToken(Bearer(token)) == Some(token)
  {
    assert Bearer(token)[..7] == "Bearer ";
  }

  /**
   * The request interceptor: a truthy stored access token replaces the
   * `Authorization` header; otherwise the headers pass unchanged.
   */
  function WithAuth(headers: map<string, string>, storage: Storage): (r: map<string, string>)
    ensures Stored(storage, AccessKey) ==> "Authorization" in r && BearerToken(r["Authorization"]) == Some(storage[AccessKey])
    ensures !Stored(storage, AccessKey) ==> r == headers
    ensures r.Keys == headers.Keys + (if Stored(storage, AccessKey) then {"Authorization"} else {})
    ensures forall k :: k in headers && k != "Authorization" ==> r[k] == headers[k]
  {
    if Stored(storage, AccessKey) then
      BearerRoundTrip(storage[AccessKey]);
      headers["Authorization" := Bearer(storage[AccessKey])]
    else headers
  }

  /** What the server (or the network) answered one dispatch. */
  datatype Reply = Ok(data: Json) | HttpError(status: nat, data: Json) | NetworkError

  /**
   * What the bare `axios.post` to the refresh endpoint gave: the `access`
   * field of its reply (absent when the reply has none), or an error.
   */
  datatype RefreshReply = Refreshed(access: Option<string>) | RefreshFailed

  /** How the call's promise settles. */
  datatype Outcome = Resolved(data: Json) | Rejected(error: Reply)

  /** The browser state the client touches. */
  datatype Browser = Browser(storage: Storage, location: Option<string>)

  /** One call through the client: its outcome, the state after, and what it sent. */
  datatype Trace = Trace(
    outcome: Outcome,
    after: Browser,
    sent: seq<map<string, string>>,  // the headers of each dispatch of the request
    refreshes: seq<string>)          // the refresh token of each refresh request

  /** `String(undefined)`: what `setItem` stores for an absent `access`. */
  const Undefined: string := "undefined"

  predicate IsUnauthorized(reply: Reply) {
    reply.HttpError? && reply.status == 401
  }

  /**
   * One call: the request interceptor, the first dispatch answered by
   * `first`, and on a first 401 with a stored refresh token one refresh
   * answered by `refresh`; after a successful refresh the request is sent
   * again, answered by `replay`. The replay carries `_retry`, so its own
   * errors are not intercepted again. A failed refresh drops both tokens,
   * sends the browser to /login and rejects with the original error.
   */
  function Call(b: Browser, headers: map<string, string>, first: Reply, refresh: RefreshReply, replay: Reply): (t: Trace)
    ensures 1 <= |t.sent| <= 2 && |t.refreshes| <= 1
    ensures t.sent[0] == WithAuth(headers, b.storage)
    ensures |t.refreshes| == 1 <==> IsUnauthorized(first) && Stored(b.storage, RefreshKey)
    ensures |t.refreshes| == 1 ==> t.refreshes[0] == b.storage[RefreshKey]
    ensures (|t.sent| == 2) <==> (IsUnauthorized(first) && Stored(b.storage, RefreshKey) && refresh.Refreshed?)
    ensures first.Ok? ==> t.outcome == Resolved(first.data) && t.after == b
    ensures !first.Ok? && !(IsUnauthorized(first) && Stored(b.storage, RefreshKey)) ==>
      t.outcome == Rejected(first) && t.after == b
    ensures (IsUnauthorized(first) && Stored(b.storage, RefreshKey) && refresh.RefreshFailed?) ==>
      t.outcome == Rejected(first)
      && t.after == Browser(b.storage - {AccessKey, RefreshKey}, Some(LoginPath))
    ensures |t.sent| == 2 ==>
      var token := refresh.access.GetOr(Undefined);
      t.after == Browser(b.storage[AccessKey := token], b.location)
      && "Authorization" in t.sent[1] && BearerToken(t.sent[1]["Authorization"]) == Some(token)
      && t.outcome == (if replay.Ok? then Resolved(replay.data) else Rejected(replay))
  {
    var sent := WithAuth(headers, b.storage);
    if first.Ok? then Trace(Resolved(first.data), b, [sent], [])
    else if IsUnauthorized(first) && Stored(b.storage, RefreshKey) then
      var refreshToken := b.storage[RefreshKey];
      match refresh
      case RefreshFailed =>
        Trace(Rejected(first), Browser(b.storage - {AccessKey, RefreshKey}, Some(LoginPath)), [sent], [refreshToken])
      case Refreshed(access) =>
        var token := access.GetOr(Undefined);
        var storage := b.storage[AccessKey := token];
        var again := WithAuth(sent["Authorization" := Bearer(token)], storage);
        BearerRoundTrip(token);
        var outcome := if replay.Ok? then Resolved(replay.data) else Rejected(replay);
        Trace(outcome, Browser(storage, b.location), [sent, again], [refreshToken])
    else Trace(Rejected(first), b, [sent], [])
  }

  /**
   * After a failed refresh the next call goes out without a token, a 401
   * is passed straight to the caller, and nothing more is sent or changed.
   */
  lemma {:induction false} NoSecondRefreshAfterLogout(
    b: Browser, headers: map<string, string>, status: nat, data: Json,
    refresh1: RefreshReply, replay1: Reply, headers2: map<string, string>,
    second: Reply, refresh2: RefreshReply, replay2: Reply)
    requires Stored(b.storage, RefreshKey)
    requires IsUnauthorized(HttpError(status, data)) && refresh1.RefreshFailed?
    ensures var t1 := Call(b, headers, HttpError(status, data), refresh1, replay1);
      var t2 := Call(t1.after, headers2, second, refresh2, replay2);
      |t2.refreshes| == 0 && t2.sent == [headers2]
      && t2.after == t1.after
  {
    var t1 := Call(b, headers, HttpError(status, data), refresh1, replay1);
    assert RefreshKey !in t1.after.storage && AccessKey !in t1.after.storage;
  }

  /**
   * The replay carries exactly the header the interceptor derives from the
   * new storage, that is the new access token; the stored refresh token and
   * every other key are left as they were.
   */
  lemma ReplayUsesStoredToken(b: Browser, headers: map<string, string>, first: Reply, access: string, replay: Reply)
    requires IsUnauthorized(first) && Stored(b.storage, RefreshKey) && access != ""
    ensures var t := Call(b, headers, first, Refreshed(Some(access)), replay);
      t.sent[1]["Authorization"] == WithAuth(map[], t.after.storage)["Authorization"]
      && t.sent[1]["Authorization"] == Bearer(access)
    ensures var t := Call(b, headers, first, Refreshed(Some(access)), replay);
      RefreshKey in t.after.storage && t.after.storage[RefreshKey] == b.storage[RefreshKey]
    ensures var t := Call(b, headers, first, Refreshed(Some(access)), replay);
      t.after.storage.Keys == b.storage.Keys + {AccessKey}
      && forall k :: k in b.storage && k != AccessKey ==> t.after.storage[k] == b.storage[k]
  {
    var t := Call(b, headers, first, Refreshed(Some(access)), replay);
    BearerRoundTrip(access);
    assert t.after.storage[AccessKey] == access;
  }

  // ---------------------------------------------------------------- service methods

  /** One part of a `FormData` body. */
  datatype FormPart = FilePart(name: string, file: S.UploadedFile) | TextPart(name: string, value: string)

  /**
   * `uploadFile(file, description)`: the file, then the description only
   * when it is a non-empty string.
   */
  function UploadFormData(file: S.UploadedFile, description: string): (parts: seq<FormPart>)
    ensures |parts| >= 1 && parts[0] == FilePart("file", file)
    ensures (exists i :: 0 <= i < |parts| && parts[i].TextPart? && parts[i].name == "description") <==> description != ""
    ensures forall i :: 0 <= i < |parts| && parts[i].TextPart? ==> parts[i].value == description
  {
    var parts := [FilePart("file", file)] + (if description != "" then [TextPart("description", description)] else []);
    assert description != "" ==> parts[1].TextPart? && parts[1].name == "description";
    parts
  }

  /**
   * The last text part of that name: `request.data` of a multipart body is a
   * multi-value dictionary whose lookup gives the last value sent.
   */
  function LastText(parts: seq<FormPart>, name: string): (r: Option<string>)
    ensures r.Some? <==> exists i :: 0 <= i < |parts| && parts[i].TextPart? && parts[i].name == name
    ensures r.Some? ==> exists i ::
      && 0 <= i < |parts| && parts[i] == TextPart(name, r.value)
      && forall j :: i < j < |parts| ==> !(parts[j].TextPart? && parts[j].name == name)
  {
    if |parts| == 0 then None
    else
      var last := parts[|parts| - 1];
      if last.TextPart? && last.name == name then Some(last.value)
      else
        var r := LastText(parts[..|parts| - 1], name);
        assert forall i :: 0 <= i < |parts| - 1 ==> parts[..|parts| - 1][i] == parts[i];
        r
  }

  /** The last file part of that name, read from the same multi-value dictionary. */
  function LastFile(parts: seq<FormPart>, name: string): (r: Option<S.UploadedFile>)
    ensures r.Some? <==> exists i :: 0 <= i < |parts| && parts[i].FilePart? && parts[i].name == name
    ensures r.Some? ==> exists i ::
      && 0 <= i < |parts| && parts[i] == FilePart(name, r.value)
      && forall j :: i < j < |parts| ==> !(parts[j].FilePart? && parts[j].name == name)
  {
    if |parts| == 0 then None
    else
      var last := parts[|parts| - 1];
      if last.FilePart? && last.name == name then Some(last.file)
      else
        var r := LastFile(parts[..|parts| - 1], name);
        assert forall i :: 0 <= i < |parts| - 1 ==> parts[..|parts| - 1][i] == parts[i];
        r
  }

  /**
   * What the upload serializer receives from a multipart body: the last
   * `file` part and the last `description` part, each absent when none was sent.
   */
  function ReceivedUpload(parts: seq<FormPart>): (u: S.UploadForm)
    ensures u.file.Some? <==> exists i :: 0 <= i < |parts| && parts[i].FilePart? && parts[i].name == "file"
    ensures u.file.Some? ==> exists i ::
      && 0 <= i < |parts| && parts[i] == FilePart("file", u.file.value)
      && forall j :: i < j < |parts| ==> !(parts[j].FilePart? && parts[j].name == "file")
    ensures u.description.Some? <==>
      exists i :: 0 <= i < |parts| && parts[i].TextPart? && parts[i].name == "description"
    ensures u.description.Some? ==> exists i ::
      && 0 <= i < |parts| && parts[i] == TextPart("description", u.description.value)
      && forall j :: i < j < |parts| ==> !(parts[j].TextPart? && parts[j].name == "description")
  {
    S.UploadForm(LastFile(parts, "file"), LastText(parts, "description"))
  }

  /** Of two files sent under the same name, the server keeps the second. */
  lemma SecondFileWins(first: S.UploadedFile, second: S.UploadedFile)
    ensures ReceivedUpload([FilePart("file", first), FilePart("file", second)]).file == Some(second)
  {
  }

  /**
   * An upload from the browser passes the server's validation exactly when
   * the file is non-empty and passes `validate_file` and the description is
   * empty or strips to 1..255 characters; the description then stored is the
   * stripped one, or none. A description of spaces only is sent and refused
   * as blank.
   */
  lemma {:induction false} UploadAgreement(file: S.UploadedFile, description: string)
    ensures var v := S.ValidateUpload(ReceivedUpload(UploadFormData(file, description)));
      (v.Valid? <==> file.size > 0 && S.ValidateFile(file).Ok?
                     && (description == "" || (PyStrip(description) != "" && |PyStrip(description)| <= S.DescriptionMaxLength
                                               && '\0' !in PyStrip(description))))
      && (v.Valid? ==> v.data.file == file
                       && v.data.description == (if description == "" then None else Some(PyStrip(description))))
  {
    var parts := UploadFormData(file, description);
    if description == "" {
      assert parts == [FilePart("file", file)];
      assert LastFile(parts, "file") == Some(file);
      assert LastText(parts, "description") == None;
    } else {
      assert parts == [FilePart("file", file), TextPart("description", description)];
      assert LastFile(parts, "file") == Some(file);
      assert LastText(parts, "description") == Some(description);
    }
  }

  /** The request body a service method sends. */
  datatype Body = NoBody | JsonFields(fields: map<string, string>) | Multipart(parts: seq<FormPart>)

  /** One request of the service, before the interceptor adds the token. */
  datatype ApiRequest = ApiRequest(verb: string, path: string, contentType: string, body: Body)

  const JsonType: string := "application/json"
  const MultipartType: string := "multipart/form-data"

  /** The service's methods. */
  datatype Operation =
    | Register(form: seq<FormPart>)
    | Login(username: string, password: string)
    | GetProfile
    | UploadFile(file: S.UploadedFile, description: string)
    | GetUserFiles
    | GetWeather

  /** The request each method sends, relative to `http://127.0.0.1:8000/api/auth`. */
  function RequestOf(op: Operation): (r: ApiRequest)
    ensures r.verb == "POST" <==> op.Register? || op.Login? || op.UploadFile?
    ensures r.body.NoBody? <==> r.verb == "GET"
    ensures r.contentType == MultipartType <==> r.body.Multipart?
    ensures op.Register? ==> r.path == "/register/" && r.body == Multipart(op.form)
    ensures op.Login? ==> r.path == "/login/" && r.contentType == JsonType
    ensures op.Login? ==>
      r.body == JsonFields(map["username" := op.username, "password" := op.password])
    ensures op.GetProfile? ==> r.path == "/profile/"
    ensures op.UploadFile? ==> r.path == "/upload/" && r.body == Multipart(UploadFormData(op.file, op.description))
    ensures op.GetUserFiles? ==> r.path == "/files/"
    ensures op.GetWeather? ==> r.path == "/weather/"
  {
    match op
    case Register(form) => ApiRequest("POST", "/register/", MultipartType, Multipart(form))
    case Login(username, password) =>
      ApiRequest("POST", "/login/", JsonType, JsonFields(map["username" := username, "password" := password]))
    case GetProfile => ApiRequest("GET", "/profile/", JsonType, NoBody)
    case UploadFile(file, description) =>
      ApiRequest("POST", "/upload/", MultipartType, Multipart(UploadFormData(file, description)))
    case GetUserFiles => ApiRequest("GET", "/files/", JsonType, NoBody)
    case GetWeather => ApiRequest("GET", "/weather/", JsonType, NoBody)
  }

  /** A JSON request body as the server parses it: an object of strings. */
  function JsonBody(fields: map<string, string>): (j: Json)
    ensures j.Obj? && j.fields.Keys == fields.Keys
    ensures forall k :: k in fields ==> Field(j, k) == Some(Str(fields[k]))
  {
    Obj(map k | k in fields :: Str(fields[k]))
  }

  /**
   * What the server makes of `login(username, password)`: the login
   * serializer accepts it exactly when both strings strip to something
   * without a NUL, and the credentials it passes on are the stripped ones.
   */
  lemma LoginRequestAgreement(username: string, password: string)
    ensures var v := S.ValidateLogin(JsonBody(RequestOf(Login(username, password)).body.fields));
      (v.Valid? <==> PyStrip(username) != "" && '\0' !in PyStrip(username)
                     && PyStrip(password) != "" && '\0' !in PyStrip(password))
      && (v.Valid? ==> v.data == S.Credentials(PyStrip(username), PyStrip(password)))
  {
    var body := JsonBody(map["username" := username, "password" := password]);
    assert Field(body, "username") == Some(Str(username));
    assert Field(body, "password") == Some(Str(password));
  }

  /** Different kinds of method never share an endpoint. */
  lemma RoutesDistinct(a: Operation, b: Operation)
    requires RequestOf(a).path == RequestOf(b).path
    ensures a.Register? == b.Register? && a.Login? == b.Login? && a.GetProfile? == b.GetProfile?
    ensures a.UploadFile? == b.UploadFile? && a.GetUserFiles? == b.GetUserFiles? && a.GetWeather? == b.GetWeather?
  {
  }
}

=== FILE: base.dfy ===
/** Optional values and results shared by every module of the model. */
module Base {

  /** A value that may be absent: JavaScript `null`/`undefined`, Python `None`. */
  datatype Option<+T> = None | Some(value: T) {
    function GetOr(default: T): T {
      match this
      case Some(v) => v
      case None => default
    }
  }

  /** Lookup that yields `None` for a missing key, like `dict.get` or `localStorage.getItem`. */
  function Lookup<K, V>(m: map<K, V>, k: K): (r: Option<V>)
    ensures r.Some? <==> k in m
    ensures r.Some? ==> r.value == m[k]
  {
    if k in m then Some(m[k]) else None
  }

  /** One byte of a request or response body. */
  newtype Byte = x: int | 0 <= x < 256
}

=== FILE: file_upload_page.dfy ===
/**
 * The upload page (frontend/src/pages/FileUploadPage.js): choosing a file
 * and submitting it. Whether the upload request succeeds is a parameter;
 * the request itself is the one `AuthService` builds.
 */
module FileUploadPage {
  import opened Base
  import AS = AuthService
  import S = Serializers
  import R = Routes

  /** The page's state. */
  datatype PageState = PageState(
    file: Option<S.UploadedFile>,
    description: string,
    loading: bool,
    message: string,
    error: string)

  function Initial(): PageState {
    PageState(None, "", false, "", "")
  }

  const NoFileError: string := "Пожалуйста, выберите файл"
  const UploadedMessage: string := "Файл успешно загружен!"
  const UploadError: string := "Ошибка при загрузке файла. Проверьте формат и размер."
  const FilesPath: string := "/files"

  /** `handleFileChange`: the first chosen file (none if the dialog was cancelled); the error cleared. */
  function HandleFileChange(s: PageState, chosen: seq<S.UploadedFile>): (r: PageState)
    ensures r.error == ""
    ensures r.file == (if |chosen| > 0 then Some(chosen[0]) else None)
    ensures r.description == s.description && r.message == s.message && r.loading == s.loading
  {
    s.(file := if |chosen| > 0 then Some(chosen[0]) else None, error := "")
  }

  /** What a submit did: the state after, the request sent, and the navigation it scheduled. */
  datatype Submitted = Submitted(state: PageState, sent: Option<AS.ApiRequest>, navigateLater: Option<string>)

  /**
   * `handleSubmit`: without a file only the error is set. Otherwise the
   * upload is sent; success shows the message, clears the form and schedules
   * the file list; failure shows the error and keeps the form. Loading ends
   * false.
   */
  function HandleSubmit(s: PageState, succeeded: bool): (r: Submitted)
    ensures s.file.None? <==> r.sent.None?
    ensures s.file.None? ==> r.state == s.(error := NoFileError) && r.navigateLater.None?
    ensures s.file.Some? ==>
      r.sent == Some(AS.RequestOf(AS.UploadFile(s.file.value, s.description))) && !r.state.loading
    ensures s.file.Some? && succeeded ==>
      r.state == PageState(None, "", false, UploadedMessage, "") && r.navigateLater == Some(FilesPath)
    ensures s.file.Some? && !succeeded ==>
      r.state == PageState(s.file, s.description, false, "", UploadError) && r.navigateLater.None?
  {
    match s.file
    case None => Submitted(s.(error := NoFileError), None, None)
    case Some(f) =>
      var sent := Some(AS.RequestOf(AS.UploadFile(f, s.description)));
      if succeeded then Submitted(PageState(None, "", false, UploadedMessage, ""), sent, Some(FilesPath))
      else Submitted(PageState(s.file, s.description, false, "", UploadError), sent, None)
  }

  /**
   * After a successful upload the form is empty, so submitting again sends
   * nothing until another file is chosen; choosing one clears the error.
   */
  lemma {:induction false} NoDoubleUpload(s: PageState, again: bool, chosen: S.UploadedFile)
    requires s.file.Some?
    ensures var after := HandleSubmit(s, true).state;
      HandleSubmit(after, again).sent.None?
      && HandleSubmit(after, again).state.error == NoFileError
      && HandleFileChange(HandleSubmit(after, again).state, [chosen]).error == ""
  {
  }

  /** A failed upload can be retried as it was: the same request goes out again. */
  lemma RetryResendsSameRequest(s: PageState, again: bool)
    requires s.file.Some?
    ensures HandleSubmit(HandleSubmit(s, false).state, again).sent == HandleSubmit(s, false).sent
  {
  }

  /**
   * The route table has no "/files" entry, so the navigation scheduled after
   * a successful upload ends on the home page.
   */
  lemma FilesPathLandsHome(isAuthenticated: bool, loading: bool)
    ensures R.Resolve(FilesPath, isAuthenticated, loading) == R.Redirect("/", None)
  {
    assert R.StripSlashes(FilesPath) == FilesPath;
    assert R.AsciiLower(FilesPath) == FilesPath;
    assert FilesPath != R.StripSlashes("/login") && FilesPath != R.StripSlashes("/register");
  }
}

=== FILE: http.dfy ===
/**
 * The parts of a Django request the logging code reads: method, path, query
 * string, the `META` headers and the authenticated user.
 */
module Http {
  import opened Base
  import opened Text

  /** An authenticated user: its primary key and `str(user)`, the username. */
  datatype UserRef = UserRef(id: int, name: string)

  /** `verb` is `request.method`. */
  datatype Request = Request(
    verb: string,
    path: string,
    query: map<string, seq<string>>,
    meta: map<string, string>,
    user: Option<UserRef>)

  /** `str(request.user)` when authenticated, `'Anonymous'` otherwise. */
  function UserName(r: Request): (s: string)
    ensures r.user.None? ==> s == "Anonymous"
    ensures r.user.Some? ==> s == r.user.value.name
  {
    match r.user
    case Some(u) => u.name
    case None => "Anonymous"
  }

  /**
   * `get_client_ip` as written in backend/users/middleware.py: the text
   * before the first comma of a non-empty `X-Forwarded-For` header (not
   * trimmed), else `REMOTE_ADDR`, which may be missing.
   */
  function ClientIp(meta: map<string, string>): (ip: Option<string>)
    ensures Lookup(meta, "HTTP_X_FORWARDED_FOR").GetOr("") != "" ==>
      ip.Some? && ip.value <= meta["HTTP_X_FORWARDED_FOR"] && ',' !in ip.value
      && (|ip.value| < |meta["HTTP_X_FORWARDED_FOR"]| ==> meta["HTTP_X_FORWARDED_FOR"][|ip.value|] == ',')
    ensures Lookup(meta, "HTTP_X_FORWARDED_FOR").GetOr("") == "" ==> ip == Lookup(meta, "REMOTE_ADDR")
  {
    var xff := Lookup(meta, "HTTP_X_FORWARDED_FOR");
    if xff.GetOr("") != "" then Some(BeforeFirst(xff.value, ','))
    else Lookup(meta, "REMOTE_ADDR")
  }

  /**
   * The same rule written with `split(',')[0]`, as the error-logging
   * middleware and backend/users/utils/logger.py spell it.
   */
  function SplitClientIp(meta: map<string, string>): (ip: Option<string>)
  {
    var xff := Lookup(meta, "HTTP_X_FORWARDED_FOR");
    if xff.Some? && xff.value != "" then Some(Split(xff.value, ',')[0])
    else Lookup(meta, "REMOTE_ADDR")
  }

  /** The three copies of `get_client_ip` agree on every request. */
  lemma ClientIpCopiesAgree(meta: map<string, string>)
    ensures SplitClientIp(meta) == ClientIp(meta)
  {
    if "HTTP_X_FORWARDED_FOR" in meta {
      BeforeFirstIsFirstPart(meta["HTTP_X_FORWARDED_FOR"], ',');
    }
  }

  /** The forwarded header is used untrimmed: the space before the comma stays. */
  lemma ClientIpUntrimmed()
    ensures ClientIp(map["HTTP_X_FORWARDED_FOR" := "10.0.0.1 , 10.0.0.2"]) == Some("10.0.0.1 ")
  {
    var xff := "10.0.0.1 , 10.0.0.2";
    assert IndexOf(xff, ',') == 9 by {
      assert xff[9] == ',';
      assert forall j :: 0 <= j < 9 ==> xff[j] != ',';
    }
    assert xff[..9] == "10.0.0.1 ";
  }

  /** A header starting with a comma gives the empty address, not `REMOTE_ADDR`. */
  lemma ClientIpLeadingComma()
    ensures ClientIp(map["HTTP_X_FORWARDED_FOR" := ",10.0.0.2", "REMOTE_ADDR" := "127.0.0.1"]) == Some("")
  {
    assert IndexOf(",10.0.0.2", ',') == 0;
  }

  /** An empty header counts as absent. */
  lemma ClientIpEmptyHeader()
    ensures ClientIp(map["HTTP_X_FORWARDED_FOR" := "", "REMOTE_ADDR" := "127.0.0.1"]) == Some("127.0.0.1")
    ensures ClientIp(map[]) == None
  {
  }
}

=== FILE: json.dfy ===
/**
 * Dynamic values exchanged between the browser client and the server:
 * request and response bodies, error payloads, log records. Numbers are
 * integers only; floating point is not modelled.
 */
module Json {
  import opened Base
  import Text

  datatype Json =
    | Null
    | Bool(b: bool)
    | Int(n: int)
    | Str(s: string)
    | Arr(items: seq<Json>)
    | Obj(fields: map<string, Json>)

  /** JavaScript truthiness: every array and object is truthy, even an empty one. */
  predicate JsTruthy(j: Json) {
    match j
    case Null => false
    case Bool(b) => b
    case Int(n) => n != 0
    case Str(s) => s != ""
    case Arr(_) => true
    case Obj(_) => true
  }

  /** Python truthiness: empty containers are falsy. */
  predicate PyTruthy(j: Json) {
    match j
    case Null => false
    case Bool(b) => b
    case Int(n) => n != 0
    case Str(s) => s != ""
    case Arr(items) => |items| > 0
    case Obj(fields) => |fields| > 0
  }

  /** JavaScript `typeof j === 'object'`, which also holds for `null` and arrays. */
  predicate JsTypeofObject(j: Json) {
    j.Null? || j.Arr? || j.Obj?
  }

  /** Property access `j[key]` on an object; `undefined` (None) otherwise. */
  function Field(j: Json, key: string): (r: Option<Json>)
    ensures r.Some? <==> j.Obj? && key in j.fields
  {
    if j.Obj? then Lookup(j.fields, key) else None
  }

  /** JavaScript `j?.[key] || fallback`: the property when it is truthy, else the fallback. */
  function FieldOr(j: Option<Json>, key: string, fallback: Json): (r: Json)
    ensures r == fallback || (j.Some? && Field(j.value, key) == Some(r) && JsTruthy(r))
    ensures j.Some? && Field(j.value, key).Some? && JsTruthy(Field(j.value, key).value)
            ==> r == Field(j.value, key).value
  {
    if j.Some? then
      match Field(j.value, key)
      case Some(v) => if JsTruthy(v) then v else fallback
      case None => fallback
    else fallback
  }

  /**
   * JavaScript `String(j)` as used by `Array.prototype.join`: `null` becomes
   * the empty string, arrays are joined with ",", objects print as
   * "[object Object]".
   */
  function JsString(j: Json): string {
    match j
    case Null => ""
    case Bool(b) => if b then "true" else "false"
    case Int(n) => Text.IntToDecimal(n)
    case Str(s) => s
    case Arr(items) => JsJoin(items, ",")
    case Obj(_) => "[object Object]"
  }

  /** JavaScript `items.join(sep)`. */
  function JsJoin(items: seq<Json>, sep: string): (r: string)
  {
    if |items| == 0 then ""
    else if |items| == 1 then JsString(items[0])
    else JsString(items[0]) + sep + JsJoin(items[1..], sep)
  }
}

=== FILE: logger.dfy ===
/**
 * The log records built by backend/users/utils/logger.py. Each function
 * returns the dictionary that the source formats into its log line; the
 * logging call itself is not modelled.
 */
module Logger {
  import opened Base
  import opened Json
  import opened Http

  /** A log record: the Python dictionary the source formats. */
  type Record = map<string, Json>

  /** `client_ip`: the address, or `None` when neither header is there. */
  function IpJson(ip: Option<string>): Json {
    match ip
    case Some(s) => Str(s)
    case None => Null
  }

  /**
   * `log_user_action(user, action, details)`: a falsy (absent) user is
   * recorded as 'Anonymous' with no id; `details` is added only when truthy.
   */
  function UserAction(user: Option<UserRef>, action: string, details: Json): (r: Record)
    ensures "action" in r && r["action"] == Str(action)
    ensures user.None? ==> "user" in r && "user_id" in r && r["user"] == Str("Anonymous") && r["user_id"] == Null
    ensures user.Some? ==> "user" in r && "user_id" in r && r["user"] == Str(user.value.name) && r["user_id"] == Int(user.value.id)
    ensures "details" in r <==> PyTruthy(details)
    ensures "details" in r ==> r["details"] == details
    ensures r.Keys == {"action", "user", "user_id"} + (if PyTruthy(details) then {"details"} else {})
  {
    var base := map[
      "action" := Str(action),
      "user" := Str(if user.Some? then user.value.name else "Anonymous"),
      "user_id" := if user.Some? then Int(user.value.id) else Null];
    if PyTruthy(details) then base["details" := details] else base
  }

  /** The fields `log_api_call` always records. */
  function ApiCallBase(request: Request, viewName: string): (r: Record)
    ensures r.Keys == {"view", "method", "path", "user", "user_id"}
    ensures r["view"] == Str(viewName) && r["method"] == Str(request.verb) && r["path"] == Str(request.path)
    ensures request.user.None? ==> r["user"] == Str("Anonymous") && r["user_id"] == Null
    ensures request.user.Some? ==>
      r["user"] == Str(request.user.value.name) && r["user_id"] == Int(request.user.value.id)
  {
    map[
      "view" := Str(viewName),
      "method" := Str(request.verb),
      "path" := Str(request.path),
      "user" := Str(UserName(request)),
      "user_id" := if request.user.Some? then Int(request.user.value.id) else Null]
  }

  /**
   * `log_api_call(request, view_name, extra_info)`: the base fields, then
   * `update(extra_info)` when it is a non-empty dictionary, so its keys win.
   */
  function ApiCall(request: Request, viewName: string, extraInfo: Option<Record>): (r: Record)
    ensures extraInfo.Some? ==> forall k :: k in extraInfo.value ==> k in r && r[k] == extraInfo.value[k]
    ensures var base := ApiCallBase(request, viewName);
      forall k :: k in base && (extraInfo.None? || k !in extraInfo.value) ==> k in r && r[k] == base[k]
    ensures r.Keys == ApiCallBase(request, viewName).Keys + (if extraInfo.Some? then extraInfo.value.Keys else {})
  {
    var base := ApiCallBase(request, viewName);
    match extraInfo
    case Some(extra) => if |extra| > 0 then base + extra else base
    case None => base
  }

  /** An extra `view` entry replaces the view name. */
  lemma ExtraInfoOverrides(request: Request, viewName: string, other: string)
    ensures ApiCall(request, viewName, Some(map["view" := Str(other)]))["view"] == Str(other)
  {
  }

  /**
   * `log_security_event(event_type, request, details)`: the event, the
   * request's method and path, the client address and the user, always;
   * `details` only when truthy.
   */
  function SecurityEvent(eventType: string, request: Request, details: Json): (r: Record)
    ensures r.Keys == {"security_event", "method", "path", "client_ip", "user"}
                      + (if PyTruthy(details) then {"details"} else {})
    ensures r["security_event"] == Str(eventType)
    ensures r["method"] == Str(request.verb) && r["path"] == Str(request.path)
    ensures r["client_ip"] == IpJson(SplitClientIp(request.meta))
    ensures request.user.None? ==> r["user"] == Str("Anonymous")
    ensures request.user.Some? ==> r["user"] == Str(request.user.value.name)
    ensures "details" in r ==> r["details"] == details
  {
    var base := map[
      "security_event" := Str(eventType),
      "method" := Str(request.verb),
      "path" := Str(request.path),
      "client_ip" := IpJson(SplitClientIp(request.meta)),
      "user" := Str(UserName(request))];
    if PyTruthy(details) then base["details" := details] else base
  }

  /** An empty details dictionary is falsy in Python and is left out. */
  lemma EmptyDetailsOmitted(eventType: string, request: Request)
    ensures "details" !in SecurityEvent(eventType, request, Obj(map[]))
    ensures "details" !in UserAction(None, eventType, Obj(map[]))
  {
  }
}

=== FILE: login_page.dfy ===
/**
 * The sign-in page (frontend/src/pages/LoginPage.js): the redirect target,
 * the form checks, the submit handler and how a failed sign-in becomes the
 * text on the page. The `login` action of the session context is a
 * parameter of the submit handler.
 */
module LoginPage {
  import opened Base
  import opened Json
  import opened Text
  import R = Routes
  import AC = AuthContext
  import AS = AuthService
  import V = Views
  import S = Serializers

  const UsernameRequired: string := "Имя пользователя обязательно"
  const PasswordRequired: string := "Пароль обязателен"
  const GenericError: string := "Произошла ошибка при авторизации"
  const UnknownError: string := "Неизвестная ошибка"

  /** `formData`: field name to value. */
  type Form = map<string, string>

  /** The page's state. `error` holds whatever was last passed to `setError`. */
  datatype PageState = PageState(form: Form, loading: bool, error: Json, touched: set<string>)

  function Initial(): PageState {
    PageState(map["username" := "", "password" := ""], false, Str(""), {})
  }

  /** A field's value; both fields are present from the start and never removed. */
  function Value(form: Form, name: string): string {
    Lookup(form, name).GetOr("")
  }

  /** `location.state?.from?.pathname || '/'`. */
  function From(state: Option<Json>): (r: Json)
    ensures JsTruthy(r)
    ensures state.None? ==> r == Str("/")
  {
    var from := match state
      case None => None
      case Some(s) => Field(s, "from");
    FieldOr(from, "pathname", Str("/"))
  }

  /** The router's `state` as the page reads it. */
  function StateJson(state: Option<string>): Option<Json> {
    match state
    case None => None
    case Some(s) => Some(Str(s))
  }

  /**
   * No redirect of the application carries a `state`, so the page always
   * sends the user home after signing in, whichever page was asked for.
   */
  lemma FromIsAlwaysHome(path: string, isAuthenticated: bool, loading: bool, child: R.Page)
    ensures var v := R.Resolve(path, isAuthenticated, loading);
      v.Redirect? ==> From(StateJson(v.state)) == Str("/")
    ensures var v := R.ProtectedRoute(isAuthenticated, loading, child);
      v.Redirect? ==> v.to == "/login" && From(StateJson(v.state)) == Str("/")
  {
    R.RedirectsSettle(path, isAuthenticated, loading, child);
  }

  /** The mount effect: a signed-in visitor is sent on to `from` at once. */
  function RedirectWhenSignedIn(isAuthenticated: bool, from: Json): (r: Option<Json>)
    ensures r.Some? <==> isAuthenticated
    ensures r.Some? ==> r.value == from
  {
    if isAuthenticated then Some(from) else None
  }

  /**
   * A signed-in user who reaches the page, by whatever redirect of the
   * application, is sent home.
   */
  lemma SignedInVisitorGoesHome(path: string, loading: bool)
    ensures var v := R.Resolve(path, true, loading);
      v.Redirect? ==> RedirectWhenSignedIn(true, From(StateJson(v.state))) == Some(Str("/"))
  {
    R.RedirectsSettle(path, true, loading, R.Login);
  }

  /** `validateForm`: the username message first, then the password one. */
  function ValidateForm(form: Form): (errors: seq<string>)
    ensures UsernameRequired in errors <==> JsTrim(Value(form, "username")) == ""
    ensures PasswordRequired in errors <==> Value(form, "password") == ""
    ensures errors == [] || errors == [UsernameRequired] || errors == [PasswordRequired]
            || errors == [UsernameRequired, PasswordRequired]
  {
    (if JsTrim(Value(form, "username")) == "" then [UsernameRequired] else [])
    + (if Value(form, "password") == "" then [PasswordRequired] else [])
  }

  /** `isFormValid`: a non-blank username and a non-empty password. */
  predicate IsFormValid(form: Form) {
    JsTrim(Value(form, "username")) != "" && Value(form, "password") != ""
  }

  /** The submit button's `disabled`. */
  predicate SubmitDisabled(s: PageState) {
    s.loading || !IsFormValid(s.form)
  }

  /** The button is enabled exactly when the page is idle and the form check would pass. */
  lemma EnabledIffValid(s: PageState)
    ensures !SubmitDisabled(s) <==> !s.loading && ValidateForm(s.form) == []
  {
  }

  /** `isFieldInvalid`: touched and empty, without trimming. */
  predicate FieldMarked(s: PageState, name: string) {
    name in s.touched && Value(s.form, name) == ""
  }

  /** A username of spaces is refused by the form check yet not marked on the field. */
  lemma BlankUsernameUnmarked()
    ensures var s := PageState(map["username" := " ", "password" := "x"], false, Str(""), {"username", "password"});
      !FieldMarked(s, "username") && ValidateForm(s.form) == [UsernameRequired]
  {
    assert JsTrim(" ") == "" by { assert IsJsSpace(" "[0]); }
  }

  /** `handleBlur`: the field counts as touched from now on; nothing else changes. */
  function HandleBlur(s: PageState, name: string): (r: PageState)
    ensures name in r.touched && r.touched - {name} == s.touched - {name}
    ensures r.form == s.form && r.error == s.error && r.loading == s.loading
  {
    s.(touched := s.touched + {name})
  }

  /**
   * Leaving a field marks it exactly when it is empty, and typing something
   * into it removes the mark again.
   */
  lemma BlurMarksEmptyField(s: PageState, name: string, value: string)
    requires value != ""
    ensures FieldMarked(HandleBlur(s, name), name) <==> Value(s.form, name) == ""
    ensures !FieldMarked(HandleChange(HandleBlur(s, name), name, value), name)
  {
    assert Value(s.form[name := value], name) == value;
  }

  /** `handleChange`: the field is set and any error cleared. */
  function HandleChange(s: PageState, name: string, value: string): (r: PageState)
    ensures r.form == s.form[name := value]
    ensures !JsTruthy(r.error)
    ensures r.loading == s.loading && r.touched == s.touched
    ensures !JsTruthy(s.error) ==> r.error == s.error
  {
    PageState(s.form[name := value], s.loading, if JsTruthy(s.error) then Str("") else s.error, s.touched)
  }

  /** An array field is joined with ", "; any other truthy value is shown as it is. */
  function Shown(v: Json): Json {
    if v.Arr? then Str(JsJoin(v.items, ", ")) else v
  }

  /**
   * `handleLoginError`: a string verbatim; for an object the first truthy
   * of `username`, `password`, `non_field_errors`, else a generic message;
   * anything else gives "Неизвестная ошибка". `null` is an object whose
   * fields cannot be read: `None` stands for that throw.
   */
  function HandleLoginError(error: Json): (r: Option<Json>)
    ensures r.None? <==> error.Null?
    ensures error.Str? ==> r == Some(error)
    ensures error.Int? || error.Bool? ==> r == Some(Str(UnknownError))
    ensures error.Arr? ==> r == Some(Str(GenericError))
    ensures error.Obj? ==>
      var u := Field(error, "username");
      var p := Field(error, "password");
      var n := Field(error, "non_field_errors");
      (AC.Truthy(u) ==> r == Some(Shown(u.value)))
      && (!AC.Truthy(u) && AC.Truthy(p) ==> r == Some(Shown(p.value)))
      && (!AC.Truthy(u) && !AC.Truthy(p) && AC.Truthy(n) ==> r == Some(Shown(n.value)))
      && (!AC.Truthy(u) && !AC.Truthy(p) && !AC.Truthy(n) ==> r == Some(Str(GenericError)))
  {
    match error
    case Str(_) => Some(error)
    case Null => None
    case Arr(_) => Some(Str(GenericError))
    case Obj(_) =>
      var u := Field(error, "username");
      var p := Field(error, "password");
      var n := Field(error, "non_field_errors");
      if AC.Truthy(u) then Some(Shown(u.value))
      else if AC.Truthy(p) then Some(Shown(p.value))
      else if AC.Truthy(n) then Some(Shown(n.value))
      else Some(Str(GenericError))
    case _ => Some(Str(UnknownError))
  }

  /** What a submit did: the state after, whether `login` ran, where it navigated. */
  datatype Submitted = Submitted(state: PageState, loginCalled: bool, navigateTo: Option<Json>)

  /**
   * `handleSubmit`: a failed form check shows the messages joined with ", "
   * and does not call `login`; otherwise `login` runs and either navigates
   * to `from` or shows the error. If showing the error throws, `loading`
   * stays set.
   */
  function HandleSubmit(s: PageState, from: Json, login: (string, string) -> AC.AuthResult): (r: Submitted)
    ensures r.state.touched == s.touched + {"username", "password"} && r.state.form == s.form
    ensures !r.loginCalled <==> ValidateForm(s.form) != []
    ensures !r.loginCalled ==> r.state.error == Str(Join(ValidateForm(s.form), ", ")) && !r.state.loading
                               && r.navigateTo.None?
    ensures r.loginCalled ==>
      var result := login(Value(s.form, "username"), Value(s.form, "password"));
      (result.Success? <==> r.navigateTo == Some(from))
      && (result.Success? ==> r.state.error == Str("") && !r.state.loading)
      && (result.Failure? && HandleLoginError(result.error).Some? ==>
            r.state.error == HandleLoginError(result.error).value && !r.state.loading)
      && (result.Failure? && HandleLoginError(result.error).None? ==> r.state.loading)
  {
    var touched := s.touched + {"username", "password"};
    var errors := ValidateForm(s.form);
    if errors != [] then
      Submitted(PageState(s.form, false, Str(Join(errors, ", ")), touched), false, None)
    else
      var result := login(Value(s.form, "username"), Value(s.form, "password"));
      match result
      case Success(_) => Submitted(PageState(s.form, false, Str(""), touched), true, Some(from))
      case Failure(error) =>
        match HandleLoginError(error)
        case Some(e) => Submitted(PageState(s.form, false, e, touched), true, None)
        case None => Submitted(PageState(s.form, true, Str(""), touched), true, None)
  }

  /** An empty form shows both messages, in order, joined with ", ". */
  lemma EmptyFormMessage(from: Json, login: (string, string) -> AC.AuthResult)
    ensures HandleSubmit(Initial(), from, login).state.error == Str(UsernameRequired + ", " + PasswordRequired)
    ensures !HandleSubmit(Initial(), from, login).loginCalled
  {
    var form := Initial().form;
    assert Value(form, "username") == "" && Value(form, "password") == "";
    assert JsTrim("") == "";
    assert ValidateForm(form) == [UsernameRequired, PasswordRequired];
  }

  /**
   * What the page can show for the server's own answers: the context
   * passes on only a string `error`, so a 401 shows the server's message and
   * a 400 the context's fallback, never a field message. No refresh token is
   * stored, so the interceptor passes the reply through.
   */
  lemma {:induction false} ServerErrorsShown(
    e: AC.Env, body: Json, authenticate: S.Credentials -> Option<V.User>, issue: V.User -> V.Tokens,
    refresh: AS.RefreshReply, replay: AS.Reply)
    requires !AS.Stored(e.browser.storage, AS.RefreshKey)
    ensures var resp := V.LoginView(body, authenticate, issue);
      var r := AC.Login(e, AC.AsReply(resp), refresh, replay);
      (resp.Status() == V.Unauthorized401 ==>
         HandleLoginError(r.result.error) == Some(Str(V.InvalidCredentialsMessage)))
      && (resp.Status() == V.BadRequest400 ==>
         HandleLoginError(r.result.error) == Some(Str(AC.LoginFailedMessage)))
  {
    var resp := V.LoginView(body, authenticate, issue);
    if resp.Status() == V.Unauthorized401 {
      assert resp == V.JsonResponse(V.Unauthorized401, Obj(map["error" := Str(V.InvalidCredentialsMessage)]));
      RejectedLoginShown(e, resp, refresh, replay);
    }
    if resp.Status() == V.BadRequest400 {
      BadRequestHasNoError(body, authenticate, issue);
      RejectedLoginShown(e, resp, refresh, replay);
    }
  }

  /** The login view's 400 body never has an `error` member. */
  lemma BadRequestHasNoError(body: Json, authenticate: S.Credentials -> Option<V.User>, issue: V.User -> V.Tokens)
    requires V.LoginView(body, authenticate, issue).Status() == V.BadRequest400
    ensures V.LoginView(body, authenticate, issue).JsonResponse?
    ensures Field(V.LoginView(body, authenticate, issue).body, "error").None?
  {
    var errors := S.ValidateLogin(body).errors;
    assert V.LoginView(body, authenticate, issue) == V.JsonResponse(V.BadRequest400, V.ErrorsJson(errors));
    assert "error" !in errors;
  }

  /**
   * A 400 or 401 from the server, with no refresh token stored, reaches the
   * page as the reply's string `error`, or the context's fallback without one.
   */
  lemma RejectedLoginShown(e: AC.Env, resp: V.Response, refresh: AS.RefreshReply, replay: AS.Reply)
    requires !AS.Stored(e.browser.storage, AS.RefreshKey)
    requires resp.JsonResponse? && resp.status in {V.BadRequest400, V.Unauthorized401}
    requires Field(resp.body, "error").None? || Field(resp.body, "error").value.Str?
    ensures var r := AC.Login(e, AC.AsReply(resp), refresh, replay);
      HandleLoginError(r.result.error)
      == Some(FieldOr(Some(resp.body), "error", Str(AC.LoginFailedMessage)))
  {
    assert AC.AsReply(resp) == AS.HttpError(resp.status, resp.body);
  }
}

=== FILE: middleware.dfy ===
/**
 * The request/response logging middleware of backend/users/middleware.py:
 * the records it writes, the masking of sensitive body fields and the
 * response-body excerpt. Timing (`duration_seconds`) is not modelled.
 */
module Middleware {
  import opened Base
  import opened Json
  import opened Text
  import opened Http

  /** A parsed form body, `request.POST`: each key maps to its list of values. */
  type Form = map<string, seq<string>>

  const SensitiveFields: seq<string> := ["password", "password1", "password2", "token", "secret"]
  const Hidden: string := "***HIDDEN***"

  /**
   * The masking loop: for each field in turn, when the key is present its
   * value is replaced by `hidden`.
   */
  function MaskWith<V>(m: map<string, V>, fields: seq<string>, hidden: V): (r: map<string, V>)
    ensures r.Keys == m.Keys
    ensures forall k :: k in r && k in fields ==> r[k] == hidden
    ensures forall k :: k in r && k !in fields ==> r[k] == m[k]
  {
    if |fields| == 0 then m
    else
      var step := if fields[0] in m then m[fields[0] := hidden] else m;
      var r := MaskWith(step, fields[1..], hidden);
      assert forall k :: k in fields ==> k == fields[0] || k in fields[1..];
      r
  }

  /** The form body with each sensitive field's list set to `['***HIDDEN***']`. */
  function MaskForm(body: Form): (r: Form)
    ensures r.Keys == body.Keys
    ensures forall k :: k in body && k !in SensitiveFields ==> r[k] == body[k]
    ensures forall k :: k in body && k in SensitiveFields ==> r[k] == [Hidden]
  {
    MaskWith(body, SensitiveFields, [Hidden])
  }

  /** Masking twice is masking once. */
  lemma MaskIdempotent<V>(m: map<string, V>, fields: seq<string>, hidden: V)
    ensures MaskWith(MaskWith(m, fields, hidden), fields, hidden) == MaskWith(m, fields, hidden)
  {
  }

  /** Masking the form twice is masking it once. */
  lemma MaskFormIdempotent(body: Form)
    ensures MaskForm(MaskForm(body)) == MaskForm(body)
  {
    MaskIdempotent(body, SensitiveFields, [Hidden]);
  }

  /**
   * The JSON masking loop on a decoded body. On an object the sensitive keys
   * present are hidden. On any other value `field in value` either raises
   * (numbers, booleans, null) or, when it holds, the assignment
   * `value[field] = ...` raises (a list holding the field name, a string
   * containing it); `None` stands for that `TypeError`.
   */
  function MaskJson(j: Json): (r: Option<Json>)
    ensures j.Obj? ==> r == Some(Obj(MaskWith(j.fields, SensitiveFields, Str(Hidden))))
    ensures r.Some? && !j.Obj? ==> r.value == j
    ensures r.None? <==> j.Null? || j.Bool? || j.Int?
                         || (j.Arr? && exists k :: 0 <= k < |SensitiveFields| && Str(SensitiveFields[k]) in j.items)
                         || (j.Str? && exists k :: 0 <= k < |SensitiveFields| && Contains(j.s, SensitiveFields[k]))
  {
    match j
    case Obj(fields) => Some(Obj(MaskWith(fields, SensitiveFields, Str(Hidden))))
    case Arr(items) =>
      if exists k :: 0 <= k < |SensitiveFields| && Str(SensitiveFields[k]) in items then None else Some(j)
    case Str(s) =>
      if exists k :: 0 <= k < |SensitiveFields| && Contains(s, SensitiveFields[k]) then None else Some(j)
    case _ => None
  }

  /** What `json.loads(request.body)` did. */
  datatype Decoded =
    | Parsed(value: Json)
    | SyntaxError   // `json.JSONDecodeError`
    | OtherError    // any other exception, such as a `UnicodeDecodeError`

  /** The request body inputs: `request.POST` (None if reading it raises), content type, body. */
  datatype BodyInput = BodyInput(post: Option<Form>, contentType: string, hasBody: bool, decoded: Decoded)

  /** What `safe_get_request_body` returns. */
  datatype BodyLog =
    | FormBody(fields: Form)   // `dict(body)`: every key with its list of values
    | JsonBody(value: Json)
    | FormText(fields: Form)   // `str(body)` of the masked form
    | Unreadable               // `None`, after an exception

  /**
   * `safe_get_request_body`: the masked form body, unless the request is a
   * non-empty JSON request, in which case the masked JSON value, or the text
   * of the masked form when the JSON does not parse.
   */
  function SafeRequestBody(b: BodyInput): (r: BodyLog)
    ensures r.FormBody? ==> b.post.Some? && r.fields == MaskForm(b.post.value)
                            && !(b.contentType == "application/json" && b.hasBody)
    ensures r.FormText? ==> b.post.Some? && r.fields == MaskForm(b.post.value) && b.decoded.SyntaxError?
    ensures r.JsonBody? ==> b.decoded.Parsed? && Some(r.value) == MaskJson(b.decoded.value)
    ensures (b.post.Some? && b.contentType == "application/json" && b.hasBody && b.decoded.Parsed?
             && b.decoded.value.Obj?) ==> r.JsonBody?
    ensures b.post.Some? && b.contentType == "application/json" && b.hasBody && b.decoded.SyntaxError? ==>
      r == FormText(MaskForm(b.post.value))
    ensures b.post.Some? && !(b.contentType == "application/json" && b.hasBody) ==>
      r == FormBody(MaskForm(b.post.value))
    ensures r.Unreadable? <==>
      (b.post.None?
       || (b.contentType == "application/json" && b.hasBody
           && (b.decoded.OtherError? || (b.decoded.Parsed? && MaskJson(b.decoded.value).None?))))
  {
    match b.post
    case None => Unreadable
    case Some(post) =>
      var masked := MaskForm(post);
      if b.contentType == "application/json" && b.hasBody then
        match b.decoded
        case Parsed(value) =>
          (match MaskJson(value)
           case Some(m) => JsonBody(m)
           case None => Unreadable)
        case SyntaxError => FormText(masked)
        case OtherError => Unreadable
      else FormBody(masked)
  }

  /** No sensitive value of the form reaches the record. */
  lemma NoPasswordInFormLog(b: BodyInput)
    ensures var r := SafeRequestBody(b);
      (r.FormBody? || r.FormText?) ==> forall k :: k in r.fields && k in SensitiveFields ==> r.fields[k] == [Hidden]
  {
  }

  /** Python truthiness of the returned body: `str(body)` is never empty. */
  predicate BodyTruthy(b: BodyLog) {
    match b
    case FormBody(fields) => |fields| > 0
    case JsonBody(value) => PyTruthy(value)
    case FormText(_) => true
    case Unreadable => false
  }

  /** The `REQUEST:` record. `duration` and the JSON formatting are not modelled. */
  datatype RequestInfo = RequestInfo(
    verb: string,
    path: string,
    queryParams: Form,
    clientIp: Option<string>,
    userAgent: string,
    user: string,
    requestBody: Option<BodyLog>)

  const BodyMethods: set<string> := {"POST", "PUT", "PATCH"}

  /** `log_request`: the body is recorded only for POST, PUT and PATCH, and only when truthy. */
  function LogRequest(request: Request, body: BodyInput): (r: RequestInfo)
    ensures r.requestBody.Some? <==> request.verb in BodyMethods && BodyTruthy(SafeRequestBody(body))
    ensures r.requestBody.Some? ==> r.requestBody.value == SafeRequestBody(body)
    ensures r.clientIp == ClientIp(request.meta)
    ensures r.userAgent == Lookup(request.meta, "HTTP_USER_AGENT").GetOr("")
    ensures r.user == UserName(request)
  {
    var b := if request.verb in BodyMethods && BodyTruthy(SafeRequestBody(body))
             then Some(SafeRequestBody(body)) else None;
    RequestInfo(request.verb, request.path, request.query, ClientIp(request.meta),
                Lookup(request.meta, "HTTP_USER_AGENT").GetOr(""), UserName(request), b)
  }

  /** The response kinds the middleware can see. */
  datatype ServerResponse =
    | ApiResponse(status: nat, data: Json)          // a framework `Response`, which has `data`
    | PlainResponse(status: nat, content: seq<Byte>) // an `HttpResponse`: bytes
    | StreamingResponse(status: nat)                  // no `content` attribute
  {
    function Status(): nat {
      match this
      case ApiResponse(s, _) => s
      case PlainResponse(s, _) => s
      case StreamingResponse(s) => s
    }
  }

  const ExcerptLength: nat := 1000

  /** What `safe_get_response_body` returns. */
  datatype ResponseBody = Data(value: Json) | Content(bytes: seq<Byte>) | Text(text: string)

  /** `response.data` if there is one, else the first 1000 bytes of `content`, else ''. */
  function SafeResponseBody(r: ServerResponse): (b: ResponseBody)
    ensures r.ApiResponse? <==> b.Data?
    ensures r.PlainResponse? <==> b.Content?
    ensures b.Data? ==> b.value == r.data
    ensures b.Content? ==> r.PlainResponse? && |b.bytes| <= ExcerptLength && b.bytes <= r.content
    ensures b.Content? ==> |b.bytes| == if |r.content| < ExcerptLength then |r.content| else ExcerptLength
    ensures r.StreamingResponse? ==> b == Text("")
  {
    match r
    case ApiResponse(_, data) => Data(data)
    case PlainResponse(_, content) =>
      Content(if |content| <= ExcerptLength then content else content[..ExcerptLength])
    case StreamingResponse(_) => Text("")
  }

  /** The `RESPONSE:` record. */
  datatype ResponseInfo = ResponseInfo(
    verb: string,
    path: string,
    statusCode: nat,
    clientIp: Option<string>,
    user: string,
    responseBody: Option<ResponseBody>)

  /** Either the record is written, or formatting it raised and only an error line is written. */
  datatype ResponseLog = Logged(info: ResponseInfo) | LoggingFailed

  /** `json.dumps` serializes every body except raw bytes. */
  predicate Serializable(b: ResponseBody) {
    !b.Content?
  }

  function ResponseRecord(request: Request, response: ServerResponse, body: Option<ResponseBody>): ResponseInfo {
    ResponseInfo(request.verb, request.path, response.Status(), ClientIp(request.meta), UserName(request), body)
  }

  /**
   * `log_response` as written: the body is attached from status 400 on; a
   * plain error response attaches bytes, `json.dumps` raises on them and the
   * record is replaced by an error line.
   */
  function LogResponse(request: Request, response: ServerResponse): (r: ResponseLog)
    ensures r.Logged? ==> (r.info.responseBody.Some? <==> response.Status() >= 400)
    ensures r.Logged? && r.info.responseBody.Some? ==> r.info.responseBody.value == SafeResponseBody(response)
    ensures r.LoggingFailed? <==> response.Status() >= 400 && response.PlainResponse?
  {
    var body := if response.Status() >= 400 then Some(SafeResponseBody(response)) else None;
    if body.Some? && !Serializable(body.value) then LoggingFailed
    else Logged(ResponseRecord(request, response, body))
  }

  /** Every plain error response, such as the framework's own 404 page, goes unrecorded. */
  lemma PlainErrorResponsesUnlogged(request: Request, status: nat, content: seq<Byte>)
    requires status >= 400
    ensures LogResponse(request, PlainResponse(status, content)) == LoggingFailed
  {
  }

  /**
   * The evident intent: record the first 1000 bytes of every error body as
   * text. `decode` is the bytes-to-text conversion (for instance UTF-8 with
   * replacement).
   */
  function LogResponseAsText(request: Request, response: ServerResponse, decode: seq<Byte> -> string): (r: ResponseLog)
    ensures r.Logged?
    ensures r.info.responseBody.Some? <==> response.Status() >= 400
    ensures r.info.responseBody.Some? ==> Serializable(r.info.responseBody.value)
    ensures response.Status() >= 400 && response.PlainResponse? ==>
      r.info.responseBody == Some(Text(decode(SafeResponseBody(response).bytes)))
  {
    var body :=
      if response.Status() < 400 then None
      else match SafeResponseBody(response)
        case Content(bytes) => Some(Text(decode(bytes)))
        case other => Some(other);
    Logged(ResponseRecord(request, response, body))
  }

  /** Where the written code does log, the corrected version writes the same record. */
  lemma AsTextAgreesWhenLogged(request: Request, response: ServerResponse, decode: seq<Byte> -> string)
    requires LogResponse(request, response).Logged?
    ensures LogResponseAsText(request, response, decode) == LogResponse(request, response)
  {
  }
}

=== FILE: password_agreement.dfy ===
/**
 * How the browser's verdict (frontend/src/utils/passwordValidator.js) and the
 * server's (backend/users/validators.py) relate. On passwords written in the
 * Basic Multilingual Plane a password the browser accepts is accepted by the
 * server; the converse needs an ASCII digit and none of the four entries only
 * the browser lists. Outside those conditions the two disagree both ways.
 */
module PasswordAgreement {
  import opened Text
  import opened PasswordRules
  import PV = PasswordValidator
  import SV = StrengthValidator

  /** The four deny-list entries only the browser has. */
  lemma FrontendOnlyEntries()
    ensures FrontendSequences[11..] == ["abcdefgh", "987654321", "11111111", "00000000"]
  {
  }

  /**
   * On BMP passwords the browser accepts exactly the passwords the server
   * accepts that also have an ASCII digit and none of the browser-only entries.
   */
  lemma ValidityAgreement(password: string)
    requires AllBmp(password)
    ensures PV.ValidatePassword(password).isValid <==>
      (SV.Validate(password) == SV.Accepted
       && HasAsciiDigit(password)
       && !ContainsAny(Lower(password), FrontendSequences[11..]))
  {
    var a := PV.ValidatePassword(password);
    var back := SV.BackendChecks(password);
    BackendListIsPrefix();
    ContainsAnySplit(Lower(password), FrontendSequences, 11);
    if HasAsciiDigit(password) {
      var i :| 0 <= i < |password| && IsAsciiDigit(password[i]);
      AsciiDigitIsPyDecimal(password[i]);
    }
    PV.AllPassedFields(a.checks);
    PV.AllPassedFields(back);
  }

  /** Hence a BMP password the browser accepts is never refused by the server. */
  lemma FrontendValidImpliesBackendAccepted(password: string)
    requires AllBmp(password)
    requires PV.ValidatePassword(password).isValid
    ensures SV.Validate(password) == SV.Accepted
  {
    ValidityAgreement(password);
  }

  /** "Aa2!😀😀" is eight UTF-16 units but six code points. */
  lemma AstralLength()
    ensures Utf16Length("Aa2!😀😀") == 8 && |"Aa2!😀😀"| == 6
  {
    assert "Aa2!😀😀" == "Aa2!" + ("😀" + "😀");
    Utf16LengthAppend("Aa2!", "😀" + "😀");
    Utf16LengthAppend("😀", "😀");
    assert AllBmp("Aa2!");
    assert "😀"[0] as int >= 0x1_0000;
  }

  /** Letters "aa2!😀😀" lacks, and one such letter of each browser deny-list entry. */
  lemma AstralLacks()
    ensures 'q' !in "aa2!😀😀" && 's' !in "aa2!😀😀" && 'z' !in "aa2!😀😀" && '1' !in "aa2!😀😀"
    ensures 'p' !in "aa2!😀😀" && 'd' !in "aa2!😀😀" && 'i' !in "aa2!😀😀" && 'b' !in "aa2!😀😀"
    ensures '9' !in "aa2!😀😀" && '0' !in "aa2!😀😀"
  {
  }

  lemma FrontendEntryLetters()
    ensures var f := FrontendSequences;
      f[0][0] == 'q' && f[1][1] == 's' && f[2][0] == 'z' && f[3][0] == '1' && f[4][0] == 'p'
    ensures var f := FrontendSequences;
      f[5][1] == 'd' && f[6][0] == '1' && f[7][0] == 'q' && f[8][1] == 'q' && f[9][0] == 'q'
    ensures var f := FrontendSequences;
      f[10][0] == 'i' && f[11][1] == 'b' && f[12][0] == '9' && f[13][0] == '1' && f[14][0] == '0'
  {
  }

  /** The classes the browser sees in "Aa2!😀😀". */
  lemma AstralClasses()
    ensures HasUpper("Aa2!😀😀") && HasLower("Aa2!😀😀")
    ensures HasAsciiDigit("Aa2!😀😀") && HasSpecial("Aa2!😀😀")
  {
    var p := "Aa2!😀😀";
    assert IsUpperClass(p[0]) && IsLowerClass(p[1]) && IsAsciiDigit(p[2]) && p[3] == SpecialChars[0];
  }

  lemma AstralLower()
    ensures Lower("Aa2!😀😀") == "aa2!😀😀"
  {
    SV.LowerIs("Aa2!😀😀", "aa2!😀😀");
  }

  /**
   * Two emoji count twice in JavaScript: the browser accepts "Aa2!😀😀" while
   * the server, counting six characters, rejects it for its length.
   */
  lemma AstralDisagreement()
    ensures PV.ValidatePassword("Aa2!😀😀").isValid
    ensures SV.Validate("Aa2!😀😀").Rejected?
  {
    AstralBrowserChecks();
    PV.AllPassedFields(PV.ValidatePassword("Aa2!😀😀").checks);
    AstralLength();
    SV.ShortGetsLengthError("Aa2!😀😀");
  }

  lemma AstralBrowserChecks()
    ensures PV.ValidatePassword("Aa2!😀😀").checks == PV.Checks(true, true, true, true, true, true)
  {
    AstralLength();
    AstralClasses();
    AstralLower();
    AstralNotListed();
  }

  lemma AstralNotListed()
    ensures !ContainsAny("aa2!😀😀", FrontendSequences)
  {
    AstralLacks();
    FrontendEntryLetters();
    NoneContained("aa2!😀😀", FrontendSequences);
  }

  /** Letters "abcdefgh1!" lacks, one of each server deny-list entry. */
  lemma AbcLacks()
    ensures 'q' !in "abcdefgh1!" && 's' !in "abcdefgh1!" && 'z' !in "abcdefgh1!" && '2' !in "abcdefgh1!"
    ensures 'p' !in "abcdefgh1!" && 'm' !in "abcdefgh1!" && 'i' !in "abcdefgh1!"
  {
  }

  lemma BackendEntryLettersAbc()
    ensures var b := BackendSequences;
      b[0][0] == 'q' && b[1][1] == 's' && b[2][0] == 'z' && b[3][1] == '2' && b[4][0] == 'p' && b[5][2] == 'm'
    ensures var b := BackendSequences;
      b[6][1] == '2' && b[7][0] == 'q' && b[8][1] == 'q' && b[9][0] == 'q' && b[10][0] == 'i'
  {
  }

  /** A string without 'q', 's', 'z', '2', 'p', 'm' and 'i' contains no server deny-list entry. */
  lemma BackendListMissed(s: string)
    requires 'q' !in s && 's' !in s && 'z' !in s && '2' !in s && 'p' !in s && 'm' !in s && 'i' !in s
    ensures !ContainsAny(s, BackendSequences)
  {
    var b := BackendSequences;
    BackendEntryLettersAbc();
    assert Misses(s, b[0]) && Misses(s, b[1]) && Misses(s, b[2]) && Misses(s, b[3]);
    assert Misses(s, b[4]) && Misses(s, b[5]) && Misses(s, b[6]) && Misses(s, b[7]);
    assert Misses(s, b[8]) && Misses(s, b[9]) && Misses(s, b[10]);
    NoneContained(s, b);
  }

  lemma AbcClasses()
    ensures HasUpper("Abcdefgh1!") && HasLower("Abcdefgh1!")
    ensures HasPyDecimal("Abcdefgh1!") && HasSpecial("Abcdefgh1!")
  {
    var p := "Abcdefgh1!";
    assert IsUpperClass(p[0]) && IsLowerClass(p[1]) && p[9] == SpecialChars[0];
    AsciiDigitIsPyDecimal(p[8]);
    assert IsPyDecimal(p[8]);
  }

  lemma AbcDeniedByBrowser()
    ensures ContainsAny(Lower("Abcdefgh1!"), FrontendSequences)
  {
    SV.LowerIs("Abcdefgh1!", "abcdefgh1!");
    assert "abcdefgh1!"[..8] == FrontendSequences[11];
    assert OccursAt("abcdefgh1!", FrontendSequences[11], 0);
  }

  /**
   * The browser-only entry "abcdefgh": the server accepts "Abcdefgh1!", the
   * browser refuses it.
   */
  lemma DenyListDisagreement()
    ensures SV.Validate("Abcdefgh1!") == SV.Accepted
    ensures !PV.ValidatePassword("Abcdefgh1!").isValid
  {
    AbcServerChecks();
    PV.AllPassedFields(SV.BackendChecks("Abcdefgh1!"));
    AbcDeniedByBrowser();
    PV.AllPassedFields(PV.ValidatePassword("Abcdefgh1!").checks);
  }

  lemma AbcServerChecks()
    ensures SV.BackendChecks("Abcdefgh1!") == PV.Checks(true, true, true, true, true, true)
  {
    SV.LowerIs("Abcdefgh1!", "abcdefgh1!");
    AbcClasses();
    AbcLacks();
    BackendListMissed("abcdefgh1!");
  }

  /**
   * The KELVIN SIGN U+212A lower-cases to 'k' on both sides, so
   * "Aa1!asdfghj\U{212A}l" contains "asdfghjkl" for the browser and the server.
   */
  lemma KelvinSignDenied()
    ensures ContainsAny(Lower("Aa1!asdfghj\U{212A}l"), BackendSequences)
    ensures ContainsAny(Lower("Aa1!asdfghj\U{212A}l"), FrontendSequences)
  {
    SV.LowerIs("Aa1!asdfghj\U{212A}l", "aa1!asdfghjkl");
    assert "aa1!asdfghjkl"[4..] == BackendSequences[1];
    assert OccursAt("aa1!asdfghjkl", BackendSequences[1], 4);
    FrontendListCoversBackend(Lower("Aa1!asdfghj\U{212A}l"));
  }

  /** ARABIC-INDIC DIGIT THREE, U+0663: a digit for Python, not for JavaScript. */
  lemma ArabicThreeIsDigitForPythonOnly()
    ensures IsPyDecimal('٣') && !IsAsciiDigit('٣')
  {
    assert DecimalBlockStarts[1] <= '٣' as int < DecimalBlockStarts[1] + 10;
  }

  /** "Aa!٣bcdefg" has no ASCII digit. */
  lemma ArabicNoAsciiDigit()
    ensures !HasAsciiDigit("Aa!٣bcdefg")
  {
  }

  /**
   * A Unicode digit: the server accepts "Aa!٣bcdefg" (its `\d` matches U+0663),
   * the browser refuses it for lack of a digit.
   */
  lemma DigitDisagreement()
    ensures SV.Validate("Aa!٣bcdefg") == SV.Accepted
    ensures !PV.ValidatePassword("Aa!٣bcdefg").isValid
  {
    ArabicServerChecks();
    PV.AllPassedFields(SV.BackendChecks("Aa!٣bcdefg"));
    ArabicNoAsciiDigit();
    PV.AllPassedFields(PV.ValidatePassword("Aa!٣bcdefg").checks);
  }

  lemma ArabicServerChecks()
    ensures SV.BackendChecks("Aa!٣bcdefg") == PV.Checks(true, true, true, true, true, true)
  {
    SV.LowerIs("Aa!٣bcdefg", "aa!٣bcdefg");
    ArabicClasses();
    ArabicNotListed();
  }

  lemma ArabicClasses()
    ensures HasUpper("Aa!٣bcdefg") && HasLower("Aa!٣bcdefg")
    ensures HasPyDecimal("Aa!٣bcdefg") && HasSpecial("Aa!٣bcdefg")
  {
    var p := "Aa!٣bcdefg";
    assert IsUpperClass(p[0]) && IsLowerClass(p[1]) && p[2] == SpecialChars[0];
    ArabicThreeIsDigitForPythonOnly();
    assert IsPyDecimal(p[3]);
  }

  lemma ArabicNotListed()
    ensures !ContainsAny("aa!٣bcdefg", BackendSequences)
  {
    ArabicLacks();
    BackendListMissed("aa!٣bcdefg");
  }

  lemma ArabicLacks()
    ensures 'q' !in "aa!٣bcdefg" && 's' !in "aa!٣bcdefg" && 'z' !in "aa!٣bcdefg" && '2' !in "aa!٣bcdefg"
    ensures 'p' !in "aa!٣bcdefg" && 'm' !in "aa!٣bcdefg" && 'i' !in "aa!٣bcdefg"
  {
  }
}

=== FILE: password_rules.dfy ===
/**
 * The six password rules shared by the browser-side validator
 * (frontend/src/utils/passwordValidator.js) and the server-side
 * `PasswordStrengthValidator` (backend/users/validators.py): the character
 * classes of their regular expressions and the two deny-lists.
 */
module PasswordRules {
  import opened Text

  /** Minimum length, `passwordRequirements.minLength` and the literal 8 of the server. */
  const MinLength: nat := 8

  /** Regular-expression class `[A-ZА-Я]`: Latin and basic Cyrillic capitals, not Ё. */
  predicate IsUpperClass(c: char) {
    ('A' <= c <= 'Z') || ('А' <= c <= 'Я')
  }

  /** Regular-expression class `[a-zа-я]`: Latin and basic Cyrillic small letters, not ё. */
  predicate IsLowerClass(c: char) {
    ('a' <= c <= 'z') || ('а' <= c <= 'я')
  }

  /** JavaScript `\d`: ASCII digits only. */
  predicate IsAsciiDigit(c: char) {
    '0' <= c <= '9'
  }

  /**
   * First code points of the decimal-digit blocks (Unicode category Nd) of
   * the Basic Multilingual Plane; each block holds the ten digits 0-9.
   */
  const DecimalBlockStarts: seq<int> := [
    0x0030, 0x0660, 0x06F0, 0x07C0, 0x0966, 0x09E6, 0x0A66, 0x0AE6, 0x0B66, 0x0BE6,
    0x0C66, 0x0CE6, 0x0D66, 0x0DE6, 0x0E50, 0x0ED0, 0x0F20, 0x1040, 0x1090, 0x17E0,
    0x1810, 0x1946, 0x19D0, 0x1A80, 0x1A90, 0x1B50, 0x1BB0, 0x1C40, 0x1C50, 0xA620,
    0xA8D0, 0xA900, 0xA9D0, 0xA9F0, 0xAA50, 0xABF0, 0xFF10
  ]

  /** Python `\d` on a `str`: any Unicode decimal digit (within the table above). */
  predicate IsPyDecimal(c: char) {
    exists k :: 0 <= k < |DecimalBlockStarts| && DecimalBlockStarts[k] <= c as int < DecimalBlockStarts[k] + 10
  }

  lemma AsciiDigitIsPyDecimal(c: char)
    ensures IsAsciiDigit(c) ==> IsPyDecimal(c)
  {
    if IsAsciiDigit(c) {
      assert DecimalBlockStarts[0] <= c as int < DecimalBlockStarts[0] + 10;
    }
  }

  /** The characters of the class `[!@#$%^&*(),.?":{}|<>]`. */
  const SpecialChars: string := "!@#$%^&*(),.?\":{}|<>"

  predicate IsSpecial(c: char) {
    c in SpecialChars
  }

  predicate HasUpper(s: string) {
    exists i :: 0 <= i < |s| && IsUpperClass(s[i])
  }

  predicate HasLower(s: string) {
    exists i :: 0 <= i < |s| && IsLowerClass(s[i])
  }

  predicate HasAsciiDigit(s: string) {
    exists i :: 0 <= i < |s| && IsAsciiDigit(s[i])
  }

  predicate HasPyDecimal(s: string) {
    exists i :: 0 <= i < |s| && IsPyDecimal(s[i])
  }

  predicate HasSpecial(s: string) {
    exists i :: 0 <= i < |s| && IsSpecial(s[i])
  }

  /** `commonSequences` of the browser validator: fifteen entries. */
  const FrontendSequences: seq<string> := [
    "qwertyuiop", "asdfghjkl", "zxcvbnm",
    "1234567890", "password", "admin", "12345678",
    "qwerty123", "1q2w3e4r", "qazwsxedc", "iloveyou",
    "abcdefgh", "987654321", "11111111", "00000000"
  ]

  /** `self.common_sequences` of the server validator: eleven entries. */
  const BackendSequences: seq<string> := [
    "qwertyuiop", "asdfghjkl", "zxcvbnm",
    "1234567890", "password", "admin", "12345678",
    "qwerty123", "1q2w3e4r", "qazwsxedc", "iloveyou"
  ]

  /** Some entry of `list` is a substring of `s`. */
  predicate ContainsAny(s: string, list: seq<string>) {
    exists k :: 0 <= k < |list| && Contains(s, list[k])
  }

  /** The server's list is the first eleven entries of the browser's list. */
  lemma BackendListIsPrefix()
    ensures |FrontendSequences| == 15 && |BackendSequences| == 11
    ensures BackendSequences == FrontendSequences[..11]
  {
  }

  /** Passing the browser's deny-list implies passing the server's. */
  lemma FrontendListCoversBackend(s: string)
    ensures ContainsAny(s, BackendSequences) ==> ContainsAny(s, FrontendSequences)
  {
    if ContainsAny(s, BackendSequences) {
      var k :| 0 <= k < |BackendSequences| && Contains(s, BackendSequences[k]);
      assert FrontendSequences[k] == BackendSequences[k];
    }
  }

  /** Some character of `sub` does not occur in `s`. */
  predicate Misses(s: string, sub: string) {
    exists i :: 0 <= i < |sub| && sub[i] !in s
  }

  /** A string missing one of the characters of `sub` cannot contain `sub`. */
  lemma MissingCharNotContained(s: string, sub: string)
    requires Misses(s, sub)
    ensures !Contains(s, sub)
  {
    var i :| 0 <= i < |sub| && sub[i] !in s;
    assert forall k :: OccursAt(s, sub, k) ==> sub[i] == s[k + i];
  }

  /** No entry of `list` occurs in `s` when each misses a character of `s`. */
  lemma NoneContained(s: string, list: seq<string>)
    requires forall k :: 0 <= k < |list| ==> Misses(s, list[k])
    ensures !ContainsAny(s, list)
  {
    forall k | 0 <= k < |list| ensures !Contains(s, list[k]) {
      MissingCharNotContained(s, list[k]);
    }
  }

  /** A list splits into a front and a back part for `ContainsAny`. */
  lemma ContainsAnySplit(s: string, list: seq<string>, n: nat)
    requires n <= |list|
    ensures ContainsAny(s, list) <==> ContainsAny(s, list[..n]) || ContainsAny(s, list[n..])
  {
    if ContainsAny(s, list) {
      var k :| 0 <= k < |list| && Contains(s, list[k]);
      if k < n {
        assert list[..n][k] == list[k];
      } else {
        assert list[n..][k - n] == list[k];
      }
    }
    if ContainsAny(s, list[..n]) {
      var k :| 0 <= k < n && Contains(s, list[..n][k]);
      assert list[k] == list[..n][k];
    }
    if ContainsAny(s, list[n..]) {
      var k :| 0 <= k < |list| - n && Contains(s, list[n..][k]);
      assert list[n + k] == list[n..][k];
    }
  }
}

=== FILE: password_validator.dfy ===
/**
 * The browser-side password assessment of frontend/src/utils/passwordValidator.js:
 * `validatePassword`, `calculatePasswordStrength` and `getPasswordStrengthText`.
 * Lengths are JavaScript lengths (UTF-16 code units).
 */
module PasswordValidator {
  import opened Text
  import opened PasswordRules

  datatype Rule = Length | Uppercase | Lowercase | Numbers | Special | NoCommonSequences

  /** The order in which the rules are evaluated and their messages pushed. */
  const RuleOrder: seq<Rule> := [Length, Uppercase, Lowercase, Numbers, Special, NoCommonSequences]

  /** The `checks` record: one flag per rule. */
  datatype Checks = Checks(
    length: bool,
    uppercase: bool,
    lowercase: bool,
    numbers: bool,
    specialChars: bool,
    noCommonSequences: bool)

  function Passed(c: Checks, r: Rule): bool {
    match r
    case Length => c.length
    case Uppercase => c.uppercase
    case Lowercase => c.lowercase
    case Numbers => c.numbers
    case Special => c.specialChars
    case NoCommonSequences => c.noCommonSequences
  }

  predicate AllPassed(c: Checks) {
    forall r :: Passed(c, r)
  }

  /** `AllPassed` field by field. */
  lemma AllPassedFields(c: Checks)
    ensures AllPassed(c) <==>
      (c.length && c.uppercase && c.lowercase && c.numbers && c.specialChars && c.noCommonSequences)
  {
    if AllPassed(c) {
      assert Passed(c, Length) && Passed(c, Uppercase) && Passed(c, Lowercase);
      assert Passed(c, Numbers) && Passed(c, Special) && Passed(c, NoCommonSequences);
    } else {
      var r :| !Passed(c, r);
    }
  }

  /** The error message pushed when rule `r` fails. */
  function Message(r: Rule): string {
    match r
    case Length => "Пароль должен содержать минимум 8 символов"
    case Uppercase => "Пароль должен содержать хотя бы одну заглавную букву"
    case Lowercase => "Пароль должен содержать хотя бы одну строчную букву"
    case Numbers => "Пароль должен содержать хотя бы одну цифру"
    case Special => "Пароль должен содержать хотя бы один специальный символ (!@#$%^&* и т.д.)"
    case NoCommonSequences => "Пароль содержит простую последовательность символов"
  }

  /** The rules of `rules` that `c` fails, in their order. */
  function Failed(c: Checks, rules: seq<Rule>): (f: seq<Rule>)
    ensures |f| <= |rules|
    ensures forall r :: r in f <==> r in rules && !Passed(c, r)
  {
    if |rules| == 0 then []
    else (if Passed(c, rules[0]) then [] else [rules[0]]) + Failed(c, rules[1..])
  }

  /** Filtering distributes over concatenation. */
  lemma {:induction false} FailedAppend(c: Checks, x: seq<Rule>, y: seq<Rule>)
    ensures Failed(c, x + y) == Failed(c, x) + Failed(c, y)
  {
    if |x| > 0 {
      assert (x + y)[1..] == x[1..] + y;
      FailedAppend(c, x[1..], y);
    } else {
      assert x + y == y;
    }
  }

  /** The deny-list rule comes last: it can only fail in the last position. */
  lemma SequenceRuleLast(c: Checks)
    ensures var f := Failed(c, RuleOrder);
      forall i :: 0 <= i < |f| - 1 ==> f[i] != NoCommonSequences
    ensures !c.noCommonSequences ==>
      (|Failed(c, RuleOrder)| > 0 && Failed(c, RuleOrder)[|Failed(c, RuleOrder)| - 1] == NoCommonSequences)
  {
    var front := Failed(c, RuleOrder[..5]);
    var last := Failed(c, [NoCommonSequences]);
    assert RuleOrder == RuleOrder[..5] + [NoCommonSequences];
    FailedAppend(c, RuleOrder[..5], [NoCommonSequences]);
    assert NoCommonSequences !in front;
    assert |last| <= 1;
  }

  /** The same fact for one position before the last. */
  lemma SequenceRuleNotBefore(c: Checks, i: nat)
    requires i < |Failed(c, RuleOrder)| - 1
    ensures Failed(c, RuleOrder)[i] != NoCommonSequences
  {
    SequenceRuleLast(c);
  }

  /** The message of each rule of `rules`, in order. */
  function Messages(rules: seq<Rule>, msg: Rule -> string): (m: seq<string>)
    ensures |m| == |rules|
    ensures forall i :: 0 <= i < |rules| ==> m[i] == msg(rules[i])
  {
    seq(|rules|, i requires 0 <= i < |rules| => msg(rules[i]))
  }

  /** Number of passed rules among `rules`. */
  function PassedCount(c: Checks, rules: seq<Rule>): (n: nat)
    ensures n <= |rules|
  {
    if |rules| == 0 then 0
    else (if Passed(c, rules[0]) then 1 else 0) + PassedCount(c, rules[1..])
  }

  lemma {:induction false} PassedPlusFailed(c: Checks, rules: seq<Rule>)
    ensures PassedCount(c, rules) + |Failed(c, rules)| == |rules|
  {
    if |rules| > 0 {
      PassedPlusFailed(c, rules[1..]);
    }
  }

  datatype Strength = VeryWeak | Weak | Medium | Strong | VeryStrong

  /** Position of a strength level, weakest first. */
  function Rank(s: Strength): nat {
    match s
    case VeryWeak => 0
    case Weak => 1
    case Medium => 2
    case Strong => 3
    case VeryStrong => 4
  }

  /** The string the source returns for a level. */
  function Name(s: Strength): string {
    match s
    case VeryWeak => "very-weak"
    case Weak => "weak"
    case Medium => "medium"
    case Strong => "strong"
    case VeryStrong => "very-strong"
  }

  /** The result of `validatePassword`. */
  datatype Assessment = Assessment(
    isValid: bool,
    errors: seq<string>,
    warnings: seq<string>,
    checks: Checks,
    strength: Strength)

  /** The integer score: passed checks plus one point at 12 and one at 16 characters. */
  function Score(c: Checks, length: int): nat {
    PassedCount(c, RuleOrder) + (if length >= 12 then 1 else 0) + (if length >= 16 then 1 else 0)
  }

  /** The strength buckets read off the integer score. */
  function Bucket(score: int): Strength {
    if score <= 1 then VeryWeak
    else if score == 2 then Weak
    else if score <= 4 then Medium
    else if score == 5 then Strong
    else VeryStrong
  }

  /**
   * `calculatePasswordStrength`: the score divided by the un-bonused maximum 6,
   * clamped at 1, compared against 0.3, 0.5, 0.7 and 0.9. The quotients k/6 for
   * k in 0..8 fall on the same side of every threshold in exact and in IEEE
   * double arithmetic (only 3/6 = 0.5 meets a threshold, and exactly), so the
   * comparison is modelled with real numbers.
   */
  function CalculateStrength(checks: Checks, length: int): (s: Strength)
    ensures s == Bucket(Score(checks, length))
  {
    var score :=
      (if checks.length then 1 else 0)
      + (if checks.uppercase then 1 else 0)
      + (if checks.lowercase then 1 else 0)
      + (if checks.numbers then 1 else 0)
      + (if checks.specialChars then 1 else 0)
      + (if checks.noCommonSequences then 1 else 0)
      + (if length >= 12 then 1 else 0)
      + (if length >= 16 then 1 else 0);
    ScoreSum(checks, length);
    var ratio := score as real / 6.0;
    var normalized := if ratio < 1.0 then ratio else 1.0;
    if normalized < 0.3 then VeryWeak
    else if normalized < 0.5 then Weak
    else if normalized < 0.7 then Medium
    else if normalized < 0.9 then Strong
    else VeryStrong
  }

  /** Index of the first rule entry that the scan over `list` finds in `s`. */
  function AnyContained(s: string, list: seq<string>): (r: bool)
    ensures r <==> ContainsAny(s, list)
  {
    if |list| == 0 then false
    else if Contains(s, list[0]) then true
    else
      var r := AnyContained(s, list[1..]);
      assert ContainsAny(s, list) <==> Contains(s, list[0]) || ContainsAny(s, list[1..]) by {
        if ContainsAny(s, list[1..]) {
          var k :| 0 <= k < |list[1..]| && Contains(s, list[1..][k]);
          assert Contains(s, list[k + 1]);
        }
        if ContainsAny(s, list) && !Contains(s, list[0]) {
          var k :| 0 <= k < |list| && Contains(s, list[k]);
          assert k > 0 && Contains(s, list[1..][k - 1]);
        }
      }
      r
  }

  /** One `if (ok) { ... } else { errors.push(message) }` step. */
  function Push(errors: seq<string>, ok: bool, message: string): seq<string> {
    if ok then errors else errors + [message]
  }

  /**
   * The messages `validatePassword` pushes: the rules are tried one after the
   * other and each failing one appends its message to `errors`.
   */
  function PushAll(c: Checks, rules: seq<Rule>, errors: seq<string>, msg: Rule -> string): seq<string> {
    if |rules| == 0 then errors
    else PushAll(c, rules[1..], Push(errors, Passed(c, rules[0]), msg(rules[0])), msg)
  }

  function PushedErrors(c: Checks): seq<string> {
    PushAll(c, RuleOrder, [], Message)
  }

  lemma PassedCountCons(c: Checks, r: Rule, rest: seq<Rule>)
    ensures PassedCount(c, [r] + rest) == (if Passed(c, r) then 1 else 0) + PassedCount(c, rest)
  {
    assert ([r] + rest)[1..] == rest;
  }

  lemma MessagesAppend(x: seq<Rule>, y: seq<Rule>, msg: Rule -> string)
    ensures Messages(x + y, msg) == Messages(x, msg) + Messages(y, msg)
  {
  }

  /** Pushing rule by rule appends exactly the messages of the failed rules, in order. */
  lemma {:induction false} PushAllAppendsFailed(c: Checks, rules: seq<Rule>, errors: seq<string>, msg: Rule -> string)
    ensures PushAll(c, rules, errors, msg) == errors + Messages(Failed(c, rules), msg)
  {
    if |rules| > 0 {
      var head := if Passed(c, rules[0]) then [] else [rules[0]];
      PushAllAppendsFailed(c, rules[1..], Push(errors, Passed(c, rules[0]), msg(rules[0])), msg);
      MessagesAppend(head, Failed(c, rules[1..]), msg);
      assert Push(errors, Passed(c, rules[0]), msg(rules[0])) == errors + Messages(head, msg);
    }
  }

  /** The pushed messages are those of the failed rules in rule order. */
  lemma PushedErrorsInRuleOrder(c: Checks, msg: Rule -> string)
    ensures PushAll(c, RuleOrder, [], msg) == Messages(Failed(c, RuleOrder), msg)
  {
    PushAllAppendsFailed(c, RuleOrder, [], msg);
  }

  /** No message is pushed exactly when every check passed. */
  lemma PushedNoneIffAllPassed(c: Checks, msg: Rule -> string)
    ensures |PushAll(c, RuleOrder, [], msg)| == 0 <==> AllPassed(c)
  {
    PushedErrorsInRuleOrder(c, msg);
    if !AllPassed(c) {
      var r :| !Passed(c, r);
      assert r in RuleOrder by {
        match r {
          case Length => assert RuleOrder[0] == r;
          case Uppercase => assert RuleOrder[1] == r;
          case Lowercase => assert RuleOrder[2] == r;
          case Numbers => assert RuleOrder[3] == r;
          case Special => assert RuleOrder[4] == r;
          case NoCommonSequences => assert RuleOrder[5] == r;
        }
      }
      assert r in Failed(c, RuleOrder);
    } else {
      NoneFailed(c, RuleOrder);
    }
  }

  lemma {:induction false} NoneFailed(c: Checks, rules: seq<Rule>)
    requires AllPassed(c)
    ensures Failed(c, rules) == []
  {
    if |rules| > 0 {
      NoneFailed(c, rules[1..]);
      assert Passed(c, rules[0]);
    }
  }

  /** `RuleOrder` written as nested conses, for unfolding one rule at a time. */
  lemma RuleOrderCons()
    ensures RuleOrder == [Length] + ([Uppercase] + ([Lowercase] + ([Numbers] + ([Special] + ([NoCommonSequences] + [])))))
  {
  }

  /** The integer score spelled out check by check. */
  lemma ScoreSum(c: Checks, length: int)
    ensures Score(c, length) ==
      (if c.length then 1 else 0) + (if c.uppercase then 1 else 0) + (if c.lowercase then 1 else 0)
      + (if c.numbers then 1 else 0) + (if c.specialChars then 1 else 0)
      + (if c.noCommonSequences then 1 else 0)
      + (if length >= 12 then 1 else 0) + (if length >= 16 then 1 else 0)
  {
    RuleOrderCons();
    var t5: seq<Rule> := [NoCommonSequences] + [];
    var t4 := [Special] + t5;
    var t3 := [Numbers] + t4;
    var t2 := [Lowercase] + t3;
    var t1 := [Uppercase] + t2;
    PassedCountCons(c, NoCommonSequences, []);
    PassedCountCons(c, Special, t5);
    PassedCountCons(c, Numbers, t4);
    PassedCountCons(c, Lowercase, t3);
    PassedCountCons(c, Uppercase, t2);
    PassedCountCons(c, Length, t1);
  }

  /** `validatePassword`: total over all strings, never fails. */
  function ValidatePassword(password: string): (a: Assessment)
    ensures a.checks.length <==> Utf16Length(password) >= MinLength
    ensures a.checks.uppercase <==> HasUpper(password)
    ensures a.checks.lowercase <==> HasLower(password)
    ensures a.checks.numbers <==> HasAsciiDigit(password)
    ensures a.checks.specialChars <==> HasSpecial(password)
    ensures !a.checks.noCommonSequences <==> ContainsAny(Lower(password), FrontendSequences)
    ensures a.isValid <==> AllPassed(a.checks)
    ensures a.errors == Messages(Failed(a.checks, RuleOrder), Message)
    ensures a.warnings == []
    ensures a.strength == Bucket(Score(a.checks, Utf16Length(password)))
  {
    var length := Utf16Length(password);
    var checks := Checks(
      length >= MinLength,
      HasUpper(password),
      HasLower(password),
      HasAsciiDigit(password),
      HasSpecial(password),
      !AnyContained(Lower(password), FrontendSequences));
    var errors := PushedErrors(checks);
    PushedErrorsInRuleOrder(checks, Message);
    PushedNoneIffAllPassed(checks, Message);
    Assessment(|errors| == 0, errors, [], checks, CalculateStrength(checks, length))
  }

  /** A JavaScript length below 8 always fails the length check and the whole assessment. */
  lemma ShortIsInvalid(password: string)
    requires Utf16Length(password) < MinLength
    ensures !ValidatePassword(password).checks.length
    ensures !ValidatePassword(password).isValid
    ensures Message(Length) in ValidatePassword(password).errors
  {
  }

  /** Higher scores never give a weaker level. */
  lemma BucketMonotone(s1: int, s2: int)
    requires s1 <= s2
    ensures Rank(Bucket(s1)) <= Rank(Bucket(s2))
  {
  }

  /** Checks ordered pointwise: every check passed by `c1` is passed by `c2`. */
  predicate ChecksLe(c1: Checks, c2: Checks) {
    forall r :: Passed(c1, r) ==> Passed(c2, r)
  }

  lemma {:induction false} PassedCountMonotone(c1: Checks, c2: Checks, rules: seq<Rule>)
    requires ChecksLe(c1, c2)
    ensures PassedCount(c1, rules) <= PassedCount(c2, rules)
  {
    if |rules| > 0 {
      PassedCountMonotone(c1, c2, rules[1..]);
    }
  }

  /** Turning checks from false to true, at a fixed length, never lowers the strength. */
  lemma StrengthMonotoneInChecks(c1: Checks, c2: Checks, length: int)
    requires ChecksLe(c1, c2)
    ensures Rank(CalculateStrength(c1, length)) <= Rank(CalculateStrength(c2, length))
  {
    PassedCountMonotone(c1, c2, RuleOrder);
    BucketMonotone(Score(c1, length), Score(c2, length));
  }

  /** A longer password with the same checks is never weaker. */
  lemma StrengthMonotoneInLength(c: Checks, l1: int, l2: int)
    requires l1 <= l2
    ensures Rank(CalculateStrength(c, l1)) <= Rank(CalculateStrength(c, l2))
  {
    BucketMonotone(Score(c, l1), Score(c, l2));
  }

  lemma {:induction false} AllPassedCount(c: Checks, rules: seq<Rule>)
    requires AllPassed(c)
    ensures PassedCount(c, rules) == |rules|
  {
    if |rules| > 0 {
      AllPassedCount(c, rules[1..]);
    }
  }

  /** Every valid password is very strong: six passed checks already reach the top bucket. */
  lemma ValidIsVeryStrong(password: string)
    ensures ValidatePassword(password).isValid ==> ValidatePassword(password).strength == VeryStrong
  {
    var a := ValidatePassword(password);
    if a.isValid {
      AllPassedCount(a.checks, RuleOrder);
    }
  }

  /** `{text, color}` of a known level, the fallback, or a value inherited from `Object.prototype`. */
  datatype StrengthInfo = Info(text: string, color: string) | Inherited(property: string)

  /** Property names every plain JavaScript object inherits from `Object.prototype`. */
  const ObjectPrototypeKeys: set<string> := {
    "constructor", "hasOwnProperty", "isPrototypeOf", "propertyIsEnumerable",
    "toLocaleString", "toString", "valueOf", "__proto__",
    "__defineGetter__", "__defineSetter__", "__lookupGetter__", "__lookupSetter__"
  }

  const Fallback: StrengthInfo := Info("Неизвестно", "#6b7280")

  /**
   * `getPasswordStrengthText`: `strengthMap[strength] || fallback`. The lookup
   * also finds the (truthy) inherited members of `Object.prototype`.
   */
  function StrengthText(key: string): (r: StrengthInfo)
    ensures key == "very-weak" ==> r == Info("Очень слабый", "#dc2626")
    ensures key == "weak" ==> r == Info("Слабый", "#ea580c")
    ensures key == "medium" ==> r == Info("Средний", "#d97706")
    ensures key == "strong" ==> r == Info("Сильный", "#16a34a")
    ensures key == "very-strong" ==> r == Info("Очень сильный", "#15803d")
    ensures r.Inherited? <==> key in ObjectPrototypeKeys
    ensures r == Fallback <==> !(key in ObjectPrototypeKeys) && key !in {"very-weak", "weak", "medium", "strong", "very-strong"}
  {
    var strengthMap := map[
      "very-weak" := Info("Очень слабый", "#dc2626"),
      "weak" := Info("Слабый", "#ea580c"),
      "medium" := Info("Средний", "#d97706"),
      "strong" := Info("Сильный", "#16a34a"),
      "very-strong" := Info("Очень сильный", "#15803d")
    ];
    if key in strengthMap then strengthMap[key]
    else if key in ObjectPrototypeKeys then Inherited(key)
    else Fallback
  }

  /** Every level the validator produces has its own text, never the fallback. */
  lemma EveryLevelHasText(s: Strength)
    ensures StrengthText(Name(s)).Info?
    ensures StrengthText(Name(s)) != Fallback
  {
  }

  /** The character classes "Password1!" hits: P, a, 1 and !. */
  lemma PasswordOneClasses()
    ensures HasUpper("Password1!") && HasLower("Password1!")
    ensures HasAsciiDigit("Password1!") && HasSpecial("Password1!")
  {
    assert IsUpperClass("Password1!"[0]);
    assert IsLowerClass("Password1!"[1]);
    assert IsAsciiDigit("Password1!"[8]);
    assert "Password1!"[9] == SpecialChars[0];
  }

  /** Lower-cased, "Password1!" starts with the deny-listed "password". */
  lemma PasswordOneDenied()
    ensures ContainsAny(Lower("Password1!"), FrontendSequences)
  {
    var l := Lower("Password1!");
    assert l[0] == 'p' && l[1] == 'a' && l[2] == 's' && l[3] == 's';
    assert l[4] == 'w' && l[5] == 'o' && l[6] == 'r' && l[7] == 'd';
    assert l[..8] == "password";
    assert OccursAt(l, FrontendSequences[4], 0);
  }

  lemma PasswordOneLength()
    ensures Utf16Length("Password1!") == 10
  {
    assert AllBmp("Password1!");
  }

  /** "Password1!" passes every check except the deny-list ("password"): invalid, strong. */
  lemma PasswordOneExample()
    ensures ValidatePassword("Password1!").checks
         == Checks(true, true, true, true, true, false)
    ensures !ValidatePassword("Password1!").isValid
    ensures ValidatePassword("Password1!").strength == Strong
  {
    PasswordOneClasses();
    PasswordOneDenied();
    PasswordOneLength();
    ScoreSum(Checks(true, true, true, true, true, false), 10);
  }
}

=== FILE: register_page.dfy ===
/**
 * The registration page (frontend/src/pages/RegisterPage.js): editing the
 * form, submitting it, and turning a refusal into per-field messages. The
 * `register` action of the session context is a parameter of the submit
 * handler.
 */
module RegisterPage {
  import opened Base
  import opened Json
  import opened Text
  import AC = AuthContext
  import AS = AuthService
  import V = Views
  import S = Serializers

  /** `formData`: field name to value. */
  type Form = map<string, string>

  /** The page's state; `errors` is whatever was last passed to `setErrors`. */
  datatype PageState = PageState(form: Form, loading: bool, errors: Json)

  function Initial(): PageState {
    PageState(
      map["username" := "", "email" := "", "password" := "", "password2" := "", "first_name" := "", "last_name" := ""],
      false, Obj(map[]))
  }

  /**
   * `handleChange`: the field is set; if that field has a truthy error it is
   * replaced by the empty string, every other error left as it was.
   */
  function HandleChange(s: PageState, name: string, value: string): (r: PageState)
    ensures r.form == s.form[name := value] && r.loading == s.loading
    ensures !AC.Truthy(Field(r.errors, name))
    ensures forall k :: k != name ==> Field(r.errors, k) == Field(s.errors, k)
    ensures !AC.Truthy(Field(s.errors, name)) ==> r.errors == s.errors
  {
    var errors := if AC.Truthy(Field(s.errors, name)) then Obj(s.errors.fields[name := Str("")]) else s.errors;
    PageState(s.form[name := value], s.loading, errors)
  }

  /** `getFieldError`: `null` unless the entry is truthy; arrays joined with ", ". */
  function GetFieldError(errors: Json, name: string): (r: Option<Json>)
    ensures r.Some? <==> AC.Truthy(Field(errors, name))
    ensures r.Some? && Field(errors, name).value.Arr? ==> r.value == Str(JsJoin(Field(errors, name).value.items, ", "))
    ensures r.Some? && !Field(errors, name).value.Arr? ==> r.value == Field(errors, name).value
  {
    var e := Field(errors, name);
    if AC.Truthy(e) then Some(if e.value.Arr? then Str(JsJoin(e.value.items, ", ")) else e.value)
    else None
  }

  /** After an edit the field shows no error; the other fields keep theirs. */
  lemma EditClearsOnlyThatField(s: PageState, name: string, value: string, other: string)
    requires other != name
    ensures GetFieldError(HandleChange(s, name, value).errors, name).None?
    ensures GetFieldError(HandleChange(s, name, value).errors, other) == GetFieldError(s.errors, other)
  {
  }

  /** What a submit did: the state after and where it navigated. */
  datatype Submitted = Submitted(state: PageState, navigateTo: Option<string>)

  /**
   * `handleSubmit`: errors are cleared and `register` runs; success goes to
   * "/", an object error becomes the error map as it is, any other error is
   * put under `general`. Loading ends false.
   */
  function HandleSubmit(s: PageState, register: Form -> AC.AuthResult): (r: Submitted)
    ensures !r.state.loading && r.state.form == s.form
    ensures register(s.form).Success? <==> r.navigateTo == Some("/")
    ensures register(s.form).Success? ==> r.state.errors == Obj(map[])
    ensures register(s.form).Failure? ==>
      var error := register(s.form).error;
      (JsTruthy(error) && JsTypeofObject(error) ==> r.state.errors == error)
      && (!(JsTruthy(error) && JsTypeofObject(error)) ==> r.state.errors == Obj(map["general" := error]))
  {
    match register(s.form)
    case Success(_) => Submitted(PageState(s.form, false, Obj(map[])), Some("/"))
    case Failure(error) =>
      var errors := if JsTruthy(error) && JsTypeofObject(error) then error else Obj(map["general" := error]);
      Submitted(PageState(s.form, false, errors), None)
  }

  /** A list of strings joined by the browser reads the same as joined by the model. */
  lemma {:induction false} JoinStrList(ss: seq<string>, sep: string)
    ensures JsJoin(V.StrList(ss), sep) == Join(ss, sep)
  {
    if |ss| > 1 {
      assert V.StrList(ss)[1..] == V.StrList(ss[1..]);
      JoinStrList(ss[1..], sep);
    }
  }

  /** A refused registration reaches the browser as a 400 carrying the serializer's errors. */
  lemma RefusedReply(form: S.RegistrationForm, modelErrors: S.Errors, newId: int, issue: V.User -> V.Tokens)
    requires S.ValidateRegistration(form, modelErrors).Invalid?
    ensures AC.AsReply(V.RegisterView(form, modelErrors, newId, issue))
         == AS.HttpError(400, V.ErrorsJson(S.ValidateRegistration(form, modelErrors).errors))
  {
    var body := V.ErrorsJson(S.ValidateRegistration(form, modelErrors).errors);
    assert V.RegisterView(form, modelErrors, newId, issue) == V.JsonResponse(V.BadRequest400, body);
  }

  /**
   * End to end: when the server refuses a registration, each field it names
   * shows its messages joined with ", ", and a field it does not name shows
   * nothing.
   */
  lemma {:induction false} ServerErrorsShownPerField(
    s: PageState, e: AC.Env, form: S.RegistrationForm, modelErrors: S.Errors, newId: int,
    issue: V.User -> V.Tokens, refresh: AS.RefreshReply, replay: AS.Reply, field: string)
    requires S.ValidateRegistration(form, modelErrors).Invalid?
    ensures var errors := S.ValidateRegistration(form, modelErrors).errors;
      var reply := AC.AsReply(V.RegisterView(form, modelErrors, newId, issue));
      var page := HandleSubmit(s, f => AC.Register(e, reply, refresh, replay).result).state;
      (field in errors ==> GetFieldError(page.errors, field) == Some(Str(Join(errors[field], ", "))))
      && (field !in errors ==> GetFieldError(page.errors, field).None?)
  {
    RefusedReply(form, modelErrors, newId, issue);
    ErrorsShownPerField(s, e, S.ValidateRegistration(form, modelErrors).errors, refresh, replay, field);
  }

  /** The page's side of the lemma above, for any error map the server sends with a 400. */
  lemma {:induction false} ErrorsShownPerField(
    s: PageState, e: AC.Env, errors: S.Errors, refresh: AS.RefreshReply, replay: AS.Reply, field: string)
    ensures var reply := AS.HttpError(400, V.ErrorsJson(errors));
      var page := HandleSubmit(s, f => AC.Register(e, reply, refresh, replay).result).state;
      (field in errors ==> GetFieldError(page.errors, field) == Some(Str(Join(errors[field], ", "))))
      && (field !in errors ==> GetFieldError(page.errors, field).None?)
  {
    var body := V.ErrorsJson(errors);
    var result := AC.Register(e, AS.HttpError(400, body), refresh, replay).result;
    assert result == AC.Failure(body);
    if field in errors {
      assert Field(body, field) == Some(Arr(V.StrList(errors[field])));
      JoinStrList(errors[field], ", ");
    }
  }
}

=== FILE: routes.dfy ===
/**
 * The client's route table and its two guards (frontend/src/App.js).
 * Matching follows the router's rules for plain paths: trailing slashes are
 * ignored and ASCII letters match without regard to case.
 */
module Routes {
  import opened Base

  /** The pages the table renders. */
  datatype Page = Home | Login | Register

  /** What a route renders: the loading text, a page, or a redirect with its `state`. */
  datatype View = Loading | Render(page: Page) | Redirect(to: string, state: Option<string>)

  /** `ProtectedRoute`: the child for a signed-in user, else a redirect to /login. */
  function ProtectedRoute(isAuthenticated: bool, loading: bool, child: Page): (v: View)
    ensures loading <==> v.Loading?
    ensures v.Render? ==> v.page == child && isAuthenticated
    ensures v.Redirect? ==> v == Redirect("/login", None) && !isAuthenticated
  {
    if loading then Loading
    else if isAuthenticated then Render(child) else Redirect("/login", None)
  }

  /** `PublicRoute`: the child for a signed-out user, else a redirect home. */
  function PublicRoute(isAuthenticated: bool, loading: bool, child: Page): (v: View)
    ensures loading <==> v.Loading?
    ensures v.Render? ==> v.page == child && !isAuthenticated
    ensures v.Redirect? ==> v == Redirect("/", None) && isAuthenticated
  {
    if loading then Loading
    else if !isAuthenticated then Render(child) else Redirect("/", None)
  }

  /** The guards are complementary: once loaded, exactly one of them renders. */
  lemma GuardsComplementary(isAuthenticated: bool, child: Page)
    ensures ProtectedRoute(isAuthenticated, false, child).Render? != PublicRoute(isAuthenticated, false, child).Render?
  {
  }

  /** ASCII lower-casing, the only case folding the router's matcher does. */
  function AsciiLower(s: string): (r: string)
    ensures |r| == |s|
    ensures forall i :: 0 <= i < |s| ==> (if 'A' <= s[i] <= 'Z' then r[i] as int == s[i] as int + 32 else r[i] == s[i])
  {
    seq(|s|, i requires 0 <= i < |s| => if 'A' <= s[i] <= 'Z' then (s[i] as int + 32) as char else s[i])
  }

  /** `s` without its trailing slashes. */
  function StripSlashes(s: string): (r: string)
    ensures r <= s && (|r| == 0 || r[|r| - 1] != '/')
    ensures forall i :: |r| <= i < |s| ==> s[i] == '/'
  {
    if |s| > 0 && s[|s| - 1] == '/' then StripSlashes(s[..|s| - 1]) else s
  }

  /** A location path matches a route path: same text up to case and trailing slashes. */
  predicate Matches(route: string, path: string) {
    |path| > 0 && path[0] == '/' && AsciiLower(StripSlashes(path)) == StripSlashes(route)
  }

  /** The route table: "/", "/login" and "/register", then "*" redirecting home. */
  function Resolve(path: string, isAuthenticated: bool, loading: bool): (v: View)
    ensures Matches("/", path) ==> v == Render(Home)
    ensures Matches("/login", path) ==> v == PublicRoute(isAuthenticated, loading, Login)
    ensures Matches("/register", path) ==> v == PublicRoute(isAuthenticated, loading, Register)
    ensures !Matches("/", path) && !Matches("/login", path) && !Matches("/register", path) ==> v == Redirect("/", None)
  {
    if Matches("/", path) then Render(Home)
    else if Matches("/login", path) then PublicRoute(isAuthenticated, loading, Login)
    else if Matches("/register", path) then PublicRoute(isAuthenticated, loading, Register)
    else Redirect("/", None)
  }

  /** The three route paths match disjoint sets of locations. */
  lemma RoutesDisjoint(path: string)
    ensures !(Matches("/", path) && Matches("/login", path))
    ensures !(Matches("/", path) && Matches("/register", path))
    ensures !(Matches("/login", path) && Matches("/register", path))
  {
    assert StripSlashes("/") == "";
    assert StripSlashes("/login") == "/login";
    assert StripSlashes("/register") == "/register";
  }

  /** "/Login/" reaches the login page: case and a trailing slash do not matter. */
  lemma LoginPathVariants()
    ensures Resolve("/Login/", false, false) == Render(Login)
    ensures Resolve("/login", false, false) == Render(Login)
  {
    assert StripSlashes("/Login/") == "/Login";
    assert AsciiLower("/Login") == "/login";
    assert StripSlashes("/login") == "/login";
  }

  /**
   * No redirect loops: wherever a redirect of the table or of the protected
   * guard points, resolving that target renders or waits, and no redirect
   * the application issues carries any `state`.
   */
  lemma {:induction false} RedirectsSettle(path: string, isAuthenticated: bool, loading: bool, child: Page)
    ensures var v := Resolve(path, isAuthenticated, loading);
      v.Redirect? ==> v.state.None? && !Resolve(v.to, isAuthenticated, loading).Redirect?
    ensures var v := ProtectedRoute(isAuthenticated, loading, child);
      v.Redirect? ==> v.state.None? && !Resolve(v.to, isAuthenticated, loading).Redirect?
  {
    assert StripSlashes("/") == "";
    assert Matches("/", "/");
    assert StripSlashes("/login") == "/login";
    assert AsciiLower("/login") == "/login";
    assert Matches("/login", "/login");
  }
}

=== FILE: scraper.dfy ===
/**
 * The normalisation step of `parse_gismeteo` (backend/users/utils/scraper.py):
 * how the temperature and description strings are derived from the two
 * page elements. Fetching the page and parsing the HTML are not modelled;
 * the elements arrive as parameters.
 */
module Scraper {
  import opened Base
  import opened Text

  /** The temperature element: its text content and its `value` attribute, if any. */
  datatype TemperatureElement = TemperatureElement(text: string, value: Option<string>)

  const Unknown: string := "Н/Д"
  const NoData: string := "Нет данных"
  const Degrees: string := "°C"

  /** A `value` attribute gets a plus sign unless it starts with '-' or '0'. */
  predicate NeedsPlus(v: string) {
    !(|v| > 0 && (v[0] == '-' || v[0] == '0'))
  }

  /**
   * The temperature string: the stripped text if non-empty, else the
   * non-empty `value` attribute with the sign rule and the degree mark,
   * else "Н/Д".
   */
  function Temperature(element: Option<TemperatureElement>): (r: string)
    ensures r != ""
    ensures element.None? ==> r == Unknown
    ensures element.Some? && PyStrip(element.value.text) != "" ==> r == PyStrip(element.value.text)
    ensures (element.Some? && PyStrip(element.value.text) == ""
             && (element.value.value.None? || element.value.value.value == "")) ==> r == Unknown
    ensures (element.Some? && PyStrip(element.value.text) == ""
             && element.value.value.Some? && element.value.value.value != "")
            ==> |r| > |Degrees| && r[|r| - |Degrees|..] == Degrees
  {
    match element
    case None => Unknown
    case Some(e) =>
      var text := PyStrip(e.text);
      if text != "" then text
      else match e.value
        case Some(v) =>
          if v == "" then Unknown
          else (if NeedsPlus(v) then "+" + v else v) + Degrees
        case None => Unknown
  }

  /** Reads the attribute back out of a temperature built from it. */
  function AttributeOf(temperature: string): (v: string)
    requires |temperature| >= |Degrees|
    ensures |v| <= |temperature| - |Degrees|
  {
    var number := temperature[..|temperature| - |Degrees|];
    if |number| > 0 && number[0] == '+' then number[1..] else number
  }

  /**
   * The attribute path loses nothing: the `value` can be read back, and the
   * plus sign is there exactly when the rule asks for it.
   */
  lemma AttributeRoundTrip(text: string, v: string)
    requires PyStrip(text) == "" && v != ""
    ensures var r := Temperature(Some(TemperatureElement(text, Some(v))));
      |r| >= |Degrees| && AttributeOf(r) == v && (r[0] == '+' <==> NeedsPlus(v) || v[0] == '+')
  {
    var r := Temperature(Some(TemperatureElement(text, Some(v))));
    var prefix := if NeedsPlus(v) then "+" + v else v;
    assert r == prefix + Degrees;
    assert r[..|r| - |Degrees|] == prefix;
  }

  /** "14" gets a plus sign, "-3" and "0" do not. */
  lemma SignExamples()
    ensures Temperature(Some(TemperatureElement("", Some("14")))) == "+14°C"
    ensures Temperature(Some(TemperatureElement("", Some("-3")))) == "-3°C"
    ensures Temperature(Some(TemperatureElement("", Some("0")))) == "0°C"
  {
    assert PyStrip("") == "";
  }

  /** The description: the stripped text of its element, or "Нет данных". */
  function Description(element: Option<string>): (r: string)
    ensures element.None? ==> r == NoData
    ensures element.Some? ==> |r| <= |element.value|
    ensures element.Some? && |r| > 0 ==> !IsPySpace(r[0]) && !IsPySpace(r[|r| - 1])
    ensures element.Some? && r == "" ==> forall i :: 0 <= i < |element.value| ==> IsPySpace(element.value[i])
    ensures element.Some? ==> exists a, b ::
      && 0 <= a <= b <= |element.value| && r == element.value[a..b]
      && (forall i :: 0 <= i < a ==> IsPySpace(element.value[i]))
      && (forall i :: b <= i < |element.value| ==> IsPySpace(element.value[i]))
  {
    match element
    case None => NoData
    case Some(text) => PyStrip(text)
  }
}

=== FILE: serializers.dfy ===
/**
 * The request serializers of backend/users/serializers.py: registration,
 * login and file upload. Django REST framework runs the field checks first
 * (a `CharField` is required, must not be `null`, takes strings and numbers
 * only, is stripped with `str.strip` and must not be blank afterwards;
 * `validate_<field>` runs on the stripped value) and the
 * object-level `validate` only when every field passed. Field checks the
 * model layer adds (username and e-mail presence, blankness, uniqueness and
 * format) are not modelled and come in as a map of messages per field.
 */
module Serializers {
  import opened Base
  import opened Text
  import J = Json
  import SV = StrengthValidator

  /** Messages per field, as in `serializer.errors`. */
  type Errors = map<string, seq<string>>

  /** `is_valid()` followed by `validated_data`, or `errors`. */
  datatype Validation<T> = Valid(data: T) | Invalid(errors: Errors)

  /** Default messages of the framework's `CharField`. */
  const RequiredMessage: string := "This field is required."
  const BlankMessage: string := "This field may not be blank."
  const NullMessage: string := "Null characters are not allowed."
  const NotNullMessage: string := "This field may not be null."
  const NotStringMessage: string := "Not a valid string."

  /**
   * The text `CharField.to_internal_value` makes of a present value, before
   * stripping: a string as it is, an integer as `str(n)` renders it. `null`,
   * booleans, arrays and objects have none.
   */
  function FieldText(raw: Option<J.Json>): Option<string> {
    if raw.Some? && raw.value.Str? then Some(raw.value.s)
    else if raw.Some? && raw.value.Int? then Some(IntToDecimal(raw.value.n))
    else None
  }

  /**
   * A `CharField(required=True)`: missing is an error, so is `null`, and so is
   * a value that is neither a string nor a number; the text is stripped, and
   * it is an error when empty after stripping or when it holds a NUL
   * character (the validator every `CharField` carries).
   */
  function CharField(raw: Option<J.Json>): (r: Result<string>)
    ensures r.Ok? <==> FieldText(raw).Some? && PyStrip(FieldText(raw).value) != ""
                       && '\0' !in PyStrip(FieldText(raw).value)
    ensures r.Ok? ==> r.value == PyStrip(FieldText(raw).value)
    ensures raw.None? ==> r == Err(RequiredMessage)
    ensures raw == Some(J.Null) ==> r == Err(NotNullMessage)
    ensures raw.Some? && (raw.value.Bool? || raw.value.Arr? || raw.value.Obj?) ==> r == Err(NotStringMessage)
    ensures raw.Some? && raw.value.Int? ==> r == Ok(IntToDecimal(raw.value.n))
    ensures FieldText(raw).Some? && PyStrip(FieldText(raw).value) == "" ==> r == Err(BlankMessage)
    ensures FieldText(raw).Some? && PyStrip(FieldText(raw).value) != "" && '\0' in PyStrip(FieldText(raw).value)
            ==> r == Err(NullMessage)
  {
    match raw
    case None => Err(RequiredMessage)
    case Some(j) =>
      if j.Null? then Err(NotNullMessage)
      else if FieldText(raw).None? then Err(NotStringMessage)
      else
        var t := PyStrip(FieldText(raw).value);
        if j.Int? then
          assert t == IntToDecimal(j.n) by { PyStripUnspaced(IntToDecimal(j.n)); }
          Ok(t)
        else if t == "" then Err(BlankMessage)
        else if '\0' in t then Err(NullMessage)
        else Ok(t)
  }

  datatype Result<T> = Ok(value: T) | Err(message: string)

  /** A field check whose validators may each add a message. */
  datatype Checked<T> = Cleaned(value: T) | Refused(messages: seq<string>)

  /** Stripping never removes a NUL, so a value holding one is refused whatever surrounds it. */
  lemma {:induction false} NullSurvivesStrip(s: string)
    requires '\0' in s
    ensures PyStrip(s) != "" && '\0' in PyStrip(s)
  {
    var k :| 0 <= k < |s| && s[k] == '\0';
    assert !IsPySpace(s[k]);
    var a, b :| 0 <= a <= b <= |s| && PyStrip(s) == s[a..b]
      && (forall i :: 0 <= i < a ==> IsPySpace(s[i])) && (forall i :: b <= i < |s| ==> IsPySpace(s[i]));
    assert a <= k < b;
    assert PyStrip(s)[k - a] == '\0';
  }

  /**
   * Any value holding a NUL is refused with the null-character message, and
   * a password holding one never reaches the strength validator.
   */
  lemma NullCharacterRefused(s: string)
    requires '\0' in s
    ensures CharField(Some(J.Str(s))) == Err(NullMessage)
    ensures PasswordFieldErrors(Some(J.Str(s))) == [NullMessage]
  {
    NullSurvivesStrip(s);
  }

  // ---------------------------------------------------------------- registration

  /** The registration payload; the optional names are absent or present. */
  datatype RegistrationForm = RegistrationForm(
    username: string,
    email: string,
    password: Option<J.Json>,
    password2: Option<J.Json>,
    firstName: Option<string>,
    lastName: Option<string>)

  /**
   * A `CharField(required=False, allow_blank=True)`, as the model's
   * `first_name` and `last_name` become: absent stays absent, a present
   * value is stripped and may end up empty.
   */
  function OptionalText(raw: Option<string>): (r: Option<string>)
    ensures r.None? <==> raw.None?
    ensures r.Some? ==> r.value == PyStrip(raw.value) && |r.value| <= |raw.value|
  {
    match raw
    case None => None
    case Some(s) => Some(PyStrip(s))
  }

  /** Validated registration data, every text field already stripped. */
  datatype Registration = Registration(
    username: string,
    email: string,
    password: string,
    password2: string,
    firstName: Option<string>,
    lastName: Option<string>)

  const MismatchMessage: string := "Пароли не совпадают."

  /**
   * The messages the password field collects: the `CharField` check, then
   * `validate_password`, which re-raises the strength validator's list.
   */
  function PasswordFieldErrors(raw: Option<J.Json>): (e: seq<string>)
    ensures |e| == 0 <==> CharField(raw).Ok? && SV.Validate(CharField(raw).value) == SV.Accepted
  {
    match CharField(raw)
    case Err(m) => [m]
    case Ok(p) =>
      match SV.Validate(p)
      case Accepted => []
      case Rejected(errors) => errors
  }

  /**
   * Field-level errors of the registration form: the model's, then the two
   * password fields. Both are declared on the serializer itself, so the
   * model contributes nothing under their names.
   */
  function RegistrationFieldErrors(form: RegistrationForm, modelErrors: Errors): (e: Errors)
    ensures forall k :: k in modelErrors && k != "password" && k != "password2" ==> k in e && e[k] == modelErrors[k]
    ensures e.Keys <= modelErrors.Keys + {"password", "password2"}
    ensures "password" in e <==> |PasswordFieldErrors(form.password)| > 0
    ensures "password" in e ==> e["password"] == PasswordFieldErrors(form.password)
    ensures "password2" in e <==> CharField(form.password2).Err?
    ensures "password2" in e ==> e["password2"] == [CharField(form.password2).message]
  {
    var base := modelErrors - {"password", "password2"};
    var e1 := if |PasswordFieldErrors(form.password)| > 0
              then base["password" := PasswordFieldErrors(form.password)] else base;
    match CharField(form.password2)
    case Err(m) => e1["password2" := [m]]
    case Ok(_) => e1
  }

  /**
   * `UserRegistrationSerializer.is_valid()`: field errors if any; otherwise
   * the object-level `validate`, which refuses differing passwords with a
   * message keyed on `password`, and returns the data unchanged.
   */
  function ValidateRegistration(form: RegistrationForm, modelErrors: Errors): (r: Validation<Registration>)
    ensures r.Valid? <==>
      (RegistrationFieldErrors(form, modelErrors) == map[]
       && CharField(form.password) == CharField(form.password2))
    ensures r.Valid? ==>
      (r.data.password == r.data.password2
       && SV.Validate(r.data.password) == SV.Accepted
       && FieldText(form.password).Some? && r.data.password == PyStrip(FieldText(form.password).value)
       && r.data.username == PyStrip(form.username) && r.data.email == PyStrip(form.email)
       && (form.firstName.None? ==> r.data.firstName.None?)
       && (form.firstName.Some? ==> r.data.firstName == Some(PyStrip(form.firstName.value)))
       && (form.lastName.None? ==> r.data.lastName.None?)
       && (form.lastName.Some? ==> r.data.lastName == Some(PyStrip(form.lastName.value))))
    ensures r.Invalid? ==> |r.errors| > 0
  {
    var fieldErrors := RegistrationFieldErrors(form, modelErrors);
    if fieldErrors != map[] then Invalid(fieldErrors)
    else
      assert FieldText(form.password).Some? && |PasswordFieldErrors(form.password)| == 0;
      assert CharField(form.password2).Ok?;
      var p := CharField(form.password).value;
      var p2 := CharField(form.password2).value;
      if p != p2 then Invalid(map["password" := [MismatchMessage]])
      else Valid(Registration(PyStrip(form.username), PyStrip(form.email), p, p2,
                              OptionalText(form.firstName), OptionalText(form.lastName)))
  }

  /**
   * Any password the strength validator refuses makes registration fail on
   * the `password` field, with the validator's messages, or with the
   * null-character message alone when the password holds a NUL.
   */
  lemma WeakPasswordFailsRegistration(form: RegistrationForm, modelErrors: Errors)
    requires FieldText(form.password).Some? && PyStrip(FieldText(form.password).value) != ""
    requires SV.Validate(PyStrip(FieldText(form.password).value)).Rejected?
    ensures ValidateRegistration(form, modelErrors).Invalid?
    ensures "password" in ValidateRegistration(form, modelErrors).errors
    ensures '\0' !in PyStrip(FieldText(form.password).value) ==>
      ValidateRegistration(form, modelErrors).errors["password"]
      == SV.Validate(PyStrip(FieldText(form.password).value)).errors
    ensures '\0' in PyStrip(FieldText(form.password).value) ==>
      ValidateRegistration(form, modelErrors).errors["password"] == [NullMessage]
  {
    var t := PyStrip(FieldText(form.password).value);
    var e := PasswordFieldErrors(form.password);
    if '\0' in t {
      assert CharField(form.password) == Err(NullMessage);
      assert e == [NullMessage];
    } else {
      assert CharField(form.password) == Ok(t);
      assert e == SV.Validate(t).errors;
    }
    var r := ValidateRegistration(form, modelErrors);
    assert r == Invalid(RegistrationFieldErrors(form, modelErrors));
    assert r.errors["password"] == e;
  }

  /** Two strong, different passwords and a clean form give exactly the mismatch error. */
  lemma MismatchIsTheOnlyError(form: RegistrationForm)
    requires RegistrationFieldErrors(form, map[]) == map[]
    requires CharField(form.password) != CharField(form.password2)
    ensures ValidateRegistration(form, map[]) == Invalid(map["password" := [MismatchMessage]])
  {
  }

  /** Validated data as the `create` step receives it: a dictionary of text fields. */
  function AsValidatedData(r: Registration): (d: map<string, string>)
    ensures "password" in d && d["password"] == r.password
    ensures "password2" in d && d["password2"] == r.password2
    ensures "username" in d && "email" in d
  {
    var base := map["username" := r.username, "email" := r.email, "password" := r.password, "password2" := r.password2];
    var withFirst := if r.firstName.Some? then base["first_name" := r.firstName.value] else base;
    if r.lastName.Some? then withFirst["last_name" := r.lastName.value] else withFirst
  }

  /** A user row as created: its model fields and the stored password hash. */
  datatype NewUser = NewUser(fields: map<string, string>, passwordHash: string)

  /**
   * `create`: removes `password2` and `password` (a missing key is a
   * `KeyError`, `None` here), builds the user from the remaining fields and
   * sets the password through the hasher only.
   */
  function Create(data: map<string, string>, hash: string -> string): (u: Option<NewUser>)
    ensures u.Some? <==> "password" in data && "password2" in data
    ensures u.Some? ==> "password" !in u.value.fields && "password2" !in u.value.fields
    ensures u.Some? ==> forall k :: k in data && k != "password" && k != "password2"
                          ==> k in u.value.fields && u.value.fields[k] == data[k]
    ensures u.Some? ==> forall k :: k in u.value.fields ==> k in data
    ensures u.Some? ==> u.value.passwordHash == hash(data["password"])
  {
    if "password2" !in data then None
    else
      var rest := data - {"password2"};
      if "password" !in rest then None
      else
        var password := rest["password"];
        Some(NewUser(rest - {"password"}, hash(password)))
  }

  /** The plain password never reaches the model fields: only its hash is stored. */
  lemma CreateKeepsNoPlainPassword(r: Registration, hash: string -> string)
    ensures Create(AsValidatedData(r), hash).Some?
    ensures Create(AsValidatedData(r), hash).value.passwordHash == hash(r.password)
    ensures Create(AsValidatedData(r), hash).value.fields["username"] == r.username
  {
  }

  // ---------------------------------------------------------------- login

  datatype Credentials = Credentials(username: string, password: string)

  const LoginMissingMessage: string := "Необходимо указать имя пользователя и пароль."
  const NoDataMessage: string := "No data provided"

  /** Python's `type(data).__name__` for a parsed JSON value. */
  function PyTypeName(j: J.Json): string {
    match j
    case Null => "NoneType"
    case Bool(_) => "bool"
    case Int(_) => "int"
    case Str(_) => "str"
    case Arr(_) => "list"
    case Obj(_) => "dict"
  }

  /** The framework's refusal of a request body that is not a JSON object. */
  function NotDictMessage(j: J.Json): string {
    "Invalid data. Expected a dictionary, but got " + PyTypeName(j) + "."
  }

  /**
   * `UserLoginSerializer.validate`, on the attributes as given: both values
   * truthy returns them unchanged, anything else raises.
   */
  function ValidateLoginAttrs(attrs: map<string, string>): (r: Result<map<string, string>>)
    ensures r.Ok? <==> "username" in attrs && attrs["username"] != "" && "password" in attrs && attrs["password"] != ""
    ensures r.Ok? ==> r.value == attrs
    ensures r.Err? ==> r.message == LoginMissingMessage
  {
    var username := Lookup(attrs, "username");
    var password := Lookup(attrs, "password");
    if username.GetOr("") != "" && password.GetOr("") != "" then Ok(attrs)
    else Err(LoginMissingMessage)
  }

  /**
   * Login `is_valid()` on the parsed request body. A `null` body is refused
   * as "no data" and any other non-object under `non_field_errors`, naming
   * its Python type; for an object, the two `CharField` checks on its
   * `username` and `password` members (others are ignored), then `validate`.
   */
  function ValidateLogin(body: J.Json): (r: Validation<Credentials>)
    ensures body.Null? ==> r == Invalid(map["non_field_errors" := [NoDataMessage]])
    ensures !body.Null? && !body.Obj? ==> r == Invalid(map["non_field_errors" := [NotDictMessage(body)]])
    ensures r.Valid? <==>
      body.Obj? && CharField(J.Field(body, "username")).Ok? && CharField(J.Field(body, "password")).Ok?
    ensures r.Valid? ==>
      r.data == Credentials(PyStrip(FieldText(J.Field(body, "username")).value),
                            PyStrip(FieldText(J.Field(body, "password")).value))
    ensures r.Invalid? ==> |r.errors| > 0 && r.errors.Keys <= {"username", "password", "non_field_errors"}
    ensures body.Obj? && r.Invalid? ==> r.errors.Keys <= {"username", "password"}
    ensures body.Obj? && r.Invalid? ==> ("username" in r.errors <==> CharField(J.Field(body, "username")).Err?)
    ensures body.Obj? && r.Invalid? ==> ("password" in r.errors <==> CharField(J.Field(body, "password")).Err?)
    ensures r.Invalid? && "username" in r.errors ==>
      r.errors["username"] == [CharField(J.Field(body, "username")).message]
    ensures r.Invalid? && "password" in r.errors ==>
      r.errors["password"] == [CharField(J.Field(body, "password")).message]
  {
    if body.Null? then Invalid(map["non_field_errors" := [NoDataMessage]])
    else if !body.Obj? then Invalid(map["non_field_errors" := [NotDictMessage(body)]])
    else
      var u := CharField(J.Field(body, "username"));
      var p := CharField(J.Field(body, "password"));
      var e1: Errors := if u.Err? then map["username" := [u.message]] else map[];
      var e2 := if p.Err? then e1["password" := [p.message]] else e1;
      if e2 != map[] then Invalid(e2)
      else
        var attrs := map["username" := u.value, "password" := p.value];
        match ValidateLoginAttrs(attrs)
        case Ok(_) => Valid(Credentials(u.value, p.value))
        case Err(m) => Invalid(map["non_field_errors" := [m]])
  }

  /**
   * After the field checks both values are non-blank, so the object-level
   * refusal of `validate` never fires through `is_valid()`.
   */
  lemma LoginValidateNeverRefusesAfterFields(body: J.Json)
    requires CharField(J.Field(body, "username")).Ok? && CharField(J.Field(body, "password")).Ok?
    ensures ValidateLoginAttrs(map["username" := CharField(J.Field(body, "username")).value,
                                   "password" := CharField(J.Field(body, "password")).value]).Ok?
  {
  }

  /** A number where the username belongs is accepted as its decimal text. */
  lemma NumberUsernameAccepted(n: int)
    ensures ValidateLogin(J.Obj(map["username" := J.Int(n), "password" := J.Str("pw")]))
         == Valid(Credentials(IntToDecimal(n), "pw"))
  {
    var body := J.Obj(map["username" := J.Int(n), "password" := J.Str("pw")]);
    assert J.Field(body, "username") == Some(J.Int(n));
    assert J.Field(body, "password") == Some(J.Str("pw"));
    PyStripUnspaced("pw");
  }

  /** `null` and values that are not text are refused field by field. */
  lemma NullAndNonTextRefused(v: J.Json)
    requires v.Bool? || v.Arr? || v.Obj?
    ensures ValidateLogin(J.Obj(map["username" := J.Null, "password" := v]))
         == Invalid(map["username" := [NotNullMessage], "password" := [NotStringMessage]])
  {
    var body := J.Obj(map["username" := J.Null, "password" := v]);
    assert J.Field(body, "username") == Some(J.Null);
    assert J.Field(body, "password") == Some(v);
  }

  /** A JSON array as the whole body is refused under `non_field_errors`. */
  lemma ListBodyRefused(items: seq<J.Json>)
    ensures ValidateLogin(J.Arr(items))
         == Invalid(map["non_field_errors" := ["Invalid data. Expected a dictionary, but got list."]])
  {
    var m := NotDictMessage(J.Arr(items));
    assert m == "Invalid data. Expected a dictionary, but got " + "list" + ".";
    assert m == "Invalid data. Expected a dictionary, but got list.";
    assert ValidateLogin(J.Arr(items)) == Invalid(map["non_field_errors" := [m]]);
  }

  // ---------------------------------------------------------------- file upload

  /** The part of an uploaded file the validation looks at, and its name. */
  datatype UploadedFile = UploadedFile(name: string, size: nat, contentType: string)

  const AllowedTypes: seq<string> := ["image/jpeg", "image/png", "image/gif", "audio/mpeg", "audio/wav"]

  /** 10 MiB. */
  const MaxSize: nat := 10 * 1024 * 1024

  const TypeMessage: string := "Неподдерживаемый тип файла. Разрешены: изображения (JPEG, PNG, GIF) и аудио (MP3, WAV)."
  const SizeMessage: string := "Файл слишком большой. Максимальный размер: 10MB."

  /** `validate_file`: the content type first, then the size. */
  function ValidateFile(f: UploadedFile): (r: Result<UploadedFile>)
    ensures r.Ok? <==> f.contentType in AllowedTypes && f.size <= MaxSize
    ensures r.Ok? ==> r.value == f
    ensures f.contentType !in AllowedTypes ==> r == Err(TypeMessage)
    ensures f.contentType in AllowedTypes && f.size > MaxSize ==> r == Err(SizeMessage)
  {
    if f.contentType !in AllowedTypes then Err(TypeMessage)
    else if f.size > MaxSize then Err(SizeMessage)
    else Ok(f)
  }

  /** Exactly 10485760 bytes passes; one byte more fails. */
  lemma SizeBoundary(name: string)
    ensures ValidateFile(UploadedFile(name, 10485760, "image/png")).Ok?
    ensures ValidateFile(UploadedFile(name, 10485761, "image/png")) == Err(SizeMessage)
  {
  }

  /** Unmentioned types are refused whatever the size: "image/webp" and "audio/ogg". */
  lemma OtherTypesRefused(size: nat)
    ensures ValidateFile(UploadedFile("a.webp", size, "image/webp")) == Err(TypeMessage)
    ensures ValidateFile(UploadedFile("a.ogg", size, "audio/ogg")) == Err(TypeMessage)
  {
  }

  const DescriptionMaxLength: nat := 255
  const TooLongMessage: string := "Ensure this field has no more than 255 characters."

  /**
   * The optional `description` field as a multipart body delivers it: absent,
   * or sent as the empty string, it is left out; any other value is stripped
   * and must not be blank; then the length and NUL validators each add their
   * message, in that order.
   */
  function ValidateDescription(raw: Option<string>): (r: Checked<Option<string>>)
    ensures raw.None? || raw == Some("") ==> r == Cleaned(None)
    ensures raw.Some? && raw.value != "" ==>
      (r.Cleaned? <==> PyStrip(raw.value) != "" && |PyStrip(raw.value)| <= DescriptionMaxLength
                       && '\0' !in PyStrip(raw.value))
    ensures raw.Some? && raw.value != "" && PyStrip(raw.value) == "" ==> r == Refused([BlankMessage])
    ensures raw.Some? && PyStrip(raw.value) != "" && r.Refused? ==>
      && (TooLongMessage in r.messages <==> |PyStrip(raw.value)| > DescriptionMaxLength)
      && (NullMessage in r.messages <==> '\0' in PyStrip(raw.value))
      && (r.messages == [TooLongMessage] || r.messages == [NullMessage] || r.messages == [TooLongMessage, NullMessage])
    ensures r.Refused? ==> |r.messages| > 0
    ensures r.Cleaned? && r.value.Some? ==> raw.Some? && r.value.value == PyStrip(raw.value)
    ensures r.Cleaned? && r.value.Some? ==> 0 < |r.value.value| <= DescriptionMaxLength
  {
    match raw
    case None => Cleaned(None)
    case Some(s) =>
      var t := PyStrip(s);
      if s == "" then Cleaned(None)
      else if t == "" then Refused([BlankMessage])
      else
        var messages := (if |t| > DescriptionMaxLength then [TooLongMessage] else [])
                        + (if '\0' in t then [NullMessage] else []);
        if messages == [] then Cleaned(Some(t)) else Refused(messages)
  }

  datatype UploadForm = UploadForm(file: Option<UploadedFile>, description: Option<string>)

  datatype Upload = Upload(file: UploadedFile, description: Option<string>)

  const NoFileMessage: string := "No file was submitted."
  const EmptyFileMessage: string := "The submitted file is empty."

  /**
   * The `file` field: missing is an error, so is an empty file (the
   * framework's own check, before `validate_file`); then `validate_file`.
   */
  function FileFieldErrors(file: Option<UploadedFile>): (e: seq<string>)
    ensures |e| <= 1
    ensures e == [] <==> file.Some? && file.value.size > 0 && ValidateFile(file.value).Ok?
    ensures file.None? ==> e == [NoFileMessage]
    ensures file.Some? && file.value.size == 0 ==> e == [EmptyFileMessage]
    ensures file.Some? && file.value.size > 0 && ValidateFile(file.value).Err? ==> e == [ValidateFile(file.value).message]
  {
    match file
    case None => [NoFileMessage]
    case Some(f) =>
      if f.size == 0 then [EmptyFileMessage]
      else match ValidateFile(f)
        case Err(m) => [m]
        case Ok(_) => []
  }

  /** `FileUploadSerializer.is_valid()`: errors of both fields, collected. */
  function ValidateUpload(form: UploadForm): (r: Validation<Upload>)
    ensures r.Valid? <==>
      form.file.Some? && form.file.value.size > 0 && ValidateFile(form.file.value).Ok?
      && ValidateDescription(form.description).Cleaned?
    ensures r.Valid? ==> r.data.file == form.file.value && r.data.description == ValidateDescription(form.description).value
    ensures r.Invalid? ==> |r.errors| > 0 && r.errors.Keys <= {"file", "description"}
    ensures r.Invalid? ==> ("file" in r.errors <==> FileFieldErrors(form.file) != [])
    ensures r.Invalid? && "file" in r.errors ==> r.errors["file"] == FileFieldErrors(form.file)
    ensures r.Invalid? ==> ("description" in r.errors <==> ValidateDescription(form.description).Refused?)
    ensures r.Invalid? && "description" in r.errors ==>
      r.errors["description"] == ValidateDescription(form.description).messages
  {
    var fileError: Errors := if FileFieldErrors(form.file) == [] then map[] else map["file" := FileFieldErrors(form.file)];
    var errors := match ValidateDescription(form.description)
      case Refused(messages) => fileError["description" := messages]
      case Cleaned(_) => fileError;
    if errors != map[] then Invalid(errors)
    else Valid(Upload(form.file.value, ValidateDescription(form.description).value))
  }

  /** An empty file of an allowed type is refused by the framework before `validate_file` runs. */
  lemma EmptyFileRefused(name: string)
    ensures ValidateUpload(UploadForm(Some(UploadedFile(name, 0, "image/png")), None))
         == Invalid(map["file" := [EmptyFileMessage]])
  {
  }

  /** A description sent as the empty string is the same as none. */
  lemma EmptyDescriptionIsAbsent(file: Option<UploadedFile>)
    ensures ValidateUpload(UploadForm(file, Some(""))) == ValidateUpload(UploadForm(file, None))
  {
  }
}

=== FILE: strength_validator.dfy ===
/**
 * The server-side `PasswordStrengthValidator.validate` of
 * backend/users/validators.py. Lengths are Python lengths (code points), the
 * digit class is Unicode-aware, the deny-list has eleven entries and only the
 * first entry found is reported.
 */
module StrengthValidator {
  import opened Base
  import opened Text
  import opened PasswordRules
  import PV = PasswordValidator

  /** `validate` either returns normally or raises `ValidationError(errors)`. */
  datatype Verdict = Accepted | Rejected(errors: seq<string>)

  const SequencePrefix: string := "Пароль содержит простую последовательность символов: "

  /** The message for a failed rule; the sequence message names the entry found. */
  function BackendMessage(r: PV.Rule, found: string): string {
    match r
    case Length => "Пароль должен содержать минимум 8 символов."
    case Uppercase => "Пароль должен содержать хотя бы одну заглавную букву."
    case Lowercase => "Пароль должен содержать хотя бы одну строчную букву."
    case Numbers => "Пароль должен содержать хотя бы одну цифру."
    case Special => "Пароль должен содержать хотя бы один специальный символ."
    case NoCommonSequences => SequencePrefix + found
  }

  /** The server's message for each rule, once the first deny-listed entry `found` is known. */
  function MessageFor(found: string): PV.Rule -> string {
    r => BackendMessage(r, found)
  }

  /** The six rules as the server evaluates them. */
  function BackendChecks(password: string): PV.Checks {
    PV.Checks(
      |password| >= MinLength,
      HasUpper(password),
      HasLower(password),
      HasPyDecimal(password),
      HasSpecial(password),
      !ContainsAny(Lower(password), BackendSequences))
  }

  /**
   * The `for sequence in self.common_sequences: ... break` loop: the first
   * entry of `list`, in list order, that occurs in `s`.
   */
  function FirstListed(s: string, list: seq<string>): (r: Option<string>)
    ensures r.None? <==> !ContainsAny(s, list)
    ensures r.Some? ==> exists k :: 0 <= k < |list| && list[k] == r.value && Contains(s, list[k])
                                   && forall j :: 0 <= j < k ==> !Contains(s, list[j])
  {
    if |list| == 0 then None
    else if Contains(s, list[0]) then Some(list[0])
    else
      var r := FirstListed(s, list[1..]);
      assert ContainsAny(s, list) ==> ContainsAny(s, list[1..]) by {
        if ContainsAny(s, list) {
          var k :| 0 <= k < |list| && Contains(s, list[k]);
          assert k > 0 && Contains(s, list[1..][k - 1]);
        }
      }
      assert ContainsAny(s, list[1..]) ==> ContainsAny(s, list) by {
        if ContainsAny(s, list[1..]) {
          var k :| 0 <= k < |list[1..]| && Contains(s, list[1..][k]);
          assert Contains(s, list[k + 1]);
        }
      }
      if r.Some? then
        var k :| 0 <= k < |list[1..]| && list[1..][k] == r.value && Contains(s, list[1..][k])
                 && forall j :: 0 <= j < k ==> !Contains(s, list[1..][j]);
        assert list[k + 1] == r.value && Contains(s, list[k + 1]);
        assert forall j :: 0 <= j < k + 1 ==> !Contains(s, list[j]) by {
          forall j | 0 <= j < k + 1 ensures !Contains(s, list[j]) {
            if j > 0 {
              assert list[j] == list[1..][j - 1];
            }
          }
        }
        r
      else r
  }

  /**
   * `validate`: the five class checks and the deny-list loop, each failing
   * rule appending its message in turn; raises exactly when some rule fails.
   */
  function Validate(password: string): (v: Verdict)
    ensures v.Rejected? <==> !PV.AllPassed(BackendChecks(password))
    ensures v.Rejected? ==> |v.errors| > 0
    ensures v.Rejected? ==> v.errors == PV.Messages(PV.Failed(BackendChecks(password), PV.RuleOrder),
                                                    MessageFor(FirstListed(Lower(password), BackendSequences).GetOr("")))
  {
    var found := FirstListed(Lower(password), BackendSequences);
    var checks := PV.Checks(
      |password| >= 8,
      HasUpper(password),
      HasLower(password),
      HasPyDecimal(password),
      HasSpecial(password),
      found.None?);
    var msg := MessageFor(found.GetOr(""));
    var errors := PV.PushAll(checks, PV.RuleOrder, [], msg);
    PV.PushedErrorsInRuleOrder(checks, msg);
    PV.PushedNoneIffAllPassed(checks, msg);
    if |errors| > 0 then Rejected(errors) else Accepted
  }

  /** A password shorter than eight code points is rejected, the length message first. */
  lemma ShortGetsLengthError(password: string)
    requires |password| < MinLength
    ensures Validate(password).Rejected?
    ensures Validate(password).errors[0] == BackendMessage(PV.Length, "")
  {
    var c := BackendChecks(password);
    assert PV.Failed(c, PV.RuleOrder) == [PV.Length] + PV.Failed(c, PV.RuleOrder[1..]);
  }

  /** The five messages that do not depend on the password. */
  const FixedMessages: set<string> := {
    BackendMessage(PV.Length, ""), BackendMessage(PV.Uppercase, ""), BackendMessage(PV.Lowercase, ""),
    BackendMessage(PV.Numbers, ""), BackendMessage(PV.Special, "")
  }

  lemma FixedMessage(r: PV.Rule, found: string)
    requires r != PV.NoCommonSequences
    ensures BackendMessage(r, found) in FixedMessages
  {
  }

  /** Over any checks: messages before the last are fixed ones; a failed deny-list check supplies the last. */
  lemma FixedBeforeLast(c: PV.Checks, found: string)
    ensures var e := PV.Messages(PV.Failed(c, PV.RuleOrder), MessageFor(found));
      forall i :: 0 <= i < |e| - 1 ==> e[i] in FixedMessages
    ensures var e := PV.Messages(PV.Failed(c, PV.RuleOrder), MessageFor(found));
      !c.noCommonSequences ==> (|e| > 0 && e[|e| - 1] == SequencePrefix + found)
  {
    var f := PV.Failed(c, PV.RuleOrder);
    var e := PV.Messages(f, MessageFor(found));
    PV.SequenceRuleLast(c);
    assert |e| == |f|;
    forall i | 0 <= i < |e| - 1
      ensures e[i] in FixedMessages
    {
      PV.SequenceRuleNotBefore(c, i);
      FixedMessage(f[i], found);
    }
  }

  /**
   * The deny-list contributes at most one message, always the last one, and
   * it names the first listed entry the lower-cased password contains.
   */
  lemma SequenceMessageIsLast(password: string)
    ensures var v := Validate(password);
      v.Rejected? ==> forall i :: 0 <= i < |v.errors| - 1 ==> v.errors[i] in FixedMessages
    ensures var v := Validate(password);
      ContainsAny(Lower(password), BackendSequences) ==>
        (v.Rejected? && v.errors[|v.errors| - 1]
          == SequencePrefix + FirstListed(Lower(password), BackendSequences).value)
  {
    var c := BackendChecks(password);
    var v := Validate(password);
    var found := FirstListed(Lower(password), BackendSequences).GetOr("");
    FixedBeforeLast(c, found);
    if v.Rejected? {
      assert v.errors == PV.Messages(PV.Failed(c, PV.RuleOrder), MessageFor(found));
    }
    if ContainsAny(Lower(password), BackendSequences) {
      assert !PV.Passed(c, PV.NoCommonSequences);
      assert v.Rejected?;
    }
  }

  /** `Lower` on a literal, checked character by character. */
  lemma LowerIs(s: string, t: string)
    requires |s| == |t|
    requires forall i :: 0 <= i < |s| ==> LowerChar(s[i]) == t[i]
    ensures Lower(s) == t
  {
  }

  /** The four character classes of "StrongPass123!": S, t, 1 and !. */
  lemma StrongPassClasses()
    ensures HasUpper("StrongPass123!") && HasLower("StrongPass123!")
    ensures HasPyDecimal("StrongPass123!") && HasSpecial("StrongPass123!")
  {
    var p := "StrongPass123!";
    assert IsUpperClass(p[0]) && IsLowerClass(p[1]) && p[13] == SpecialChars[0];
    AsciiDigitIsPyDecimal(p[10]);
    assert IsPyDecimal(p[10]);
  }

  /** Letters "strongpass123!" lacks. */
  lemma StrongPassLacks()
    ensures 'q' !in "strongpass123!" && 'f' !in "strongpass123!" && 'z' !in "strongpass123!"
    ensures '4' !in "strongpass123!" && 'w' !in "strongpass123!" && 'd' !in "strongpass123!"
    ensures 'i' !in "strongpass123!"
  {
  }

  /** One letter of each deny-list entry. */
  lemma BackendEntryLetters()
    ensures var b := BackendSequences;
      b[0][0] == 'q' && b[1][3] == 'f' && b[2][0] == 'z' && b[3][3] == '4' && b[4][4] == 'w' && b[5][1] == 'd'
    ensures var b := BackendSequences;
      b[6][3] == '4' && b[7][0] == 'q' && b[8][1] == 'q' && b[9][0] == 'q' && b[10][0] == 'i'
  {
  }

  /** "strongpass123!" contains no entry of the server's deny-list: each misses a letter of it. */
  lemma StrongPassNotListed()
    ensures !ContainsAny("strongpass123!", BackendSequences)
  {
    StrongPassLacks();
    BackendEntryLetters();
    NoneContained("strongpass123!", BackendSequences);
  }

  /** "StrongPass123!" passes every rule of the server (the accepted password of the test suite). */
  lemma StrongPassAccepted()
    ensures Validate("StrongPass123!") == Accepted
  {
    LowerIs("StrongPass123!", "strongpass123!");
    StrongPassClasses();
    StrongPassNotListed();
    assert PV.AllPassed(BackendChecks("StrongPass123!"));
  }

  /** "Short1!" has seven characters and is rejected. */
  lemma ShortOneRejected()
    ensures Validate("Short1!").Rejected?
    ensures Validate("Short1!").errors[0] == "Пароль должен содержать минимум 8 символов."
  {
    ShortGetsLengthError("Short1!");
  }

  /** "nopassword123!" is rejected: it has no capital letter (and contains "password"). */
  lemma NoPasswordRejected()
    ensures Validate("nopassword123!").Rejected?
  {
    assert !HasUpper("nopassword123!");
    assert !BackendChecks("nopassword123!").uppercase;
  }

  /** "qwerty123!" is rejected: no capital letter, and it contains "qwerty123". */
  lemma QwertyRejected()
    ensures Validate("qwerty123!").Rejected?
  {
    assert !HasUpper("qwerty123!");
    assert !BackendChecks("qwerty123!").uppercase;
  }
}

=== FILE: text.dfy ===
/**
 * String operations the client and the server rely on, with the semantics of
 * the language that calls them spelled out where JavaScript and Python differ.
 * A Dafny `string` is a sequence of Unicode scalar values (code points).
 */
module Text {

  /** `sub` occurs in `s` starting at index `i`. */
  predicate OccursAt(s: string, sub: string, i: int) {
    0 <= i && i + |sub| <= |s| && s[i..i + |sub|] == sub
  }

  /**
   * Substring test, JavaScript `s.includes(sub)` and Python `sub in s`.
   * Written as a scan so that it can be evaluated on literal strings.
   */
  function Contains(s: string, sub: string): (r: bool)
    ensures r <==> exists i :: OccursAt(s, sub, i)
  {
    if sub <= s then
      assert OccursAt(s, sub, 0);
      true
    else if |s| == 0 then
      assert forall i :: !OccursAt(s, sub, i);
      false
    else
      var r := Contains(s[1..], sub);
      assert forall i :: OccursAt(s[1..], sub, i) <==> OccursAt(s, sub, i + 1);
      assert !OccursAt(s, sub, 0);
      assert forall i :: OccursAt(s, sub, i) ==> i == 0 || OccursAt(s[1..], sub, i - 1);
      r
  }

  /** `parts.join(sep)` / `sep.join(parts)`. */
  function Join(parts: seq<string>, sep: string): (r: string)
    ensures |parts| == 1 ==> r == parts[0]
    ensures |parts| == 0 ==> r == ""
  {
    if |parts| == 0 then ""
    else if |parts| == 1 then parts[0]
    else parts[0] + sep + Join(parts[1..], sep)
  }

  /** Index of the first occurrence of `c` in `s`, or `|s|` when there is none. */
  function IndexOf(s: string, c: char): (k: nat)
    ensures k <= |s|
    ensures k < |s| ==> s[k] == c
    ensures forall j :: 0 <= j < k ==> s[j] != c
  {
    if |s| == 0 then 0
    else if s[0] == c then 0
    else 1 + IndexOf(s[1..], c)
  }

  /** The first occurrence of `c` is the one found. */
  lemma IndexOfFirst(s: string, c: char, k: nat)
    requires k < |s| && s[k] == c
    requires forall j :: 0 <= j < k ==> s[j] != c
    ensures IndexOf(s, c) == k
  {
  }

  /** Python `s.split(sep)` for a one-character separator: never empty. */
  function Split(s: string, sep: char): (parts: seq<string>)
    ensures |parts| >= 1
    decreases |s|
  {
    var k := IndexOf(s, sep);
    if k == |s| then [s] else [s[..k]] + Split(s[k + 1..], sep)
  }

  /** No part contains the separator. */
  lemma {:induction false} SplitPartsFree(s: string, sep: char)
    ensures forall p :: p in Split(s, sep) ==> sep !in p
    decreases |s|
  {
    var k := IndexOf(s, sep);
    if k < |s| {
      SplitPartsFree(s[k + 1..], sep);
    }
  }

  /** Splitting and joining back with the same separator is the identity. */
  lemma {:induction false} JoinSplit(s: string, sep: char)
    ensures Join(Split(s, sep), [sep]) == s
    decreases |s|
  {
    var k := IndexOf(s, sep);
    if k < |s| {
      JoinSplit(s[k + 1..], sep);
      var rest := Split(s[k + 1..], sep);
      var parts := [s[..k]] + rest;
      assert Split(s, sep) == parts;
      assert parts[0] == s[..k] && parts[1..] == rest && |parts| >= 2;
      assert Join(parts, [sep]) == s[..k] + [sep] + Join(rest, [sep]);
      assert s == s[..k] + [sep] + s[k + 1..];
    }
  }

  /** Joining parts that do not contain the separator and splitting again gives the parts back. */
  lemma {:induction false} SplitJoin(parts: seq<string>, sep: char)
    requires |parts| >= 1
    requires forall i :: 0 <= i < |parts| ==> sep !in parts[i]
    ensures Split(Join(parts, [sep]), sep) == parts
  {
    if |parts| == 1 {
      assert IndexOf(parts[0], sep) == |parts[0]|;
    } else {
      var tail := Join(parts[1..], [sep]);
      var s := parts[0] + [sep] + tail;
      var k := |parts[0]|;
      assert Join(parts, [sep]) == s;
      assert s[..k] == parts[0] && s[k + 1..] == tail;
      IndexOfFirst(s, sep, k);
      SplitJoin(parts[1..], sep);
      assert Split(s, sep) == [s[..k]] + Split(s[k + 1..], sep);
    }
  }

  /** The text before the first `sep`, which is `Split(s, sep)[0]`. */
  function BeforeFirst(s: string, sep: char): (r: string)
    ensures r <= s
    ensures sep !in r
    ensures |r| < |s| ==> s[|r|] == sep
  {
    s[..IndexOf(s, sep)]
  }

  lemma BeforeFirstIsFirstPart(s: string, sep: char)
    ensures BeforeFirst(s, sep) == Split(s, sep)[0]
  {
  }

  /** Number of UTF-16 code units: JavaScript's `s.length`. */
  function Utf16Length(s: string): (n: nat)
    ensures |s| <= n <= 2 * |s|
    ensures AllBmp(s) ==> n == |s|
  {
    if |s| == 0 then 0
    else (if s[0] as int >= 0x1_0000 then 2 else 1) + Utf16Length(s[1..])
  }

  /** UTF-16 length is additive. */
  lemma {:induction false} Utf16LengthAppend(a: string, b: string)
    ensures Utf16Length(a + b) == Utf16Length(a) + Utf16Length(b)
  {
    if |a| > 0 {
      assert (a + b)[1..] == a[1..] + b;
      Utf16LengthAppend(a[1..], b);
    } else {
      assert a + b == b;
    }
  }

  /** Every character lies in the Basic Multilingual Plane (one UTF-16 unit each). */
  predicate AllBmp(s: string) {
    forall i :: 0 <= i < |s| ==> s[i] as int < 0x1_0000
  }

  /**
   * Lower-casing of one character: ASCII A-Z, the KELVIN SIGN U+212A (which
   * both JavaScript and Python lower-case to 'k') and the Cyrillic capitals
   * U+0400-U+042F. Other scripts are returned unchanged.
   */
  function LowerChar(c: char): (d: char)
    ensures 'A' <= c <= 'Z' ==> d as int == c as int + 32
    ensures c == '\U{212A}' ==> d == 'k'
    ensures !('A' <= c <= 'Z') && !('Ѐ' <= c <= 'Я') && c != '\U{212A}' ==> d == c
  {
    if 'A' <= c <= 'Z' then (c as int + 32) as char
    else if c == '\U{212A}' then 'k'
    else if 'А' <= c <= 'Я' then (c as int + 32) as char
    else if 'Ѐ' <= c <= 'Џ' then (c as int + 0x50) as char
    else c
  }

  /** JavaScript `toLowerCase()` / Python `lower()`, restricted as in `LowerChar`. */
  function Lower(s: string): (r: string)
    ensures |r| == |s|
    ensures forall i :: 0 <= i < |s| ==> r[i] == LowerChar(s[i])
  {
    seq(|s|, i requires 0 <= i < |s| => LowerChar(s[i]))
  }

  /**
   * JavaScript whitespace for `trim()`: WhiteSpace and LineTerminator, that is
   * tab, LF, VT, FF, CR, space, NBSP, the Unicode space separators, LS, PS and
   * the byte-order mark U+FEFF.
   */
  predicate IsJsSpace(c: char) {
    var n := c as int;
    (0x09 <= n <= 0x0D) || n == 0x20 || n == 0xA0 || n == 0x1680
    || (0x2000 <= n <= 0x200A) || n == 0x2028 || n == 0x2029
    || n == 0x202F || n == 0x205F || n == 0x3000 || n == 0xFEFF
  }

  /**
   * Python `str.isspace()` characters, which `strip()` removes: as for
   * JavaScript but with the separators U+001C-U+001F and NEL U+0085, and
   * without U+FEFF.
   */
  predicate IsPySpace(c: char) {
    var n := c as int;
    (0x09 <= n <= 0x0D) || (0x1C <= n <= 0x20) || n == 0x85 || n == 0xA0 || n == 0x1680
    || (0x2000 <= n <= 0x200A) || n == 0x2028 || n == 0x2029
    || n == 0x202F || n == 0x205F || n == 0x3000
  }

  /** Number of leading characters of `s` satisfying `ws`. */
  function Leading(s: string, ws: char -> bool): (k: nat)
    ensures k <= |s|
    ensures forall i :: 0 <= i < k ==> ws(s[i])
    ensures k < |s| ==> !ws(s[k])
  {
    if |s| > 0 && ws(s[0]) then 1 + Leading(s[1..], ws) else 0
  }

  /** Number of trailing characters of `s` satisfying `ws`. */
  function Trailing(s: string, ws: char -> bool): (k: nat)
    ensures k <= |s|
    ensures forall i :: |s| - k <= i < |s| ==> ws(s[i])
    ensures k < |s| ==> !ws(s[|s| - k - 1])
  {
    if |s| > 0 && ws(s[|s| - 1]) then 1 + Trailing(s[..|s| - 1], ws) else 0
  }

  /** Removes surrounding whitespace; empty exactly when `s` is all whitespace. */
  function Trim(s: string, ws: char -> bool): (r: string)
    ensures |r| <= |s|
    ensures r == "" <==> forall i :: 0 <= i < |s| ==> ws(s[i])
    ensures |r| > 0 ==> !ws(r[0]) && !ws(r[|r| - 1])
    ensures exists a, b ::
      && 0 <= a <= b <= |s| && r == s[a..b]
      && (forall i :: 0 <= i < a ==> ws(s[i]))
      && (forall i :: b <= i < |s| ==> ws(s[i]))
  {
    var a := Leading(s, ws);
    var t := s[a..];
    var b := a + |t| - Trailing(t, ws);
    assert t[..|t| - Trailing(t, ws)] == s[a..b];
    assert forall i :: b <= i < |s| ==> s[i] == t[i - a];
    t[..|t| - Trailing(t, ws)]
  }

  /** JavaScript `s.trim()`. */
  function JsTrim(s: string): string {
    Trim(s, IsJsSpace)
  }

  /** Python `s.strip()`. */
  function PyStrip(s: string): string {
    Trim(s, IsPySpace)
  }

  /** Stripping leaves a text alone when neither end is whitespace. */
  lemma {:induction false} PyStripUnspaced(s: string)
    requires s != "" && !IsPySpace(s[0]) && !IsPySpace(s[|s| - 1])
    ensures PyStrip(s) == s
  {
    var a, b :| 0 <= a <= b <= |s| && PyStrip(s) == s[a..b]
      && (forall i :: 0 <= i < a ==> IsPySpace(s[i])) && (forall i :: b <= i < |s| ==> IsPySpace(s[i]));
    assert a == 0 && b == |s|;
  }

  /** Decimal digits of a natural number, most significant first. */
  function NatToDecimal(n: nat): (r: string)
    ensures |r| >= 1
    ensures forall i :: 0 <= i < |r| ==> '0' <= r[i] <= '9'
  {
    var d := ['0' + (n % 10) as char];
    if n < 10 then d else NatToDecimal(n / 10) + d
  }

  /** Python `str(n)` / JavaScript `String(n)` for an integer. */
  function IntToDecimal(n: int): (r: string)
    ensures |r| >= 1
    ensures forall i :: 0 <= i < |r| ==> r[i] == '-' || '0' <= r[i] <= '9'
  {
    if n < 0 then "-" + NatToDecimal(-n) else NatToDecimal(n)
  }
}

=== FILE: user_files_page.dfy ===
/**
 * The file list page (frontend/src/pages/UserFilesPage.js): loading the
 * list, the type labels, which view is shown, and opening and closing the
 * preview. Object URLs are opaque strings; the decrypted content behind them
 * is not modelled.
 */
module UserFilesPage {
  import opened Base
  import opened Json

  /** The fields of a file entry the page uses. */
  datatype FileMeta = FileMeta(id: int, name: string, contentType: string)

  /** The page's state. */
  datatype PageState = PageState(
    files: Json,
    loading: bool,
    error: string,
    previewFile: Option<FileMeta>,
    previewUrl: Option<string>,
    loadingPreview: bool)

  function Initial(): PageState {
    PageState(Arr([]), true, "", None, None, false)
  }

  const ListError: string := "Не удалось загрузить список файлов"

  // ---------------------------------------------------------------- list

  /** The label in the type column. */
  datatype TypeLabel = ImageLabel | AudioLabel | FileLabel

  function LabelOf(contentType: string): (l: TypeLabel)
    ensures l == ImageLabel <==> "image/" <= contentType
    ensures l == AudioLabel <==> "audio/" <= contentType
    ensures l == FileLabel <==> !("image/" <= contentType) && !("audio/" <= contentType)
  {
    if "image/" <= contentType then
      assert contentType[0] == 'i';
      ImageLabel
    else if "audio/" <= contentType then AudioLabel
    else FileLabel
  }

  /** Every type the server accepts gets an image or audio label. */
  lemma AcceptedTypesLabelled(contentType: string)
    requires contentType in ["image/jpeg", "image/png", "image/gif", "audio/mpeg", "audio/wav"]
    ensures LabelOf(contentType) != FileLabel
  {
    assert "image/" <= "image/jpeg" && "image/" <= "image/png" && "image/" <= "image/gif";
    assert "audio/" <= "audio/mpeg" && "audio/" <= "audio/wav";
  }

  /** What a fetch of the list gave. */
  datatype ListReply = Listed(data: Json) | ListFailed

  /** `loadFiles`: the data on success, the message on failure; loading ends false. */
  function LoadFiles(s: PageState, reply: ListReply): (r: PageState)
    ensures !r.loading
    ensures reply.Listed? ==> r.files == reply.data && r.error == s.error
    ensures reply.ListFailed? ==> r.error == ListError && r.files == s.files
    ensures r.previewFile == s.previewFile && r.previewUrl == s.previewUrl
  {
    match reply
    case Listed(data) => s.(files := data, loading := false)
    case ListFailed => s.(error := ListError, loading := false)
  }

  /** What the list area shows. */
  datatype ListView = LoadingList | ErrorText(message: string) | NoFiles | Table

  /** `files.length === 0`, for the values a list reply can hold. */
  predicate NoEntries(files: Json) {
    (files.Arr? && |files.items| == 0) || (files.Str? && files.s == "")
  }

  /** The view: loading first, then the error, then the empty note, then the table. */
  function View(s: PageState): (v: ListView)
    ensures v == LoadingList <==> s.loading
    ensures v.ErrorText? <==> !s.loading && s.error != ""
    ensures v.ErrorText? ==> v.message == s.error
    ensures v == NoFiles <==> !s.loading && s.error == "" && NoEntries(s.files)
  {
    if s.loading then LoadingList
    else if s.error != "" then ErrorText(s.error)
    else if NoEntries(s.files) then NoFiles
    else Table
  }

  /** A failed load always shows its message, whatever list was there before. */
  lemma FailedLoadShowsError(s: PageState)
    ensures View(LoadFiles(s, ListFailed)) == ErrorText(ListError)
  {
  }

  // ---------------------------------------------------------------- preview

  /** `handlePreview` up to the request: the file is shown as opening at once. */
  function StartPreview(s: PageState, file: FileMeta): (r: PageState)
    ensures r.loadingPreview && r.previewFile == Some(file)
    ensures r.previewUrl == s.previewUrl && r.files == s.files && r.error == s.error
  {
    s.(loadingPreview := true, previewFile := Some(file))
  }

  /** What fetching the content gave: an object URL for it, or an error. */
  datatype ContentReply = ContentUrl(url: string) | ContentFailed

  /**
   * The rest of `handlePreview`: the URL on success, the preview closed on
   * failure; `loadingPreview` ends false.
   */
  function FinishPreview(s: PageState, reply: ContentReply): (r: PageState)
    ensures !r.loadingPreview
    ensures reply.ContentUrl? ==> r.previewUrl == Some(reply.url) && r.previewFile == s.previewFile
    ensures reply.ContentFailed? ==> r.previewFile.None? && r.previewUrl == s.previewUrl
    ensures r.files == s.files && r.error == s.error && r.loading == s.loading
  {
    match reply
    case ContentUrl(url) => s.(previewUrl := Some(url), loadingPreview := false)
    case ContentFailed => s.(previewFile := None, loadingPreview := false)
  }

  /**
   * `handlePreview` as the evident intent has it: the content is fetched by
   * a service method, answered by `reply`.
   */
  function HandlePreview(s: PageState, file: FileMeta, reply: ContentReply): (r: PageState)
    ensures !r.loadingPreview
    ensures reply.ContentUrl? ==> r.previewFile == Some(file) && r.previewUrl == Some(reply.url)
    ensures reply.ContentFailed? ==> r.previewFile.None?
  {
    FinishPreview(StartPreview(s, file), reply)
  }

  /**
   * `handlePreview` as written: the service has no `getFileContent`, so the
   * call throws before any request and the failure branch always runs.
   */
  function HandlePreviewAsWritten(s: PageState, file: FileMeta): (r: PageState)
    ensures r.previewFile.None? && !r.loadingPreview && r.previewUrl == s.previewUrl
  {
    FinishPreview(StartPreview(s, file), ContentFailed)
  }

  /** `closePreview`: the state after, and the URL revoked, if one was set. */
  datatype Closed = Closed(state: PageState, revoked: Option<string>)

  function ClosePreview(s: PageState): (r: Closed)
    ensures r.state.previewFile.None? && r.state.previewUrl.None?
    ensures r.revoked == s.previewUrl
    ensures r.state.files == s.files && r.state.loadingPreview == s.loadingPreview
  {
    Closed(s.(previewFile := None, previewUrl := None), s.previewUrl)
  }

  /** What the preview modal shows. */
  datatype Modal = NoModal | Spinner | Image(url: string) | Audio(url: string, contentType: string)

  /** No modal without a file; a spinner until the URL is set; then image or audio by type. */
  function ModalOf(s: PageState): (m: Modal)
    ensures m == NoModal <==> s.previewFile.None?
    ensures m == Spinner <==> s.previewFile.Some? && s.previewUrl.None?
    ensures m.Image? ==> s.previewUrl == Some(m.url) && "image/" <= s.previewFile.value.contentType
    ensures m.Audio? ==> s.previewUrl == Some(m.url) && !("image/" <= s.previewFile.value.contentType)
                         && m.contentType == s.previewFile.value.contentType
  {
    match s.previewFile
    case None => NoModal
    case Some(f) =>
      match s.previewUrl
      case None => Spinner
      case Some(url) => if "image/" <= f.contentType then Image(url) else Audio(url, f.contentType)
  }

  /** The row button is disabled only for the file being opened, while it opens. */
  predicate RowDisabled(s: PageState, file: FileMeta) {
    s.loadingPreview && s.previewFile.Some? && s.previewFile.value.id == file.id
  }

  /** While one file opens, every row with another id stays enabled. */
  lemma OnlyOpeningRowDisabled(s: PageState, opening: FileMeta, other: FileMeta)
    requires other.id != opening.id
    ensures RowDisabled(StartPreview(s, opening), opening)
    ensures !RowDisabled(StartPreview(s, other), opening)
  {
  }

  /** Closing after a successful preview revokes the URL it created and hides the modal. */
  lemma {:induction false} PreviewThenClose(s: PageState, file: FileMeta, url: string)
    ensures var shownState := HandlePreview(s, file, ContentUrl(url));
      ModalOf(shownState) != NoModal && ModalOf(shownState) != Spinner
      && ClosePreview(shownState).revoked == Some(url) && ModalOf(ClosePreview(shownState).state) == NoModal
  {
    var shownState := HandlePreview(s, file, ContentUrl(url));
    assert shownState.previewFile == Some(file) && shownState.previewUrl == Some(url);
  }

  /** As written, no file ever opens: after any preview attempt the modal is closed. */
  lemma PreviewNeverOpens(s: PageState, file: FileMeta)
    ensures ModalOf(HandlePreviewAsWritten(s, file)) == NoModal
  {
  }
}

=== FILE: views.dfy ===
/**
 * Status codes and response bodies of the API views in backend/users/views.py.
 * The database, `authenticate`, token issuing, the authentication of the
 * request and file decryption are parameters: the model states what each view
 * answers for every answer they may give. Logging calls are modelled in the
 * `Logger` module and left out here.
 */
module Views {
  import opened Base
  import opened Json
  import opened Text
  import S = Serializers

  const Ok200: nat := 200
  const Created201: nat := 201
  const BadRequest400: nat := 400
  const Unauthorized401: nat := 401
  const NotFound404: nat := 404
  const ServerError500: nat := 500

  datatype Response =
    | JsonResponse(status: nat, body: Json)
    | FileResponse(contentType: string, disposition: string, content: seq<Byte>)
  {
    /** The status line: a file response is a plain 200. */
    function Status(): nat {
      match this
      case JsonResponse(status, _) => status
      case FileResponse(_, _, _) => Ok200
    }
  }

  /**
   * Who sent the request, as the JWT authentication in front of the
   * `IsAuthenticated` views decided: the signed-in user's id, or the 401
   * body it answers with instead, a `{"detail": ...}` object (for a refused
   * token also its code and messages).
   */
  datatype Requester = SignedIn(id: int) | NotSignedIn(body: Json)

  /** The request a view of `IsAuthenticated` answers without running: 401 and the authentication's body. */
  function Unauthenticated(who: Requester): (r: Response)
    requires who.NotSignedIn?
    ensures r.JsonResponse? && r.Status() == Unauthorized401 && r.body == who.body
  {
    JsonResponse(Unauthorized401, who.body)
  }

  /** The part of a user row the views put into responses. */
  datatype User = User(id: int, username: string, email: string)

  /** `str(refresh)` and `str(refresh.access_token)`. */
  datatype Tokens = Tokens(refresh: string, access: string)

  function UserJson(u: User): Json {
    Obj(map["id" := Int(u.id), "username" := Str(u.username), "email" := Str(u.email)])
  }

  function TokensJson(t: Tokens): Json {
    Obj(map["refresh" := Str(t.refresh), "access" := Str(t.access)])
  }

  /** A list of messages as a JSON array of strings. */
  function StrList(ss: seq<string>): (j: seq<Json>)
    ensures |j| == |ss|
    ensures forall i :: 0 <= i < |ss| ==> j[i] == Str(ss[i])
  {
    seq(|ss|, i requires 0 <= i < |ss| => Str(ss[i]))
  }

  /** `serializer.errors` rendered as a JSON object of string arrays. */
  function ErrorsJson(e: S.Errors): (j: Json)
    ensures j.Obj? && j.fields.Keys == e.Keys
  {
    Obj(map k | k in e :: Arr(StrList(e[k])))
  }

  /** Reads back a list of strings; `None` if some item is not a string. */
  function Strings(items: seq<Json>): (r: Option<seq<string>>)
    ensures r.Some? ==> |r.value| == |items|
  {
    if |items| == 0 then Some([])
    else if !items[0].Str? then None
    else match Strings(items[1..])
      case None => None
      case Some(rest) => Some([items[0].s] + rest)
  }

  lemma {:induction false} StringsOfStrList(ss: seq<string>)
    ensures Strings(StrList(ss)) == Some(ss)
  {
    if |ss| > 0 {
      assert StrList(ss)[1..] == StrList(ss[1..]);
      StringsOfStrList(ss[1..]);
      assert [ss[0]] + ss[1..] == ss;
    }
  }

  /** The client's reading of an error body: each field's message list. */
  function DecodeErrors(j: Json): (r: Option<S.Errors>)
  {
    if j.Obj? && forall k :: k in j.fields ==> j.fields[k].Arr? && Strings(j.fields[k].items).Some?
    then Some(map k | k in j.fields :: Strings(j.fields[k].items).value)
    else None
  }

  /** The error body loses nothing: decoding it gives the serializer's errors back. */
  lemma ErrorsRoundTrip(e: S.Errors)
    ensures DecodeErrors(ErrorsJson(e)) == Some(e)
  {
    var j := ErrorsJson(e);
    forall k | k in j.fields
      ensures j.fields[k].Arr? && Strings(j.fields[k].items) == Some(e[k])
    {
      StringsOfStrList(e[k]);
    }
    assert (map k | k in j.fields :: Strings(j.fields[k].items).value) == e;
  }

  const RegisteredMessage: string := "Пользователь успешно зарегистрирован"

  /** The 201 body of a registration. */
  function RegisteredBody(u: User, t: Tokens): (j: Json)
    ensures Field(j, "message") == Some(Str(RegisteredMessage))
    ensures Field(j, "user") == Some(UserJson(u))
    ensures Field(j, "tokens") == Some(TokensJson(t))
  {
    Obj(map["message" := Str(RegisteredMessage), "user" := UserJson(u), "tokens" := TokensJson(t)])
  }

  /**
   * `register_view`: 201 with the message, the new user and its tokens when
   * the serializer accepts the payload; otherwise 400 with its errors.
   * `newId` is the primary key the database assigns.
   */
  function RegisterView(form: S.RegistrationForm, modelErrors: S.Errors, newId: int, issue: User -> Tokens): (r: Response)
    ensures r.JsonResponse?
    ensures r.Status() == Created201 <==> S.ValidateRegistration(form, modelErrors).Valid?
    ensures r.Status() == Created201 ==>
      var u := User(newId, PyStrip(form.username), PyStrip(form.email));
      Field(r.body, "user") == Some(UserJson(u))
      && Field(r.body, "tokens") == Some(TokensJson(issue(u)))
      && Field(r.body, "message") == Some(Str(RegisteredMessage))
    ensures r.Status() != Created201 ==>
      r.Status() == BadRequest400
      && r.body == ErrorsJson(S.ValidateRegistration(form, modelErrors).errors)
  {
    match S.ValidateRegistration(form, modelErrors)
    case Valid(data) =>
      var user := User(newId, data.username, data.email);
      JsonResponse(Created201, RegisteredBody(user, issue(user)))
    case Invalid(errors) => JsonResponse(BadRequest400, ErrorsJson(errors))
  }

  const InvalidCredentialsMessage: string := "Неверные учетные данные"

  /**
   * `login_view`: 400 with the serializer errors, 401 when `authenticate`
   * finds no user, 200 with tokens and user otherwise.
   */
  function LoginView(body: Json, authenticate: S.Credentials -> Option<User>, issue: User -> Tokens): (r: Response)
    ensures r.JsonResponse?
    ensures r.Status() == BadRequest400 <==> S.ValidateLogin(body).Invalid?
    ensures r.Status() == Unauthorized401 <==>
      S.ValidateLogin(body).Valid? && authenticate(S.ValidateLogin(body).data).None?
    ensures r.Status() == Unauthorized401 ==>
      r.body == Obj(map["error" := Str(InvalidCredentialsMessage)])
    ensures r.Status() == Ok200 ==>
      var u := authenticate(S.ValidateLogin(body).data);
      u.Some? && Field(r.body, "user") == Some(UserJson(u.value))
      && Field(r.body, "tokens") == Some(TokensJson(issue(u.value)))
    ensures r.Status() in {Ok200, BadRequest400, Unauthorized401}
  {
    match S.ValidateLogin(body)
    case Invalid(errors) => JsonResponse(BadRequest400, ErrorsJson(errors))
    case Valid(credentials) =>
      match authenticate(credentials)
      case None => JsonResponse(Unauthorized401, Obj(map["error" := Str(InvalidCredentialsMessage)]))
      case Some(user) =>
        JsonResponse(Ok200, Obj(map["tokens" := TokensJson(issue(user)), "user" := UserJson(user)]))
  }

  /** What saving the upload did: the new row's id, or an exception. */
  datatype SaveOutcome = Saved(id: int) | SaveFailed(error: string)

  const UploadedMessage: string := "Файл успешно загружен и зашифрован"
  const SaveErrorMessage: string := "Ошибка при сохранении файла"

  /** The `file_info` object: the stored name, size, type and description. */
  function FileInfo(id: int, f: S.UploadedFile, description: string): Json {
    Obj(map[
      "id" := Int(id),
      "name" := Str(f.name),
      "size" := Int(f.size),
      "type" := Str(f.contentType),
      "description" := Str(description)])
  }

  /**
   * `file_upload_view`: 401 without a signed-in user; 400 with the serializer
   * errors; 500 when saving raises; otherwise 201 with `file_info`. An
   * absent description is stored as "".
   */
  function UploadView(who: Requester, form: S.UploadForm, save: (S.UploadedFile, string) -> SaveOutcome): (r: Response)
    ensures r.JsonResponse?
    ensures r.Status() == Unauthorized401 <==> who.NotSignedIn?
    ensures who.NotSignedIn? ==> r.body == who.body
    ensures r.Status() == BadRequest400 <==> who.SignedIn? && S.ValidateUpload(form).Invalid?
    ensures r.Status() == BadRequest400 ==> r.body == ErrorsJson(S.ValidateUpload(form).errors)
    ensures r.Status() == ServerError500 ==>
      r.body == Obj(map["error" := Str(SaveErrorMessage)])
    ensures r.Status() == Created201 ==>
      form.file.Some?
      && var d := S.ValidateUpload(form).data.description.GetOr("");
      save(form.file.value, d).Saved?
      && Field(r.body, "file_info") == Some(FileInfo(save(form.file.value, d).id, form.file.value, d))
    ensures who.SignedIn? ==> r.Status() in {Created201, BadRequest400, ServerError500}
  {
    if who.NotSignedIn? then Unauthenticated(who)
    else match S.ValidateUpload(form)
    case Invalid(errors) => JsonResponse(BadRequest400, ErrorsJson(errors))
    case Valid(upload) =>
      var description := upload.description.GetOr("");
      match save(upload.file, description)
      case SaveFailed(_) => JsonResponse(ServerError500, Obj(map["error" := Str(SaveErrorMessage)]))
      case Saved(id) =>
        JsonResponse(Created201, Obj(map[
          "message" := Str(UploadedMessage),
          "file_info" := FileInfo(id, upload.file, description)]))
  }

  /** An upload without a description is stored, and echoed, with the empty string. */
  lemma AbsentDescriptionIsEmpty(user: int, f: S.UploadedFile, save: (S.UploadedFile, string) -> SaveOutcome)
    requires f.size > 0 && S.ValidateFile(f).Ok?
    requires save(f, "").Saved?
    ensures UploadView(SignedIn(user), S.UploadForm(Some(f), None), save).Status() == Created201
    ensures Field(UploadView(SignedIn(user), S.UploadForm(Some(f), None), save).body, "file_info")
         == Some(FileInfo(save(f, "").id, f, ""))
  {
  }

  /** A stored file row. */
  datatype StoredFile = StoredFile(
    id: int,
    owner: int,
    name: string,
    size: nat,
    contentType: string,
    description: string,
    uploadedAt: string)

  /** `UserFile.objects.filter(user=owner)`, in the query's order. */
  function OwnedBy(files: seq<StoredFile>, owner: int): (r: seq<StoredFile>)
    ensures |r| <= |files|
    ensures forall f :: f in r <==> f in files && f.owner == owner
  {
    if |files| == 0 then []
    else (if files[0].owner == owner then [files[0]] else []) + OwnedBy(files[1..], owner)
  }

  /** One file is kept exactly when it is the owner's. */
  lemma OwnedBySingle(f: StoredFile, owner: int)
    ensures OwnedBy([f], owner) == if f.owner == owner then [f] else []
  {
    assert [f][1..] == [];
  }

  /** Filtering distributes over concatenation, so the owner's files keep their relative order. */
  lemma {:induction false} OwnedByAppend(a: seq<StoredFile>, b: seq<StoredFile>, owner: int)
    ensures OwnedBy(a + b, owner) == OwnedBy(a, owner) + OwnedBy(b, owner)
  {
    if |a| == 0 {
      assert a + b == b;
    } else {
      assert (a + b)[1..] == a[1..] + b;
      OwnedByAppend(a[1..], b, owner);
    }
  }

  /** One entry of the file list. */
  function FileEntry(f: StoredFile): Json {
    Obj(map[
      "id" := Int(f.id),
      "name" := Str(f.name),
      "size" := Int(f.size),
      "type" := Str(f.contentType),
      "description" := Str(f.description),
      "uploaded_at" := Str(f.uploadedAt)])
  }

  /** `user_files_view`: 401 without a signed-in user, else one entry per file of the requester, in order. */
  function FilesView(files: seq<StoredFile>, who: Requester): (r: Response)
    ensures r.JsonResponse?
    ensures who.NotSignedIn? ==> r.Status() == Unauthorized401 && r.body == who.body
    ensures who.SignedIn? ==> r.Status() == Ok200 && r.body.Arr?
    ensures who.SignedIn? ==> |r.body.items| == |OwnedBy(files, who.id)|
    ensures who.SignedIn? ==> forall i :: 0 <= i < |r.body.items| ==> r.body.items[i] == FileEntry(OwnedBy(files, who.id)[i])
  {
    if who.NotSignedIn? then Unauthenticated(who)
    else
      var owned := OwnedBy(files, who.id);
      JsonResponse(Ok200, Arr(seq(|owned|, i requires 0 <= i < |owned| => FileEntry(owned[i]))))
  }

  /** `get_object_or_404(UserFile, id=file_id, user=requester)`. */
  function FindOwned(files: seq<StoredFile>, id: int, owner: int): (r: Option<StoredFile>)
    ensures r.None? <==> forall f :: f in files ==> !(f.id == id && f.owner == owner)
    ensures r.Some? ==> r.value in files && r.value.id == id && r.value.owner == owner
  {
    if |files| == 0 then None
    else if files[0].id == id && files[0].owner == owner then Some(files[0])
    else
      var r := FindOwned(files[1..], id, owner);
      assert forall f :: f in files ==> f == files[0] || f in files[1..];
      r
  }

  const DownloadErrorMessage: string := "Ошибка при получении файла"

  /** The framework's rendering of the `Http404` of `get_object_or_404`. */
  const NotFoundDetail: string := "No UserFile matches the given query."

  function NotFoundBody(): Json {
    Obj(map["detail" := Str(NotFoundDetail)])
  }

  /** `inline; filename="<name>"`: the browser shows the file instead of saving it. */
  function InlineDisposition(name: string): (d: string)
    ensures |d| == |name| + 19
    ensures d[..17] == "inline; filename=" && d[17] == '"' && d[|d| - 1] == '"'
    ensures d[18..|d| - 1] == name
  {
    "inline; filename=" + "\"" + name + "\""
  }

  /**
   * `download_file_view`: 401 without a signed-in user; 404 unless the
   * requester owns a file with that id; the decrypted bytes with the stored
   * content type and an inline disposition; 500 when decryption raises.
   */
  function DownloadView(files: seq<StoredFile>, fileId: int, who: Requester,
                        decrypt: StoredFile -> Option<seq<Byte>>): (r: Response)
    ensures r.Status() == Unauthorized401 <==> who.NotSignedIn?
    ensures who.NotSignedIn? ==> r.JsonResponse? && r.body == who.body
    ensures r.Status() == NotFound404 <==> who.SignedIn? && FindOwned(files, fileId, who.id).None?
    ensures r.Status() == NotFound404 ==> r == JsonResponse(NotFound404, NotFoundBody())
    ensures r.FileResponse? ==> who.SignedIn?
    ensures r.FileResponse? ==>
      exists f :: f in files && f.id == fileId && f.owner == who.id
        && decrypt(f) == Some(r.content) && r.contentType == f.contentType
        && r.disposition == InlineDisposition(f.name)
    ensures r.Status() == ServerError500 <==>
      who.SignedIn? && FindOwned(files, fileId, who.id).Some? && decrypt(FindOwned(files, fileId, who.id).value).None?
    ensures r.Status() == ServerError500 ==>
      r.JsonResponse? && r.body == Obj(map["error" := Str(DownloadErrorMessage)])
  {
    if who.NotSignedIn? then Unauthenticated(who)
    else match FindOwned(files, fileId, who.id)
    case None => JsonResponse(NotFound404, NotFoundBody())
    case Some(f) =>
      match decrypt(f)
      case Some(content) => FileResponse(f.contentType, InlineDisposition(f.name), content)
      case None => JsonResponse(ServerError500, Obj(map["error" := Str(DownloadErrorMessage)]))
  }

  /** A file that belongs to someone else is never served: the requester gets 404. */
  lemma OthersFilesNotServed(files: seq<StoredFile>, fileId: int, requester: int,
                             decrypt: StoredFile -> Option<seq<Byte>>)
    requires forall f :: f in files && f.id == fileId ==> f.owner != requester
    ensures DownloadView(files, fileId, SignedIn(requester), decrypt) == JsonResponse(NotFound404, NotFoundBody())
  {
  }

  /** Sequence reversal, `history_data[::-1]`. */
  function Reverse<T>(s: seq<T>): (r: seq<T>)
    ensures |r| == |s|
    ensures forall i :: 0 <= i < |s| ==> r[i] == s[|s| - 1 - i]
  {
    seq(|s|, i requires 0 <= i < |s| => s[|s| - 1 - i])
  }

  const WeatherRows: nat := 20

  /** How many rows the view sends: at most `WeatherRows`. */
  function SentRows(n: nat): (k: nat)
    ensures k <= n && k <= WeatherRows && (k < WeatherRows ==> k == n)
  {
    if n < WeatherRows then n else WeatherRows
  }

  /**
   * `weather_view`: 401 without a signed-in user; otherwise at most the first
   * 20 serialized rows, in the order the query returns them; `current` is
   * the first of them or null, `history` the same rows in reverse order.
   */
  function WeatherView(who: Requester, rows: seq<Json>): (r: Response)
    ensures r.JsonResponse?
    ensures who.NotSignedIn? ==> r.Status() == Unauthorized401 && r.body == who.body
    ensures who.SignedIn? ==> r.Status() == Ok200
    ensures who.SignedIn? ==> var h := Field(r.body, "history");
      h.Some? && h.value.Arr? && |h.value.items| == SentRows(|rows|)
    ensures who.SignedIn? ==> var h := Field(r.body, "history");
      forall i :: 0 <= i < SentRows(|rows|) ==> h.value.items[i] == rows[SentRows(|rows|) - 1 - i]
    ensures who.SignedIn? ==> var c := Field(r.body, "current");
      c.Some? && (|rows| == 0 ==> c.value == Null) && (|rows| > 0 ==> c.value == rows[0])
  {
    if who.NotSignedIn? then Unauthenticated(who)
    else
      var firstRows := rows[..SentRows(|rows|)];
      var current := if |firstRows| > 0 then firstRows[0] else Null;
      var body := Obj(map["current" := current, "history" := Arr(Reverse(firstRows))]);
      assert Field(body, "history") == Some(Arr(Reverse(firstRows)));
      assert Field(body, "current") == Some(current);
      JsonResponse(Ok200, body)
  }

  /** The current reading is the last entry of the history (the oldest first). */
  lemma CurrentIsLastOfHistory(user: int, rows: seq<Json>)
    requires |rows| > 0
    ensures var h := Field(WeatherView(SignedIn(user), rows).body, "history").value.items;
      |h| > 0 && Field(WeatherView(SignedIn(user), rows).body, "current") == Some(h[|h| - 1])
  {
  }
}

=== FILE: weather_dashboard.dfy ===
/**
 * The weather page (frontend/src/pages/WeatherDashboard.js): the loads that
 * run on mount and every five minutes, and what the page renders. The timer
 * is modelled as a sequence of loads; what each fetch gave is a parameter.
 */
module WeatherDashboard {
  import opened Base
  import opened Json
  import V = Views

  /** The page's state: the current reading (`null` at first), the flag and the error. */
  datatype PageState = PageState(current: Json, loading: bool, error: Option<string>)

  function Initial(): PageState {
    PageState(Null, true, None)
  }

  const LoadError: string := "Не удалось загрузить данные о погоде. (Требуется авторизация или ошибка API)"

  /** What `fetchWeather()` gave: the response data, or an error. */
  datatype WeatherReply = Fetched(data: Json) | FetchFailed

  /**
   * `loadWeather`: on success `current` becomes `data.current` (a missing
   * field reads as nothing); reading it from a `null` body throws and takes
   * the failure branch, which sets the error. Neither branch clears an
   * earlier error, and loading ends false.
   */
  function LoadWeather(s: PageState, reply: WeatherReply): (r: PageState)
    ensures !r.loading
    ensures s.error.Some? ==> r.error.Some?
    ensures r.error == s.error || r.error == Some(LoadError)
    ensures (reply.Fetched? && !reply.data.Null?) ==>
      r.current == Field(reply.data, "current").GetOr(Null) && r.error == s.error
    ensures (reply.FetchFailed? || reply.data.Null?) ==> r.error == Some(LoadError) && r.current == s.current
  {
    match reply
    case Fetched(data) =>
      if data.Null? then s.(error := Some(LoadError), loading := false)
      else s.(current := Field(data, "current").GetOr(Null), loading := false)
    case FetchFailed => s.(error := Some(LoadError), loading := false)
  }

  /** Successive loads, in order. */
  function LoadAll(s: PageState, replies: seq<WeatherReply>): (r: PageState)
    ensures |replies| > 0 ==> !r.loading
    ensures |replies| == 0 ==> r == s
    decreases |replies|
  {
    if |replies| == 0 then s else LoadAll(LoadWeather(s, replies[0]), replies[1..])
  }

  /** What the page renders. */
  datatype Screen = LoadingText | ErrorText(message: string) | NoData | Card(reading: Json)

  /** Loading first, then the error, then "no data yet", then the reading. */
  function Render(s: PageState): (v: Screen)
    ensures v == LoadingText <==> s.loading
    ensures v.ErrorText? <==> !s.loading && s.error.Some? && s.error.value != ""
    ensures v == NoData <==> !s.loading && (s.error.None? || s.error.value == "") && !JsTruthy(s.current)
    ensures v.Card? ==> v.reading == s.current && JsTruthy(s.current)
  {
    if s.loading then LoadingText
    else if s.error.Some? && s.error.value != "" then ErrorText(s.error.value)
    else if !JsTruthy(s.current) then NoData
    else Card(s.current)
  }

  /**
   * Once an error is set no later load clears it: after any further loads
   * the page still shows the error, however fresh the data it now holds.
   */
  lemma {:induction false} ErrorPersists(s: PageState, replies: seq<WeatherReply>)
    requires s.error == Some(LoadError)
    ensures LoadAll(s, replies).error == Some(LoadError)
    ensures |replies| > 0 ==> Render(LoadAll(s, replies)) == ErrorText(LoadError)
    decreases |replies|
  {
    if |replies| > 0 {
      ErrorPersists(LoadWeather(s, replies[0]), replies[1..]);
    }
  }

  /** One failed poll, even the first, hides every later reading for the life of the page. */
  lemma {:induction false} OneFailureHidesLaterReadings(replies: seq<WeatherReply>)
    requires |replies| > 0 && replies[0] == FetchFailed
    ensures Render(LoadAll(Initial(), replies)) == ErrorText(LoadError)
  {
    var s := LoadWeather(Initial(), FetchFailed);
    assert LoadAll(Initial(), replies) == LoadAll(s, replies[1..]);
    ErrorPersists(s, replies[1..]);
    if |replies[1..]| == 0 {
      assert LoadAll(s, replies[1..]) == s;
    }
  }

  /**
   * End to end with the server: a first successful load shows the first row
   * the view's query returns, or the "no data yet" note when there is none.
   */
  lemma ServerReadingShown(user: int, rows: seq<Json>)
    requires forall i :: 0 <= i < |rows| ==> rows[i].Obj?
    ensures var body := V.WeatherView(V.SignedIn(user), rows).body;
      var screen := Render(LoadWeather(Initial(), Fetched(body)));
      (|rows| > 0 ==> screen == Card(rows[0])) && (|rows| == 0 ==> screen == NoData)
  {
  }
}
